=== FILE: README.md ===
# Hostile Breakout, modelled in Dafny

Hostile Breakout is a JavaFX breakout game. A paddle, steered with the arrow
keys, catches and throws a ball that breaks blocks laid out on a square grid.
Power-ups hidden behind the blocks toggle the paddle speed ("speed") and the
ball's throw speed ("slow"), or spawn extra balls ("multiply"). The paddle can
fire bullets, which are the only thing that damages rubber blocks and the
paddle itself. Clearing a level moves the game to the next one. Losing the
ball or the paddle's health costs a life.

This project models the game's core as Dafny and proves what it promises:

- `Breakout.Game` (`hostile_breakout.dfy`) models the game controller
  `HostileBreakout` together with the frame tick of `GameEnvironment`. It
  covers key handling, the collision pass, power-up activation, level
  transitions, life loss, removal of dead blocks, and the tick itself.
- `LevelFactories.LevelFactory` (`level_factory.dfy`) models level generation.
  Every block type places its configured count of blocks on grid cells drawn
  without replacement. Every power-up type then hides its count of power-ups
  behind cells that received a block.
- `Sprites.Sprite` (`sprites.dfy`) is one class for `Sprite`, `Character`,
  `Ball`, `Bullet` and `Paddle`. The constant `kind` takes the place of the
  class hierarchy.
- The blocks (`blocks.dfy`), the power-ups (`power_ups.dfy`), the sprite
  registry (`sprite_manager.dfy`) and the configuration (`properties.dfy`)
  have their own modules.
- `collision_rules.dfy` states the rules of one collision pass on values: the
  flips a velocity goes through, the damage a block or the paddle takes, the
  power-ups recorded, and the toggles. The imperative pass is proved against
  these rules.
- `geometry.dfy` holds the overlap test and box centres. `java_math.dfy`
  holds Java's truncating division and 32-bit wrap-around. `seqs.dfy` holds
  duplicate-free sequences, which stand in for the `HashSet`s.

Modelling choices:

- **Sets.** Every `HashSet` is a duplicate-free sequence in insertion order.
  Java leaves the iteration order unspecified. The properties of the collision
  pass depend only on membership or on counts: a velocity flips once per hit,
  damage adds up, and the recorded power-ups are compared by membership. The
  same holds for power-up activation when no activation throws. When one
  throws, which power-ups were activated before it does depend on the order
  (see `ActivatePowerUps` under "Left out").
- **Centres.** Box centres are kept doubled (`2x + width`), so that the
  half-pixel centre comparisons of `bounceOffBlock` and `handleThrow` are
  exact.
- **Randomness.** `Random.nextInt(bound)` is a nondeterministic choice in
  `[0, bound)`. A bound that is not positive makes the draw throw Java's
  `IllegalArgumentException`. A failed draw during level generation abandons
  the rest of the load, and the factory's `loadFailed` flag records the
  failure. `activateMultiply` draws with the horizontal throw speed and the
  ball speed as bounds. When the count of balls is positive and either bound
  is not, a draw in the first iteration throws and no ball joins; with no
  balls to add, nothing is drawn. Such an exception also abandons the rest of the
  activation loop and of the tick: the power-ups not yet activated stay in
  the level, and dead nodes are not removed. `ActivatePowerUp`,
  `ActivatePowerUps`, `ProcessCollisions` and `Step` report that case with a
  boolean result. A key press of M only adds no ball.
- **Game loop.** The timeline is a boolean `running`. `Game.Play` models
  `animation.play()`.
- **End screens.** Which end screen is up is the field `outcome`. While an end
  screen is showing, the game's own key handler no longer receives keys.

Behaviour of the code that the model keeps:

- **Position pools.** The pools shrink with `ArrayList.remove(int)`, which
  shifts the later entries down.
- **Ball and paddle.** `processCollisions` catches the ball when it touches
  the paddle. The collision pass that follows still makes the caught ball
  `collide` with the paddle, as it does for every sprite.
- **Order of a tick.** The check for a lost life runs inside
  `refreshSprites`, before collisions, not at the end of the tick.
- **Life loss.** Losing a life resets the paddle's damage taken. It does not
  restore its health points.
- **After the game ends.** The timeline keeps running after an end screen is
  shown. Later ticks still move sprites and can take more lives.
- **Level transitions.** A transition removes sprites only from the scene
  graph. Extra balls and bullets stay live.
- **Failed loads.** A level that does not fit fails part-way, after placing
  the blocks it could.

## Model

| member | source | states |
|---|---|---|
| JavaMath.TruncDiv | src/game/HostileBreakout.java:37 | `SCENE_WIDTH / 2` and the other int divisions: the quotient rounds toward zero, \|q\|·\|b\| ≤ \|a\| < (\|q\|+1)·\|b\|, and its sign is that of a·b |
| JavaMath.Wrap32 | src/Block.java:89-94 | int arithmetic wraps into [−2^31, 2^31), congruent modulo 2^32, and is the identity on values already in range |
| Geometry.Rect.CentreX2 | src/Sprite.java:162-164 | the doubled centre is as far from the left edge as from the right, and lies between them for a non-empty box |
| Geometry.Rect.CentreY2 | src/Block.java:115-117 | the same for the vertical centre |
| Geometry.IntersectsSymmetric | src/Sprite.java:56-67 | overlap does not depend on which box asks |
| Geometry.IntersectsIffSharedPoint | src/Sprite.java:56-67 | the bounds test holds exactly when neither box is empty and some point lies in both closed boxes |
| Sprites.Sprite.MakeBall | src/actors/Ball.java:36-50 | at rest, centred on x and half its height below y, with the configured throw speed and damage, not in god mode |
| Sprites.Sprite.MakeAuxiliaryBall | src/actors/Ball.java:52-57 | as a ball, but the replaced image leaves it at (0, 0) with the auxiliary image's width |
| Sprites.Sprite.MakeBullet | src/actors/Bullet.java:31-45 | at (x, y), moving down at bullet speed if fired by the boss and up otherwise, with the bullet's damage |
| Sprites.Sprite.MakePaddle | src/Paddle.java:27-38 | the Character part (configured health and damage, none taken), the given lives, at rest, centred on midSceneX with its bottom edge on bottomScene |
| Sprites.CollidesWithMutual | src/Sprite.java:56-67 | collision between two sprites is mutual, and no sprite collides with itself |
| Sprites.Sprite.UpdatePosition | src/Sprite.java:75-78 | the position moves by velocity × step; the velocity is kept |
| Sprites.Sprite.ReverseCourseX | src/Sprite.java:84-86 | only the horizontal velocity changes sign |
| Sprites.Sprite.ReverseCourseY | src/Sprite.java:92-94 | only the vertical velocity changes sign |
| Sprites.Sprite.BounceOffBlock | src/Sprite.java:180-188 | exactly one component changes sign: the vertical one when the horizontal centre distance is strictly smaller, otherwise the horizontal one |
| Sprites.Sprite.Bounce | src/actors/Ball.java:63-69 | ball: reflects off the side and top walls, and off the floor only in god mode. Paddle (Paddle.java:48-53): reflects off the side walls only. Bullet (Bullet.java:50-53): never reflects. A horizontal flip happens exactly when past a side wall (or at speed 0) |
| Sprites.Sprite.SetVelocity | src/Sprite.java:150-152 | the velocity is the one given |
| Sprites.Sprite.SetX | src/Sprite.java:126-128 | the left edge is the one given |
| Sprites.Sprite.BeThrown | src/actors/Ball.java:80-83 | back at the default height, moving up at the throw speed with the given horizontal speed |
| Sprites.Sprite.Slow | src/actors/Ball.java:90-92 | the throw speed is multiplied by the factor |
| Sprites.Sprite.SetThrowSpeed | src/actors/Ball.java:115-117 | the throw speed is the one given |
| Sprites.Sprite.ResetPosition | src/actors/Ball.java:98-101 | ball and paddle (Paddle.java:70-73) are back at their default position; the velocity is kept |
| Sprites.Sprite.SetInGodMode | src/actors/Ball.java:107-109 | `isInGodMode()` then answers the value given |
| Sprites.Sprite.TakeDamage | src/Character.java:44-46 | the damage taken grows by exactly the amount |
| Sprites.Sprite.Heal | src/Character.java:34-36 | the health points grow by the amount; the damage taken is kept |
| Sprites.Sprite.SetMyHealthPoints | src/Character.java:65-67 | the health points are the ones given |
| Sprites.Sprite.ResetHealth | src/Character.java:57-59 | no damage taken, so a character with non-negative health is alive |
| Sprites.Sprite.TakeDamageFrom | src/Paddle.java:61-65 | only a bullet hurts the paddle, by the bullet's damage |
| Sprites.Sprite.SetLives | src/Paddle.java:87-89 | `getLives()` then answers the value given |
| Blocks.DamageTo | src/Block.java:73-77 | a hit deals the sprite's damage or nothing; nothing exactly when the block is rubber, the sprite is not a bullet and the damage is non-zero |
| Blocks.Block.constructor | src/Block.java:43-65 | on grid cell (x, y) with bounds at (x·size, y·size) of the block size, the given health and rubber flag, and no damage |
| Blocks.Block.TakeDamageFrom | src/Block.java:73-77 | the damage grows by `DamageTo`; a rubber block hit by a non-bullet is unchanged; with non-negative damage the damage never decreases |
| Blocks.Block.HashCode | src/Block.java:89-94 | an int congruent to 37·(37·x + y) + health modulo 2^32 |
| Blocks.EqualsReflexiveSymmetric | src/Block.java:80-86 | `equals` is reflexive and symmetric |
| Blocks.EqualBlocksHashAlike | src/Block.java:80-94 | equal blocks have equal hash codes |
| Blocks.DistinctCellsNotEqual | src/Block.java:80-86 | blocks on different cells are neither `equals` nor the same object |
| PowerUps.MakePowerUp | src/game/PowerUp.java:23-33 | keeps the given type and cell, and takes the configured block size, offset and side |
| PowerUps.PowerUpPlacement | src/game/PowerUp.java:27-30 | the bounds are a square of the configured side whose corner is the cell's corner moved by the offset |
| PowerUps.DistinctCellsDistinctPositions | src/game/PowerUp.java:29-30 | with a positive block size, power-ups on different cells are at different scene positions |
| Properties.Config.MillisecondDelay | src/game/GameEnvironment.java:18-19 | the frame period `1000 / FRAMES_PER_SECOND`: ms·fps ≤ 1000 < (ms+1)·fps |
| Properties.Config.GridDimension | src/LevelFactory.java:44 | `SCENE_WIDTH / BLOCK_SIZE`: the most whole blocks that fit across the scene |
| Properties.Repeat | src/LevelFactory.java:121-123 | the counting loop places max(count, 0) objects of one type |
| Properties.RepeatMembers | src/LevelFactory.java:121-123 | every object that loop places has the loop's type |
| Properties.ScheduleMembers | src/LevelFactory.java:119-124 | a level only creates objects of listed types whose count is positive |
| Properties.ScheduleLength | src/LevelFactory.java:119-124 | a level creates as many objects as its positive counts add up to |
| Properties.ScheduleAppend | src/LevelFactory.java:119-124 | the types are processed one list segment after another |
| Properties.ScheduleStep | src/LevelFactory.java:119-124 | after each type the objects created so far are a prefix of the level's whole schedule |
| SpriteManagers.SpriteManager.constructor | src/SpriteManager.java:8-14 | no live and no dead sprites |
| SpriteManagers.SpriteManager.Collide | src/SpriteManager.java:21-23 | exactly the block's `takeDamageFrom` |
| SpriteManagers.SpriteManager.AddLiveSprite | src/SpriteManager.java:25-27 | set insertion: the sprite is live afterwards; adding a live sprite changes nothing; the set stays duplicate-free |
| LevelFactories.RowsLength | src/LevelFactory.java:104-109 | the nested loops visit N·N cells |
| LevelFactories.RowsCover | src/LevelFactory.java:104-109 | the nested loops visit exactly the cells (i, j) with 0 ≤ i, j < N |
| LevelFactories.RowsDistinct | src/LevelFactory.java:104-109 | the nested loops visit no cell twice |
| LevelFactories.LevelFactory.constructor | src/LevelFactory.java:79-81 | at level one, loaded completely exactly when level one fits, and then populated as `UpdateLevel` states; otherwise partly loaded as `UpdateLevel` states; every block new and undamaged; blocks and power-ups duplicate-free |
| LevelFactories.LevelFactory.UpdateLevel | src/LevelFactory.java:89-97 | the load completes exactly when the level's blocks fit on the grid and its power-ups behind its blocks; then the blocks and power-ups follow the level's configuration and partition the grid's cells as described; the blocks and the power-ups are always duplicate-free, even after a failed load. Every block is newly created and undamaged, so nothing of the previous level survives. The free cells and the block cells always make up the grid. After a failed load, either the blocks did not fit, and the blocks placed follow the start of the block schedule and there is no power-up, or all blocks are placed and the power-ups placed follow the start of the power-up schedule |
| LevelFactories.LevelFactory.GenerateLevel | src/LevelFactory.java:92-96 | the generation steps of `updateLevel` on cleared collections, with the outcome and the new, undamaged blocks stated for `UpdateLevel` |
| LevelFactories.LevelFactory.FailedOutcome | src/LevelFactory.java:92-96 | a load stopped by a failed draw leaves either a prefix of the block schedule and no power-up, or all blocks and a prefix of the power-up schedule |
| LevelFactories.LevelFactory.LoadOutcome | src/LevelFactory.java:89-97 | the facts the three generation steps establish add up to that outcome |
| LevelFactories.LevelFactory.ClearAll | src/LevelFactory.java:181-186 | no blocks, power-ups or positions remain |
| LevelFactories.LevelFactory.GenerateValidPositions | src/LevelFactory.java:104-111 | every grid cell is appended to the free cells row by row, then the free cells are appended to the block positions |
| LevelFactories.LevelFactory.GenerateBlocks | src/LevelFactory.java:117-128 | succeeds exactly when the scheduled blocks fit in the free cells; free cells plus block cells are the initial free cells (as a multiset); on success the blocks follow the schedule and the block positions are narrowed by `removeAll` of the cells left free; on failure the blocks placed follow the start of the schedule; every block is newly created and undamaged |
| LevelFactories.LevelFactory.AddBlocksOfType | src/LevelFactory.java:119-122 | the inner loop for one type places the type's count of blocks, each new and undamaged, following the schedule; it fails only once the free cells are used up, with the blocks placed so far following the schedule |
| LevelFactories.LevelFactory.NoBlockLike | src/LevelFactory.java:139-144 | a drawn free cell holds no block, so the set holds no block `equals` to the new one |
| LevelFactories.LevelFactory.BlockPlaced | src/LevelFactory.java:139-144 | placing one block keeps the cell accounting and extends the schedule followed |
| LevelFactories.LevelFactory.AddBlock | src/LevelFactory.java:139-145 | fails for a non-positive bound or an index past the pool; otherwise removes the drawn cell with shifting and adds a fresh, undamaged block of the type on it, unless an `equals` block is already in the set |
| LevelFactories.LevelFactory.GeneratePowerUps | src/LevelFactory.java:151-159 | succeeds exactly when the scheduled power-ups fit in the block positions; remaining positions plus power-up cells are the initial block positions; on success the power-ups follow the schedule, and on failure they follow its start |
| LevelFactories.LevelFactory.PowerUpPlaced | src/LevelFactory.java:170-175 | placing one power-up keeps the cell accounting and extends the schedule followed |
| LevelFactories.LevelFactory.AddPowerUp | src/LevelFactory.java:170-175 | fails for a non-positive bound or an index past the pool; otherwise removes the drawn block position with shifting and appends a power-up of the type on it |
| LevelFactories.PopulatedBlocks | src/LevelFactory.java:117-145 | after a completed load: exactly the configured number of blocks, on distinct grid cells, no two `equals`, each rubber exactly when its type is "rubber" |
| LevelFactories.PopulatedPowerUps | src/LevelFactory.java:151-175 | after a completed load: exactly the configured number of power-ups, on distinct cells, each behind a block; the remaining block positions are the block cells without a power-up |
| LevelFactories.PopulatedOutOfBlocks | src/LevelFactory.java:194-196 | after a completed load, `outOfBlocks()` holds exactly when the level configures no block |
| LevelFactories.RepeatOneMore | src/LevelFactory.java:121-123 | one more turn of the counting loop adds one object of the type |
| LevelFactories.RepeatAll | src/LevelFactory.java:121-123 | when the counting loop stops, the type's whole share has been placed |
| LevelFactories.ScheduleExceeds | src/LevelFactory.java:119-123 | a failed draw means the level's schedule is longer than what was placed, and what was placed is the start of the schedule |
| LevelFactories.RepeatPrefix | src/LevelFactory.java:120 | the first i turns of the counting loop produce the first i entries of the type's share |
| LevelFactories.LeftForPowerUps | src/LevelFactory.java:127 | `removeAll` of the free cells leaves exactly the block cells, each once |
| LevelFactories.PlacedBlocksDistinct | src/LevelFactory.java:139-144 | blocks placed on cells drawn without replacement are distinct objects, even after a failed load |
| LevelFactories.PlacedPowerUpsDistinct | src/LevelFactory.java:170-175 | power-ups placed on cells drawn without replacement are pairwise different, even after a failed load |
| LevelFactories.CountPlaced | src/LevelFactory.java:118-122 | free cells and placed blocks account for the whole initial pool |
| LevelFactories.CountCovered | src/LevelFactory.java:152-156 | remaining block positions and placed power-ups account for all block positions |
| LevelFactories.FreeCellUnused | src/LevelFactory.java:140 | a free cell holds no block yet |
| CollisionRules.FlipParity | src/Sprite.java:84-94 | an even number of reversals restores a component and an odd number negates it |
| CollisionRules.HitsStep | src/game/HostileBreakout.java:278-283 | proof step of the block loop: checking one more block adds one side hit or one face hit exactly when it is struck |
| CollisionRules.BounceStep | src/game/HostileBreakout.java:278-283 | proof step of the block loop: each block struck flips the velocity component of the face struck, and nothing else |
| CollisionRules.HitsSplit | src/Sprite.java:180-188 | every block a sprite overlaps turns it around exactly once, on one axis or the other |
| CollisionRules.PaddleLikeRubber | src/Paddle.java:61-65 | the paddle takes damage exactly as a rubber block in its place would |
| CollisionRules.DamageBounds | src/Block.java:73-77 | with non-negative damage, a pass never lowers a block's damage, and a block no sprite overlaps takes none |
| CollisionRules.DamageStep | src/game/HostileBreakout.java:278-282 | proof step of the sprite loop: one more sprite adds its damage to each block it overlaps |
| CollisionRules.PassStep | src/game/HostileBreakout.java:276-292 | proof step of the sprite loop: one more sprite adds its bullet damage to the paddle, its touch, and its power-ups to the record |
| CollisionRules.RecordMembers | src/game/HostileBreakout.java:284-288 | one sprite's check records exactly the power-ups it overlaps, never one twice |
| CollisionRules.RecordAllMembers | src/game/HostileBreakout.java:275-294 | a pass records exactly the power-ups some sprite overlaps, each once |
| CollisionRules.TogglesFromBase | src/game/HostileBreakout.java:311-324 | from the base value, an even number of toggles gives the base and an odd number the alternative (two activations restore the speed) |
| CollisionRules.TogglesInRange | src/game/HostileBreakout.java:311-324 | a speed at its base or alternative value stays at one of the two however often it is toggled |
| Seqs.RemoveAt | src/LevelFactory.java:140 | `remove(index)` takes out exactly the element at that index: one shorter, same multiset less that element |
| Seqs.WithoutMembers | src/LevelFactory.java:127 | `removeAll(t)` keeps exactly the elements not in t |
| Breakout.SpawnedByCount | src/game/HostileBreakout.java:329-340 | n multiply power-ups add n × the configured count of balls |
| Breakout.AddedBallsChain | src/game/HostileBreakout.java:296-303 | successive activations add their balls up |
| Breakout.DeflectStep | src/game/HostileBreakout.java:276-292 | proof step of the sprite loop: checking one more sprite changes exactly that sprite's velocity |
| Breakout.DamagedByStep | src/game/HostileBreakout.java:276-292 | proof step of the sprite loop: checking one more sprite adds exactly its hits to the blocks' damage |
| Breakout.LiveBlocksMembers | src/game/HostileBreakout.java:501-510 | removing the dead blocks keeps exactly the live ones, without duplicates |
| Breakout.Game.constructor | src/game/HostileBreakout.java:95-125 | level one with the ball caught; paddle and ball at their defaults; base speeds; the ball the only live sprite; full lives; the level factory at level one; the timeline not yet playing |
| Breakout.Game.Play | src/BreakoutMain.java:235-236 | the timeline runs |
| Breakout.Game.KeyPressed | src/game/HostileBreakout.java:119 | the game's key handler acts only while no end screen is showing (line 430 replaces it) |
| Breakout.Game.HandleKeyInput | src/game/HostileBreakout.java:146-174 | nothing unless the timeline runs. Left and right move the paddle by the paddle speed, clamped to the screen, and a caught ball moves with it; up adds one paddle bullet; space throws a ball at rest upward, to the side its centre lies on; digits 1-5 enter that level; R resets positions and catches the ball; N loses; G flips god mode and gives the paddle `Integer.MAX_VALUE` health; S and T toggle their speeds; M adds the configured balls, or none when a draw in the first iteration throws; other keys do nothing. For each key, every field it does not set keeps its value |
| Breakout.Game.HandlePlayKey | src/game/HostileBreakout.java:148-157 | the arrow, space, digit and R branches, with the effects and untouched fields stated for `HandleKeyInput` |
| Breakout.Game.HandleCheatKey | src/game/HostileBreakout.java:158-171 | the N, G, S, M and T branches, with the effects and untouched fields stated for `HandleKeyInput` |
| Breakout.Game.ResetPositions | src/game/HostileBreakout.java:153-157 | ball and paddle are back at their default positions and the ball is caught |
| Breakout.Game.ToggleGodMode | src/game/HostileBreakout.java:161-164 | the ball's god mode is flipped and the paddle's health is `Integer.MAX_VALUE` |
| Breakout.Game.HandleArrowPress | src/game/HostileBreakout.java:183-192 | up fires a paddle bullet at the paddle's truncated centre and the ball's start height; left moves the paddle left by the paddle speed but not past 0, right moves it right but not past the screen width less the paddle width, and a caught ball moves by the same amount; other arrows do nothing |
| Breakout.Game.HandleDigitPress | src/game/HostileBreakout.java:200-205 | ordinal − 24 in 1..5 enters that level, with the state `TransitionLevel` promises: positions and speeds reset, the ball caught, the level regenerated with new, undamaged blocks; anything else changes nothing |
| Breakout.Game.HandleThrow | src/game/HostileBreakout.java:212-219 | the ball leaves upward at its throw speed, leftward exactly when its centre is not right of the paddle's, and is no longer caught |
| Breakout.Game.HandleLeftPress | src/game/HostileBreakout.java:224-237 | the paddle moves left by its speed or stops at 0; a caught ball moves by the same amount, a free one not at all; a paddle inside the scene stays inside |
| Breakout.Game.HandleRightPress | src/game/HostileBreakout.java:242-256 | the paddle moves right by its speed or stops at the right wall; a caught ball follows; a paddle inside the scene stays inside |
| Breakout.Game.ProcessCollisions | src/game/HostileBreakout.java:261-268 | the ball is caught exactly when it touched the paddle; the recorded power-ups are activated in order up to the first that throws, and those activated leave the level, so after a completed activation exactly the untouched ones remain; each speed toggles once per activated power-up of its type; it completes whenever the multiply draws can succeed; the paddle takes every overlapping bullet's damage; lives, level and blocks are unchanged |
| Breakout.Game.CatchBall | src/game/HostileBreakout.java:262-265 | a ball touching the paddle stops and is caught; otherwise nothing changes |
| Breakout.Game.ResolveCollisions | src/game/HostileBreakout.java:266-267 | the collision pass and then the activation, with the same guarantees as `ProcessCollisions`, including the early stop when an activation throws |
| Breakout.Game.CheckCollisions | src/game/HostileBreakout.java:275-294 | the result records exactly the power-ups touched; every block's damage grows by the damage of the sprites overlapping it; every sprite's velocity flips once per side or face hit and once more on touching the paddle; the paddle flips once per touching sprite and takes bullet damage |
| Breakout.Game.CheckSprites | src/game/HostileBreakout.java:276-292 | the sprite loop, with the same guarantees stated over the given sprites and blocks |
| Breakout.Game.CheckSpriteAt | src/game/HostileBreakout.java:277-291 | one sprite's turn takes the pass from the first i sprites to the first i + 1 |
| Breakout.Game.CheckSpriteVelocities | src/game/HostileBreakout.java:277-291 | one sprite's turn changes exactly that sprite's entry among all live velocities |
| Breakout.Game.CheckSpriteDamages | src/game/HostileBreakout.java:277-291 | one sprite's turn adds its hits to all blocks' damage |
| Breakout.Game.CheckSprite | src/game/HostileBreakout.java:277-291 | one sprite: blocks, then power-ups, then the paddle (damage exchange and reversal) |
| Breakout.Game.StrikeBlocks | src/game/HostileBreakout.java:278-283 | each block the sprite overlaps takes its damage and flips the component of the face struck |
| Breakout.Game.StrikeBlock | src/game/HostileBreakout.java:279-282 | one block: damage, then bounce, only when the sprite overlaps it |
| Breakout.Game.RecordPowerUps | src/game/HostileBreakout.java:284-288 | the power-ups the sprite overlaps join the recorded set |
| Breakout.Game.ActivatePowerUps | src/game/HostileBreakout.java:296-303 | the power-ups are activated in order up to the first whose activation throws, and it reports whether none did; each activated power-up leaves the level; speed and slow toggle once per activated power-up of their type; multiply adds its balls per activated power-up; blocks, lives and level are unchanged |
| Breakout.ActivatedCount | src/game/HostileBreakout.java:296-303 | how far the activation loop gets: every power-up before it activates, and the one at it, if any, throws |
| Breakout.Game.ActivatePowerUpAt | src/game/HostileBreakout.java:298-302 | one loop turn activates the i-th power-up and removes it; when the activation throws, nothing changes and the loop ends |
| Breakout.Game.RemovePowerUp | src/game/HostileBreakout.java:300-301 | the activated power-up leaves the level's power-ups, and the game stays valid |
| Breakout.Game.ActivatePowerUp | src/game/HostileBreakout.java:310-326 | "speed" toggles base/boosted paddle speed, "slow" toggles ball speed/slowed speed, "multiply" adds the configured balls, any other type does nothing; it fails exactly when a multiply activation throws |
| Breakout.Game.ActivateMultiply | src/game/HostileBreakout.java:329-340 | succeeds exactly when the count is not positive or both random bounds are positive; then the configured number of fresh balls join, at (0, 0), with velocities in [0, throw x) × [0, ball speed); otherwise a draw in the first iteration throws and no ball joins |
| Breakout.Game.Collide | src/game/HostileBreakout.java:350-357 | two distinct sprites exchange damage (only the paddle, only from bullets) and both reverse their whole velocity; a sprite colliding with itself ends unchanged |
| Breakout.Game.ExchangeDamage | src/game/HostileBreakout.java:488-493 | only the paddle takes damage, only from a bullet |
| Breakout.Game.AddBullet | src/game/HostileBreakout.java:372-376 | one new bullet at (x, y) with the given origin joins the live sprites |
| Breakout.Game.TransitionToNextLevel | src/game/HostileBreakout.java:381-387 | past the last level the game is won, and level, speeds, positions, the catch and the level's blocks stay; otherwise the outcome stays and the next level is entered with the state `TransitionLevel` promises, its blocks new and undamaged |
| Breakout.Game.TransitionLevel | src/game/HostileBreakout.java:396-411 | paddle and ball at their defaults with the ball caught, base speeds, the level set and regenerated, loaded completely exactly when it fits and otherwise partly loaded as `UpdateLevel` states; every block of the level is new and undamaged |
| Breakout.Game.ShowEndGameScreen | src/game/HostileBreakout.java:420-432 | the end screen for the outcome is showing |
| Breakout.Game.RefreshSprites | src/game/HostileBreakout.java:449-466 | every sprite moves one frame and bounces off the walls where it arrives; a dead paddle or a ball past y = 600 heals the paddle and costs one life, ending the game when none is left and otherwise resetting paddle and ball |
| Breakout.Game.MoveSprites | src/game/HostileBreakout.java:450-453 | every live sprite moves one frame and bounces off the walls |
| Breakout.Game.CheckLifeLost | src/game/HostileBreakout.java:454-465 | the life-loss check with its three outcomes |
| Breakout.Game.RemoveDeadBlocks | src/game/HostileBreakout.java:501-510 | exactly the live blocks remain, in order |
| Breakout.Game.RemoveDeadNodes | src/game/HostileBreakout.java:513-518 | dead blocks leave; a running game with no block left moves to the next level or, after the last, to the won screen; otherwise level and outcome stay, and if no block is left the game is won |
| Breakout.Game.Step | src/game/GameEnvironment.java:47-54 | runs only while the timeline plays; it completes whenever the multiply draws can succeed, and an incomplete tick keeps the level; the level advances by at most one and only within the configured levels; after a completed tick without an advance only live blocks remain, and an empty level means the game is won; at most one life is lost |
| Breakout.Game.CollideAndRemove | src/game/GameEnvironment.java:50-53 | collisions, then dead nodes unless an activation threw; lives are kept, and the level and block facts are those of `Step` |

## Left out

- Rendering is not modelled: the JavaFX scene graph (`gameGroup`), images, the HUD and lives text, level backgrounds, end-screen text, and `clearAll` of the scene (src/game/HostileBreakout.java:474-478).
- Floating point is not modelled. Positions, sizes and velocities are integers, and velocities are in pixels per frame, so `updatePosition(SECOND_DELAY)` is one step of the velocity. The speed multiplier is an exact ratio whose product is truncated as `(int)` does; the rounding of the double product is not modelled.
- The configuration is taken as an already-parsed record. Reading the properties file, `Integer.parseInt` failures and colours are left out. The only lookup rule modelled is that an absent integer key reads as 0.
- `handleEndGame` is left out: restarting on ENTER and closing on Q are user-interface handlers. `BreakoutMain`, the menus and `MenuItem` are not part of this model.
- `Sprite.equals` and `Sprite.hashCode` are not modelled. Sprites compare by object identity, which is what `equals` amounts to, since distinct sprites have distinct image views. No sprite is ever looked up by hash.
- The timeline's scheduling is not modelled. Timing is the `running` flag, and `Step` is one tick.
- `Random` is a nondeterministic choice: its distribution and seeding are not modelled.
- An exception thrown by a failed draw during level generation is not modelled. Such an exception would leave the JavaFX handler; the model instead sets `loadFailed` and continues with the partial level. For `activateMultiply`, the model ends the tick or key press early, and leaves what the runtime does with the exception out of the model.
- Blocks.Block.Bounds and PowerUps.PowerUp.Bounds: the collision box is the bare rectangle. Both shapes are drawn with a centred stroke of the configured stroke width (src/Block.java:60-61, src/game/PowerUp.java:31-32), so their JavaFX local bounds reach half that width past every edge. A sprite within that margin of a block or power-up collides in the game but not in the model. The centres used by `bounceOffBlock` are not affected.
- Breakout.Game.constructor: requires a positive block size and frame rate. A zero one divides by zero while the game is built. A negative frame rate gives the game loop's key frame a negative duration. A negative block size leaves the grid without cells; it is not modelled, because the grid and placement lemmas need a positive cell size.
- `SpriteManager.getDeadSprites` and the dead-sprite set are kept, but nothing in the core writes them.
- ProcessCollisions: does not restate the per-sprite velocities and per-block damage of the pass. `CheckCollisions` states them.
- ResolveCollisions: does not restate the per-sprite velocities and per-block damage of the pass. `CheckCollisions` states them.
- ActivatePowerUps: when an activation throws, the power-ups activated before it are a prefix of the model's record order, which is the order of first insertion. Java iterates the `HashSet` in an unspecified order, so in Java that set could be any subset activated before the throwing multiply. The same applies to `ResolveCollisions` and `ProcessCollisions`, which report the case.
- Integer arithmetic is unbounded. Only `Block.hashCode` wraps to 32 bits (`JavaMath.Wrap32`). In Java, `int` wraps on the damage sums, on `heal`, on `lives - 1` and on `throwSpeed - slowAmount`, and the `(int)` cast of the boosted paddle speed saturates. `BoostedSpeed` truncates an unbounded product instead. For example, two hits of damage 2^31 − 1 leave a Java block with damage −2, and the model with 2^32 − 2.
- Blocks.Block.TakeDamageFrom: "the damage never decreases" holds in the model; in Java it fails once the sum passes 2^31 − 1.
- CollisionRules.DamageBounds: a pass never lowering a block's damage holds only while the sums stay within the `int` range.
- Sprites.Sprite.TakeDamage: grows the damage by exactly the amount, without `int` wrap-around.
- Sprites.Sprite.Heal: grows the health by exactly the amount, without `int` wrap-around.
- RemoveDeadNodes: when it moves to a new level, it does not restate how that level is generated. `TransitionLevel` states it.
- Step: states the level, lives and block facts of a tick. The effects on sprites, paddle and power-ups are those stated by `RefreshSprites`, `ProcessCollisions` and `RemoveDeadNodes`.
- CollideAndRemove: like `Step`, states only the level, lives and block facts.
- ActivateMultiply: states the range of each new ball's random velocity, not its distribution.

=== FILE: blocks.dfy ===
/**
 * The static, destructible blocks of a level. A block sits on a cell of the
 * level's square grid; it has fixed health and accumulates damage until it
 * dies. A rubber block can be damaged by bullets only.
 */
module Blocks {
  import opened JavaMath
  import opened Geometry
  import opened Sprites

  /** Damage a hit by a sprite of `kind` dealing `damage` does to a block: none when the block is rubber and the sprite is not a bullet. */
  function DamageTo(isRubber: bool, kind: Kind, damage: int): (d: int)
    ensures d == 0 || d == damage
    ensures d == damage <==> !isRubber || kind == Bullet || damage == 0
  {
    if !isRubber || kind == Bullet then damage else 0
  }

  class Block {
    /** Grid column and row. */
    const gx: int
    const gy: int
    /** Side of a block in pixels. */
    const size: int
    const healthPoints: int
    const isRubber: bool
    var damageTaken: int

    /** `new Block(color, health, x, y, isRubber)`: no damage yet, placed at (x * size, y * size) in the scene. */
    constructor (health: int, x: int, y: int, rubber: bool, blockSize: int)
      ensures gx == x && gy == y && size == blockSize
      ensures healthPoints == health && isRubber == rubber && damageTaken == 0
      ensures Bounds() == Rect(x * blockSize, y * blockSize, blockSize, blockSize)
    {
      gx, gy, size := x, y, blockSize;
      healthPoints, isRubber := health, rubber;
      damageTaken := 0;
    }

    /** The block's bounds in the scene. */
    function Bounds(): Rect {
      Rect(gx * size, gy * size, size, size)
    }

    /**
     * `takeDamageFrom(sprite)`: damage grows by the sprite's damage unless the
     * block is rubber and the sprite is not a bullet, in which case nothing
     * changes. With non-negative damage, damage taken never decreases.
     */
    method TakeDamageFrom(sprite: Sprite)
      modifies this`damageTaken
      ensures damageTaken == old(damageTaken) + DamageTo(isRubber, sprite.kind, sprite.damageDealt)
      ensures isRubber && sprite.kind != Bullet ==> damageTaken == old(damageTaken)
      ensures sprite.damageDealt >= 0 ==> damageTaken >= old(damageTaken)
    {
      if !isRubber || sprite.kind == Bullet {
        damageTaken := damageTaken + sprite.damageDealt;
      }
    }

    /** `isDead()`: at least as much damage taken as health points (a character dies only past its health). */
    predicate IsDead()
      reads this`damageTaken
    {
      damageTaken >= healthPoints
    }

    /** `equals(o)`: false for null; otherwise the same object or the same health and grid cell, whatever the damage or rubber flag. */
    predicate Equals(o: Block?) {
      o != null && (this == o || (healthPoints == o.healthPoints && gx == o.gx && gy == o.gy))
    }

    /**
     * `hashCode()`: 37 * (37 * x + y) + healthPoints in 32-bit arithmetic,
     * that is, congruent to that polynomial modulo 2^32.
     */
    function HashCode(): (h: int)
      ensures INT_MIN <= h <= INT_MAX
      ensures (h - (37 * (37 * gx + gy) + healthPoints)) % TWO_32 == 0
    {
      var hash := gx;
      var hash' := Wrap32(37 * hash + gy);
      var h := Wrap32(37 * hash' + healthPoints);
      HashWrap(37 * gx + gy, hash', healthPoints);
      h
    }
  }

  /** Wrapping an intermediate result of a multiply-add does not change the final residue modulo 2^32. */
  lemma HashWrap(exact: int, wrapped: int, addend: int)
    requires (wrapped - exact) % TWO_32 == 0
    ensures (Wrap32(37 * wrapped + addend) - (37 * exact + addend)) % TWO_32 == 0
  {
    var k := (wrapped - exact) / TWO_32;
    assert wrapped == exact + k * TWO_32;
    assert 37 * wrapped + addend == 37 * exact + addend + (37 * k) * TWO_32;
  }

  /** Block equality is reflexive and symmetric. */
  lemma EqualsReflexiveSymmetric(a: Block, b: Block)
    ensures a.Equals(a)
    ensures a.Equals(b) == b.Equals(a)
  {
  }

  /** Equal blocks have equal hash codes. */
  lemma EqualBlocksHashAlike(a: Block, b: Block)
    requires a.Equals(b)
    ensures a.HashCode() == b.HashCode()
  {
  }

  /** Blocks on different grid cells are never equal, so a set of them never merges two. */
  lemma DistinctCellsNotEqual(a: Block, b: Block)
    requires (a.gx, a.gy) != (b.gx, b.gy)
    ensures !a.Equals(b) && a != b
  {
  }
}

=== FILE: collision_rules.dfy ===
/**
 * The rules of one collision pass and of the power-up toggles, stated on
 * values: what a pass does to a velocity, to a block's damage, to the paddle
 * and to the set of power-ups it records depends only on the bounds, kinds
 * and damage of the sprites taken before the pass (a pass changes no
 * position), on the block bounds and on the power-ups, in the order the pass
 * visits them.
 */
module CollisionRules {
  import opened Seqs
  import opened Geometry
  import opened Sprites
  import opened Blocks
  import opened PowerUps

  /** `v` after its sign has been changed n times. */
  function Flip(v: int, n: nat): int {
    if n == 0 then v else -Flip(v, n - 1)
  }

  /** An even number of sign changes gives `v` back and an odd number gives its negation. */
  lemma {:induction false} FlipParity(v: int, n: nat)
    ensures Flip(v, n) == if n % 2 == 0 then v else -v
  {
    if n > 0 {
      FlipParity(v, n - 1);
    }
  }

  /** How many of `blocks` a sprite with bounds `box` overlaps and strikes on a side face. */
  function SideHits(box: Rect, blocks: seq<Rect>): nat {
    if blocks == [] then 0
    else
      var last := blocks[|blocks| - 1];
      SideHits(box, blocks[..|blocks| - 1]) + (if Intersects(box, last) && !HitsTopOrBottom(box, last) then 1 else 0)
  }

  /** How many of `blocks` a sprite with bounds `box` overlaps and strikes on the top or bottom face. */
  function FaceHits(box: Rect, blocks: seq<Rect>): nat {
    if blocks == [] then 0
    else
      var last := blocks[|blocks| - 1];
      FaceHits(box, blocks[..|blocks| - 1]) + (if Intersects(box, last) && HitsTopOrBottom(box, last) then 1 else 0)
  }

  /** Checking one more block flips the velocity component of the face it is struck on, if it is struck. */
  lemma HitsStep(box: Rect, blocks: seq<Rect>, j: int)
    requires 0 <= j < |blocks|
    ensures SideHits(box, blocks[..j + 1]) == SideHits(box, blocks[..j]) + (if Intersects(box, blocks[j]) && !HitsTopOrBottom(box, blocks[j]) then 1 else 0)
    ensures FaceHits(box, blocks[..j + 1]) == FaceHits(box, blocks[..j]) + (if Intersects(box, blocks[j]) && HitsTopOrBottom(box, blocks[j]) then 1 else 0)
  {
    assert blocks[..j + 1][..j] == blocks[..j];
  }

  /** The velocity after one more block has been checked, when it was right for the blocks before it. */
  lemma BounceStep(box: Rect, blocks: seq<Rect>, j: int, ux: int, uy: int, vx: int, vy: int, vx': int, vy': int)
    requires 0 <= j < |blocks|
    requires vx == Flip(ux, SideHits(box, blocks[..j])) && vy == Flip(uy, FaceHits(box, blocks[..j]))
    requires vx' == if Intersects(box, blocks[j]) && !HitsTopOrBottom(box, blocks[j]) then -vx else vx
    requires vy' == if Intersects(box, blocks[j]) && HitsTopOrBottom(box, blocks[j]) then -vy else vy
    ensures vx' == Flip(ux, SideHits(box, blocks[..j + 1])) && vy' == Flip(uy, FaceHits(box, blocks[..j + 1]))
  {
    HitsStep(box, blocks, j);
  }

  /** How many of `blocks` a sprite with bounds `box` overlaps. */
  function Overlaps(box: Rect, blocks: seq<Rect>): nat {
    if blocks == [] then 0
    else Overlaps(box, blocks[..|blocks| - 1]) + (if Intersects(box, blocks[|blocks| - 1]) then 1 else 0)
  }

  /** Every block a sprite overlaps turns it around exactly once, on one axis or the other. */
  lemma {:induction false} HitsSplit(box: Rect, blocks: seq<Rect>)
    ensures SideHits(box, blocks) + FaceHits(box, blocks) == Overlaps(box, blocks)
    ensures Overlaps(box, blocks) <= |blocks|
  {
    if blocks != [] {
      HitsSplit(box, blocks[..|blocks| - 1]);
    }
  }

  /** How many of the sprites `bodies` overlap `target`. */
  function Touching(bodies: seq<Body>, target: Rect): nat {
    if bodies == [] then 0
    else Touching(bodies[..|bodies| - 1], target) + (if Intersects(bodies[|bodies| - 1].box, target) then 1 else 0)
  }

  /**
   * The damage a block with bounds `target` takes from the sprites `bodies`:
   * each sprite that overlaps it deals its damage, or none when the block is
   * rubber and the sprite is not a bullet.
   */
  function DamageFrom(bodies: seq<Body>, isRubber: bool, target: Rect): int {
    if bodies == [] then 0
    else
      var b := bodies[|bodies| - 1];
      DamageFrom(bodies[..|bodies| - 1], isRubber, target) + (if Intersects(b.box, target) then DamageTo(isRubber, b.kind, b.damage) else 0)
  }

  /** The damage the paddle with bounds `target` takes from the sprites `bodies`: that of each bullet overlapping it. */
  function PaddleDamage(bodies: seq<Body>, target: Rect): int {
    if bodies == [] then 0
    else
      var b := bodies[|bodies| - 1];
      PaddleDamage(bodies[..|bodies| - 1], target) + (if Intersects(b.box, target) && b.kind == Bullet then b.damage else 0)
  }

  /** The paddle takes damage exactly as a rubber block in its place would. */
  lemma {:induction false} PaddleLikeRubber(bodies: seq<Body>, target: Rect)
    ensures PaddleDamage(bodies, target) == DamageFrom(bodies, true, target)
  {
    if bodies != [] {
      PaddleLikeRubber(bodies[..|bodies| - 1], target);
    }
  }

  /**
   * With sprites that deal no negative damage, a pass never lowers a block's
   * damage, and a block that no sprite overlaps takes none.
   */
  lemma {:induction false} DamageBounds(bodies: seq<Body>, isRubber: bool, target: Rect)
    requires forall k :: 0 <= k < |bodies| ==> bodies[k].damage >= 0
    ensures DamageFrom(bodies, isRubber, target) >= 0
    ensures Touching(bodies, target) == 0 ==> DamageFrom(bodies, isRubber, target) == 0
  {
    if bodies != [] {
      DamageBounds(bodies[..|bodies| - 1], isRubber, target);
    }
  }

  /**
   * The power-ups recorded once a sprite with bounds `box` has been checked
   * against `powerUps` in order: each one it overlaps is added to `acc`
   * unless already recorded.
   */
  function Record(acc: seq<PowerUp>, box: Rect, powerUps: seq<PowerUp>): seq<PowerUp> {
    if powerUps == [] then acc
    else
      var p := powerUps[|powerUps| - 1];
      var r := Record(acc, box, powerUps[..|powerUps| - 1]);
      if Intersects(box, p.Bounds()) && p !in r then r + [p] else r
  }

  /** The power-ups recorded by a whole pass over the sprites `bodies`, starting from none. */
  function RecordAll(bodies: seq<Body>, powerUps: seq<PowerUp>): seq<PowerUp> {
    if bodies == [] then []
    else Record(RecordAll(bodies[..|bodies| - 1], powerUps), bodies[|bodies| - 1].box, powerUps)
  }

  /** Taking in one more sprite adds the damage it deals to a block it overlaps. */
  lemma DamageStep(bodies: seq<Body>, i: int, isRubber: bool, target: Rect)
    requires 0 <= i < |bodies|
    ensures DamageFrom(bodies[..i + 1], isRubber, target) == DamageFrom(bodies[..i], isRubber, target)
      + (if Intersects(bodies[i].box, target) then DamageTo(isRubber, bodies[i].kind, bodies[i].damage) else 0)
  {
    assert bodies[..i + 1][..i] == bodies[..i];
  }

  /** Taking in one more sprite: the paddle's damage, the touches and the record grow by what that sprite adds. */
  lemma PassStep(bodies: seq<Body>, i: int, powerUps: seq<PowerUp>, paddleBox: Rect)
    requires 0 <= i < |bodies|
    ensures PaddleDamage(bodies[..i + 1], paddleBox) == PaddleDamage(bodies[..i], paddleBox)
      + (if Intersects(bodies[i].box, paddleBox) && bodies[i].kind == Bullet then bodies[i].damage else 0)
    ensures Touching(bodies[..i + 1], paddleBox) == Touching(bodies[..i], paddleBox) + (if Intersects(bodies[i].box, paddleBox) then 1 else 0)
    ensures RecordAll(bodies[..i + 1], powerUps) == Record(RecordAll(bodies[..i], powerUps), bodies[i].box, powerUps)
  {
    assert bodies[..i + 1][..i] == bodies[..i];
  }

  /** Some sprite of `bodies` overlaps the power-up p. */
  ghost predicate HitBySome(bodies: seq<Body>, p: PowerUp) {
    exists k :: 0 <= k < |bodies| && Intersects(bodies[k].box, p.Bounds())
  }

  /** One sprite's check adds exactly the power-ups it overlaps, and never one twice. */
  lemma {:induction false} RecordMembers(acc: seq<PowerUp>, box: Rect, powerUps: seq<PowerUp>)
    ensures forall p :: p in Record(acc, box, powerUps) <==> p in acc || (p in powerUps && Intersects(box, p.Bounds()))
    ensures Distinct(acc) ==> Distinct(Record(acc, box, powerUps))
  {
    if powerUps != [] {
      var p := powerUps[|powerUps| - 1];
      var front := powerUps[..|powerUps| - 1];
      RecordMembers(acc, box, front);
      var r := Record(acc, box, front);
      assert powerUps == front + [p];
      if Intersects(box, p.Bounds()) && p !in r && Distinct(r) {
        DistinctConcat(r, [p]);
      }
    }
  }

  /**
   * A pass records exactly the power-ups that some sprite overlaps, each
   * once, however many sprites overlap it.
   */
  lemma {:induction false} RecordAllMembers(bodies: seq<Body>, powerUps: seq<PowerUp>)
    ensures forall p :: p in RecordAll(bodies, powerUps) <==> p in powerUps && HitBySome(bodies, p)
    ensures Distinct(RecordAll(bodies, powerUps))
  {
    if bodies != [] {
      var front := bodies[..|bodies| - 1];
      var last := bodies[|bodies| - 1];
      RecordAllMembers(front, powerUps);
      RecordMembers(RecordAll(front, powerUps), last.box, powerUps);
      forall p ensures HitBySome(bodies, p) <==> HitBySome(front, p) || Intersects(last.box, p.Bounds()) {
        if HitBySome(bodies, p) {
          var k :| 0 <= k < |bodies| && Intersects(bodies[k].box, p.Bounds());
          if k < |front| {
            assert front[k] == bodies[k];
          }
        }
        if HitBySome(front, p) {
          var k :| 0 <= k < |front| && Intersects(front[k].box, p.Bounds());
          assert bodies[k] == front[k];
        }
        if Intersects(last.box, p.Bounds()) {
          assert bodies[|bodies| - 1] == last;
        }
      }
    }
  }

  /**
   * A binary toggle between `base` and `alt`: from `base` to `alt`, and from
   * anything else back to `base`.
   */
  function Toggle(base: int, alt: int, cur: int): int {
    if cur == base then alt else base
  }

  /** `cur` toggled n times. */
  function Toggles(base: int, alt: int, cur: int, n: nat): int {
    if n == 0 then cur else Toggle(base, alt, Toggles(base, alt, cur, n - 1))
  }

  /**
   * Toggled n times from `base`, the value is `base` after an even number of
   * toggles and `alt` after an odd number; in particular two toggles from
   * `base` come back to it.
   */
  lemma {:induction false} TogglesFromBase(base: int, alt: int, n: nat)
    ensures Toggles(base, alt, base, n) == if n % 2 == 0 then base else alt
  {
    if n > 0 {
      TogglesFromBase(base, alt, n - 1);
    }
  }

  /** A value that is `base` or `alt` stays `base` or `alt` however often it is toggled. */
  lemma {:induction false} TogglesInRange(base: int, alt: int, cur: int, n: nat)
    requires cur == base || cur == alt
    ensures Toggles(base, alt, cur, n) == base || Toggles(base, alt, cur, n) == alt
  {
    if n > 0 {
      TogglesInRange(base, alt, cur, n - 1);
    }
  }

  /** How many of `ps` have type t. */
  function CountOfType(ps: seq<PowerUp>, t: string): nat {
    if ps == [] then 0
    else CountOfType(ps[..|ps| - 1], t) + (if ps[|ps| - 1].Type() == t then 1 else 0)
  }

  /** Counting one more element of a prefix adds one exactly when that element has type t. */
  lemma CountOfTypeNext(ps: seq<PowerUp>, i: int, t: string)
    requires 0 <= i < |ps|
    ensures CountOfType(ps[..i + 1], t) == CountOfType(ps[..i], t) + (if ps[i].Type() == t then 1 else 0)
  {
    assert ps[..i + 1][..i] == ps[..i];
  }
}

=== FILE: geometry.dfy ===
/**
 * Axis-aligned boxes in integer scene coordinates (y grows downward), the
 * overlap test used for every collision, and box centres. Centres are kept
 * doubled (2x + width) so that a half-pixel centre stays exact.
 */
module Geometry {
  import opened JavaMath

  datatype Rect = Rect(x: int, y: int, width: int, height: int)
  {
    predicate IsEmpty() {
      width < 0 || height < 0
    }

    /** Twice the horizontal centre x + width / 2: as far from the left edge as from the right one. */
    function CentreX2(): (c: int)
      ensures c - 2 * x == 2 * (x + width) - c
      ensures !IsEmpty() ==> 2 * x <= c <= 2 * (x + width)
    {
      2 * x + width
    }

    /** Twice the vertical centre y + height / 2: as far from the top edge as from the bottom one. */
    function CentreY2(): (c: int)
      ensures c - 2 * y == 2 * (y + height) - c
      ensures !IsEmpty() ==> 2 * y <= c <= 2 * (y + height)
    {
      2 * y + height
    }
  }

  /**
   * `a.intersects(b)` for bounds: false when either box is empty, otherwise
   * true iff their edges overlap on both axes (touching edges count).
   */
  predicate Intersects(a: Rect, b: Rect) {
    && !a.IsEmpty() && !b.IsEmpty()
    && b.x + b.width >= a.x && b.x <= a.x + a.width
    && b.y + b.height >= a.y && b.y <= a.y + a.height
  }

  /** Point (px, py) lies in the closed box r. */
  predicate Contains(r: Rect, px: int, py: int) {
    r.x <= px <= r.x + r.width && r.y <= py <= r.y + r.height
  }

  /** Overlap does not depend on which box asks. */
  lemma IntersectsSymmetric(a: Rect, b: Rect)
    ensures Intersects(a, b) == Intersects(b, a)
  {
  }

  /**
   * The edge test means what it should: two boxes intersect exactly when
   * neither is empty and some point lies in both.
   */
  lemma IntersectsIffSharedPoint(a: Rect, b: Rect)
    ensures Intersects(a, b) <==> !a.IsEmpty() && !b.IsEmpty() && exists px, py :: Contains(a, px, py) && Contains(b, px, py)
  {
    if Intersects(a, b) {
      var px := if a.x < b.x then b.x else a.x;
      var py := if a.y < b.y then b.y else a.y;
      assert Contains(a, px, py) && Contains(b, px, py);
    }
  }

  /**
   * Which face of a block a sprite struck, judged by centre distances: the
   * top or bottom face (so the vertical velocity reverses) exactly when the
   * horizontal centre distance is strictly smaller than the vertical one;
   * ties go to the sides.
   */
  predicate HitsTopOrBottom(sprite: Rect, block: Rect) {
    Abs(block.CentreX2() - sprite.CentreX2()) < Abs(block.CentreY2() - sprite.CentreY2())
  }
}

=== FILE: hostile_breakout.dfy ===
/**
 * The game controller: the state the game keeps between frames (level,
 * paddle speed, whether the ball rides on the paddle, which end screen is
 * up), its reactions to key presses, and the frame tick, which advances the
 * sprites, resolves collisions and clears destroyed blocks, in that order.
 *
 * Java's `HostileBreakout` and the tick of its base class `GameEnvironment`
 * are one class here. The timeline that drives the tick is the field
 * `running`; the JavaFX scene graph, the HUD and the end screen's drawing are
 * not modelled, only which end screen is showing.
 */
module Breakout {
  import opened JavaMath
  import opened Seqs
  import opened Geometry
  import opened Properties
  import opened Sprites
  import opened Blocks
  import opened PowerUps
  import opened SpriteManagers
  import opened LevelFactories
  import opened CollisionRules

  /** Which end screen, if any, has been shown. */
  datatype Outcome = Playing | Won | Lost

  /** The arrow keys: any other than left, right and up (down, the keypad arrows) does nothing. */
  datatype Arrow = LeftArrow | RightArrow | UpArrow | OtherArrow

  /**
   * A pressed key, as far as the game tells keys apart. A digit key, on the
   * top row or the keypad, carries the ordinal of its key code; DIGIT1 to
   * DIGIT5 are 25 to 29.
   */
  datatype Key = ArrowKey(arrow: Arrow) | Space | DigitKey(ordinal: int) | KeyR | KeyN | KeyG | KeyS | KeyM | KeyT | OtherKey

  /** A ball whose top edge passes this height is lost. */
  const LostBallY := 600

  /** PADDLE_DEFAULT_X and BALL_DEFAULT_X: the middle of the scene, by integer division. */
  function MidSceneX(cfg: Config): int {
    TruncDiv(cfg.screenWidth, 2)
  }

  /** PADDLE_DEFAULT_Y: the top of the HUD. */
  function PaddleBottom(cfg: Config): int {
    cfg.screenHeight - cfg.hudHeight
  }

  /** BALL_DEFAULT_Y: the top of the HUD moved by the ball offset. */
  function BallStartY(cfg: Config): int {
    cfg.screenHeight - cfg.hudHeight + cfg.ballOffset
  }

  /** The paddle speed with the speed power-up on: the base speed times the multiplier, truncated to an int. */
  function BoostedSpeed(cfg: Config): int
    requires cfg.speedMultiplier.den != 0
  {
    TruncDiv(cfg.keyInputSpeed * cfg.speedMultiplier.num, cfg.speedMultiplier.den)
  }

  /** The ball's throw speed with the slow power-up on. */
  function SlowedSpeed(cfg: Config): int {
    cfg.ballSpeed - cfg.slowAmount
  }

  /** How many balls one multiply power-up adds: the configured count, none when it is not positive. */
  function Spawned(cfg: Config): nat {
    if cfg.multiplyCount > 0 then cfg.multiplyCount else 0
  }

  /** How many balls n multiply power-ups add, one power-up after another. */
  function SpawnedBy(n: nat, cfg: Config): nat {
    if n == 0 then 0 else SpawnedBy(n - 1, cfg) + Spawned(cfg)
  }

  /** n multiply power-ups add n times the configured count of balls. */
  lemma {:induction false} SpawnedByCount(n: nat, cfg: Config)
    ensures SpawnedBy(n, cfg) == n * Spawned(cfg)
  {
    if n > 0 {
      SpawnedByCount(n - 1, cfg);
    }
  }

  /**
   * `activateMultiply` can draw its random velocities: Random.nextInt throws
   * an IllegalArgumentException on a bound that is not positive, and the
   * two draws of the loop's first iteration are the first things that can
   * throw. With no balls to add, nothing is drawn.
   */
  predicate MultiplyDraws(cfg: Config) {
    cfg.multiplyCount <= 0 || (cfg.horizontalThrowSpeed > 0 && cfg.ballSpeed > 0)
  }

  /** `activatePowerUp(type)` returns without an exception. */
  predicate Activates(powerUpType: string, cfg: Config) {
    powerUpType != "multiply" || MultiplyDraws(cfg)
  }

  /**
   * How many of `ps`, in order, `activatePowerUps` gets through: all of
   * them, or the ones before the first whose activation throws.
   */
  function ActivatedCount(ps: seq<PowerUp>, cfg: Config): (n: nat)
    ensures n <= |ps|
    ensures forall k :: 0 <= k < n ==> Activates(ps[k].Type(), cfg)
    ensures n < |ps| ==> !Activates(ps[n].Type(), cfg)
  {
    if ps == [] then 0
    else if !Activates(ps[0].Type(), cfg) then 0
    else 1 + ActivatedCount(ps[1..], cfg)
  }

  /** `after` is `before` followed by n more balls. */
  ghost predicate AddedBalls(before: seq<Sprite>, after: seq<Sprite>, n: nat) {
    && |after| == |before| + n
    && after[..|before|] == before
    && forall k :: |before| <= k < |after| ==> after[k].kind == Ball
  }

  /** Adding n balls and then m more adds n + m. */
  lemma AddedBallsChain(a: seq<Sprite>, b: seq<Sprite>, c: seq<Sprite>, n: nat, m: nat)
    requires AddedBalls(a, b, n) && AddedBalls(b, c, m)
    ensures AddedBalls(a, c, n + m)
  {
    assert c[..|a|] == c[..|b|][..|a|];
    forall k | |a| <= k < |c| ensures c[k].kind == Ball {
      if k < |b| {
        assert c[k] == c[..|b|][k];
      }
    }
  }

  /** The damage a paddle takes in `exchangeDamage(victim, aggressor)`: a bullet's damage, when the victim is the paddle. */
  function Hurt(victim: Sprite, aggressor: Sprite): int {
    if victim.kind == Paddle && aggressor.kind == Bullet then aggressor.damageDealt else 0
  }

  /** The bounds of the blocks, in order. */
  function BlockBounds(bs: seq<Block>): (rs: seq<Rect>)
    ensures |rs| == |bs|
  {
    if bs == [] then [] else BlockBounds(bs[..|bs| - 1]) + [bs[|bs| - 1].Bounds()]
  }

  /** Each entry of `BlockBounds(bs)` is the bounds of the block at that position. */
  lemma {:induction false} BlockBoundsAt(bs: seq<Block>)
    ensures forall k :: 0 <= k < |bs| ==> BlockBounds(bs)[k] == bs[k].Bounds()
  {
    if bs != [] {
      BlockBoundsAt(bs[..|bs| - 1]);
    }
  }

  /** What the collision pass reads of the sprites: the kind, bounds and damage of each, in order. */
  function Bodies(ss: seq<Sprite>): (bs: seq<Body>)
    reads ss`x, ss`y
    ensures |bs| == |ss|
  {
    if ss == [] then [] else Bodies(ss[..|ss| - 1]) + [ss[|ss| - 1].Snapshot()]
  }

  /** The entry of `Bodies(ss)` at i is the snapshot of the sprite at i. */
  lemma {:induction false} BodyAt(ss: seq<Sprite>, i: int)
    requires 0 <= i < |ss|
    ensures Bodies(ss)[i] == ss[i].Snapshot()
  {
    if i < |ss| - 1 {
      BodyAt(ss[..|ss| - 1], i);
    }
  }

  /**
   * The velocity v of a sprite with bounds `box` after a collision pass: the
   * sign of its horizontal part has changed once per block struck on a side
   * and that of its vertical part once per block struck on the top or
   * bottom, and both once more if it touched the paddle.
   */
  function Deflect(v: (int, int), box: Rect, blocks: seq<Rect>, paddleBox: Rect): (int, int) {
    var hit := if Intersects(box, paddleBox) then 1 else 0;
    (Flip(v.0, SideHits(box, blocks) + hit), Flip(v.1, FaceHits(box, blocks) + hit))
  }

  /** The velocities of the sprites `ss`, in order. */
  ghost function Velocities(ss: seq<Sprite>): (vs: seq<(int, int)>)
    reads ss`vx, ss`vy
    ensures |vs| == |ss|
  {
    if ss == [] then [] else Velocities(ss[..|ss| - 1]) + [(ss[|ss| - 1].vx, ss[|ss| - 1].vy)]
  }

  /** Each entry of `Velocities(ss)` is the velocity of the sprite at that position. */
  lemma {:induction false} VelocitiesAt(ss: seq<Sprite>)
    ensures forall k :: 0 <= k < |ss| ==> Velocities(ss)[k] == (ss[k].vx, ss[k].vy)
  {
    if ss != [] {
      VelocitiesAt(ss[..|ss| - 1]);
    }
  }

  /** The velocities `v` of a pass's sprites once the first n of them, with snapshots `bodies`, have been deflected. */
  function DeflectFirst(v: seq<(int, int)>, bodies: seq<Body>, blocks: seq<Rect>, paddleBox: Rect, n: int): seq<(int, int)>
    requires |bodies| == |v|
  {
    seq(|v|, k requires 0 <= k < |v| => if k < n then Deflect(v[k], bodies[k].box, blocks, paddleBox) else v[k])
  }

  /** Deflecting one more sprite updates exactly its entry. */
  lemma DeflectStep(v: seq<(int, int)>, bodies: seq<Body>, blocks: seq<Rect>, paddleBox: Rect, i: int)
    requires |bodies| == |v| && 0 <= i < |v|
    ensures var w := DeflectFirst(v, bodies, blocks, paddleBox, i);
      DeflectFirst(v, bodies, blocks, paddleBox, i + 1) == w[i := Deflect(w[i], bodies[i].box, blocks, paddleBox)]
  {
  }

  /** The damage taken by the blocks `bs`, in order. */
  ghost function Damages(bs: seq<Block>): (ds: seq<int>)
    reads bs`damageTaken
    ensures |ds| == |bs|
  {
    if bs == [] then [] else Damages(bs[..|bs| - 1]) + [bs[|bs| - 1].damageTaken]
  }

  /** Each entry of `Damages(bs)` is the damage taken by the block at that position. */
  lemma {:induction false} DamagesAt(bs: seq<Block>)
    ensures forall k :: 0 <= k < |bs| ==> Damages(bs)[k] == bs[k].damageTaken
  {
    if bs != [] {
      DamagesAt(bs[..|bs| - 1]);
    }
  }

  /** The damages `d` of the blocks `bs` after one sprite with snapshot `body` has struck them. */
  function StruckBy(d: seq<int>, bs: seq<Block>, body: Body): seq<int>
    requires |d| == |bs|
  {
    seq(|d|, k requires 0 <= k < |d| =>
      d[k] + (if Intersects(body.box, bs[k].Bounds()) then DamageTo(bs[k].isRubber, body.kind, body.damage) else 0))
  }

  /** The damages `d` of the blocks `bs` after the sprites with snapshots `bodies` have struck them. */
  function DamagedBy(d: seq<int>, bs: seq<Block>, bodies: seq<Body>): seq<int>
    requires |d| == |bs|
  {
    seq(|d|, k requires 0 <= k < |d| => d[k] + DamageFrom(bodies, bs[k].isRubber, bs[k].Bounds()))
  }

  /** Striking with the sprites up to and including the i-th is striking with those before it and then with it. */
  lemma DamagedByStep(d: seq<int>, bs: seq<Block>, bodies: seq<Body>, i: int)
    requires |d| == |bs| && 0 <= i < |bodies|
    ensures DamagedBy(d, bs, bodies[..i + 1]) == StruckBy(DamagedBy(d, bs, bodies[..i]), bs, bodies[i])
  {
    forall k | 0 <= k < |d| {
      DamageStep(bodies, i, bs[k].isRubber, bs[k].Bounds());
    }
  }

  /** s has moved one frame from (px, py) at velocity (ux, uy) and then bounced off the walls where it arrived. */
  ghost predicate Advanced(s: Sprite, px: int, py: int, ux: int, uy: int)
    reads s`x, s`y, s`vx, s`vy, s`inGodMode
  {
    s.x == px + ux && s.y == py + uy && (s.vx, s.vy) == s.Rebound(px + ux, py + uy, ux, uy)
  }

  /** The blocks of `bs` that are not dead, in order. */
  function LiveBlocks(bs: seq<Block>): seq<Block>
    reads bs`damageTaken
  {
    if bs == [] then []
    else LiveBlocks(bs[..|bs| - 1]) + (if bs[|bs| - 1].IsDead() then [] else [bs[|bs| - 1]])
  }

  /** Clearing dead blocks keeps exactly the live ones, and never makes one block appear twice. */
  lemma {:induction false} LiveBlocksMembers(bs: seq<Block>)
    ensures forall b :: b in LiveBlocks(bs) <==> b in bs && !b.IsDead()
    ensures Distinct(bs) ==> Distinct(LiveBlocks(bs))
  {
    if bs != [] {
      var front := bs[..|bs| - 1];
      var last := bs[|bs| - 1];
      LiveBlocksMembers(front);
      assert bs == front + [last];
      if Distinct(bs) {
        assert Distinct(front) by {
          forall i, j | 0 <= i < j < |front| ensures Differ(front, i, j) {
            DistinctAt(bs, i, j);
          }
        }
        if !last.IsDead() {
          assert last !in front by {
            DistinctOthers(bs, |bs| - 1);
          }
          DistinctConcat(LiveBlocks(front), [last]);
        } else {
          assert LiveBlocks(bs) == LiveBlocks(front);
        }
      }
    }
  }

  class Game {
    const cfg: Config
    const paddle: Sprite
    const ball: Sprite
    const levelFactory: LevelFactory
    const spriteManager: SpriteManager
    /** `ballThrowSpeedX`: the horizontal speed of a throw. */
    const ballThrowSpeedX: int
    var paddleMoveSpeed: int
    var currentLevel: int
    var ballLockedToPaddle: bool
    /** The game loop's timeline is running. */
    var running: bool
    /** The end screen shown last, if any. */
    var outcome: Outcome

    /**
     * What every operation keeps: the ball is live, no sprite is live twice
     * and the paddle is not among the live sprites; no block and no power-up
     * is active twice; and each of the two toggled speeds holds one of its
     * two values.
     */
    ghost predicate Valid()
      reads this`paddleMoveSpeed, ball`throwSpeed, spriteManager`activeSprites, levelFactory`activeBlocks, levelFactory`activePowerUps
    {
      && cfg.Valid() && levelFactory.cfg == cfg && ballThrowSpeedX == cfg.horizontalThrowSpeed
      && ball.kind == Ball && paddle.kind == Paddle
      && ball in spriteManager.activeSprites
      && (forall s :: s in spriteManager.activeSprites ==> s.kind != Paddle)
      && Distinct(spriteManager.activeSprites)
      && Distinct(levelFactory.activeBlocks) && Distinct(levelFactory.activePowerUps)
      && (paddleMoveSpeed == cfg.keyInputSpeed || paddleMoveSpeed == BoostedSpeed(cfg))
      && (ball.throwSpeed == cfg.ballSpeed || ball.throwSpeed == SlowedSpeed(cfg))
    }

    /**
     * `new HostileBreakout()` and `initialize`: level one, the ball caught on
     * the paddle, both at their default positions, base speeds, and the ball
     * the only live sprite; the timeline is built but not yet playing.
     */
    constructor (config: Config)
      requires config.Valid()
      ensures Valid()
      ensures cfg == config && !running && outcome == Playing
      ensures currentLevel == 1 && ballLockedToPaddle
      ensures paddleMoveSpeed == config.keyInputSpeed && ballThrowSpeedX == config.horizontalThrowSpeed
      ensures spriteManager.activeSprites == [ball] && spriteManager.deadSprites == []
      ensures ball.defaultX == MidSceneX(config) - config.ballWidth / 2 && ball.defaultY == BallStartY(config) + config.ballSize / 2
      ensures ball.x == ball.defaultX && ball.y == ball.defaultY && ball.vx == 0 && ball.vy == 0
      ensures ball.throwSpeed == config.ballSpeed && !ball.inGodMode
      ensures paddle.defaultX == MidSceneX(config) - config.paddleWidth / 2 && paddle.defaultY == PaddleBottom(config) - config.paddleHeight
      ensures paddle.x == paddle.defaultX && paddle.y == paddle.defaultY
      ensures paddle.lives == config.paddleLives && paddle.damageTaken == 0
      ensures levelFactory.level == 1
      ensures !levelFactory.loadFailed <==> levelFactory.Fits(1)
      ensures !levelFactory.loadFailed ==> levelFactory.Populated(1)
    {
      cfg := config;
      ballThrowSpeedX := config.horizontalThrowSpeed;
      paddleMoveSpeed := config.keyInputSpeed;
      currentLevel := 1;
      ballLockedToPaddle := true;
      running, outcome := false, Playing;
      ball := new Sprite.MakeBall(config, MidSceneX(config), BallStartY(config));
      paddle := new Sprite.MakePaddle(config, MidSceneX(config), PaddleBottom(config), config.paddleLives);
      levelFactory := new LevelFactory(config);
      spriteManager := new SpriteManager();
      new;
      spriteManager.AddLiveSprite(ball);
    }

    /** The timeline starts playing: from now on ticks run and key presses count. */
    method Play()
      modifies this`running
      ensures running
    {
      running := true;
    }

    /**
     * A key press goes to the handler the scene holds: the game's own while
     * no end screen is up. The end screen's handler (restart or quit) is not
     * modelled, so a key pressed there changes nothing here.
     */
    method KeyPressed(key: Key)
      requires Valid()
      modifies this`paddleMoveSpeed, this`currentLevel, this`ballLockedToPaddle, this`outcome,
               paddle`x, paddle`y, paddle`healthPoints,
               ball`x, ball`y, ball`vx, ball`vy, ball`throwSpeed, ball`inGodMode,
               spriteManager`activeSprites,
               levelFactory`activeBlocks, levelFactory`activePowerUps, levelFactory`validPositions,
               levelFactory`blockPositions, levelFactory`level, levelFactory`loadFailed
      ensures Valid()
      ensures old(outcome) != Playing ==> unchanged(this, ball, paddle, spriteManager, levelFactory)
    {
      if outcome == Playing {
        HandleKeyInput(key);
      }
    }

    /**
     * `handleKeyInput`: nothing happens unless the timeline is running.
     * Arrows move the paddle or fire; space throws the ball only when it is
     * at rest; digits jump to a level; R puts paddle and ball back and catches
     * the ball; N ends the game as lost; G flips the ball's god mode and gives
     * the paddle the largest int of health; S, M and T act as the speed,
     * multiply and slow power-ups.
     */
    method HandleKeyInput(key: Key)
      requires Valid()
      modifies this`paddleMoveSpeed, this`currentLevel, this`ballLockedToPaddle, this`outcome,
               paddle`x, paddle`y, paddle`healthPoints,
               ball`x, ball`y, ball`vx, ball`vy, ball`throwSpeed, ball`inGodMode,
               spriteManager`activeSprites,
               levelFactory`activeBlocks, levelFactory`activePowerUps, levelFactory`validPositions,
               levelFactory`blockPositions, levelFactory`level, levelFactory`loadFailed
      ensures Valid()
      ensures !running ==> unchanged(this, ball, paddle, spriteManager, levelFactory)
      ensures running && key == ArrowKey(LeftArrow) ==>
        && paddle.x == (if old(paddle.x) - paddleMoveSpeed > 0 then old(paddle.x) - paddleMoveSpeed else 0)
        && ball.x - old(ball.x) == (if ballLockedToPaddle then paddle.x - old(paddle.x) else 0)
      ensures running && key == ArrowKey(RightArrow) ==>
        && paddle.x == (if old(paddle.x) + paddleMoveSpeed < cfg.screenWidth - paddle.width
                        then old(paddle.x) + paddleMoveSpeed else cfg.screenWidth - paddle.width)
        && ball.x - old(ball.x) == (if ballLockedToPaddle then paddle.x - old(paddle.x) else 0)
      ensures key == ArrowKey(LeftArrow) || key == ArrowKey(RightArrow) ==>
        unchanged(this, spriteManager, levelFactory, paddle`y, paddle`healthPoints,
                  ball`y, ball`vx, ball`vy, ball`throwSpeed, ball`inGodMode)
      ensures running && key == ArrowKey(UpArrow) ==>
        BulletAdded(old(spriteManager.activeSprites), TruncDiv(paddle.Box().CentreX2(), 2), BallStartY(cfg), false)
      ensures key == ArrowKey(UpArrow) ==> unchanged(this, ball, paddle, levelFactory)
      ensures running && key == Space && old(ball.vx == 0 && ball.vy == 0) ==>
        && !ballLockedToPaddle && ball.y == ball.defaultY && ball.vy == -ball.throwSpeed
        && ball.vx == (if old(ball.Box().CentreX2()) <= paddle.Box().CentreX2() then -ballThrowSpeedX else ballThrowSpeedX)
      ensures key == Space ==>
        unchanged(this`currentLevel, this`paddleMoveSpeed, this`outcome, paddle, spriteManager, levelFactory,
                  ball`x, ball`throwSpeed, ball`inGodMode)
      ensures running && key.DigitKey? && 0 < key.ordinal - 24 < 6 ==> LevelEntered(key.ordinal - 24)
      ensures key.DigitKey? ==>
        unchanged(this`outcome, spriteManager, paddle`healthPoints, ball`vx, ball`vy, ball`inGodMode)
      ensures running && key == KeyR ==>
        && ballLockedToPaddle
        && ball.x == ball.defaultX && ball.y == ball.defaultY
        && paddle.x == paddle.defaultX && paddle.y == paddle.defaultY
      ensures key == KeyR ==>
        unchanged(this`currentLevel, this`paddleMoveSpeed, this`outcome, paddle`healthPoints,
                  ball`vx, ball`vy, ball`throwSpeed, ball`inGodMode, spriteManager, levelFactory)
      ensures running && key == KeyN ==> outcome == Lost
      ensures key == KeyN ==>
        unchanged(this`currentLevel, this`paddleMoveSpeed, this`ballLockedToPaddle, paddle, ball, spriteManager, levelFactory)
      ensures running && key == KeyG ==> ball.inGodMode == !old(ball.inGodMode) && paddle.healthPoints == INT_MAX
      ensures key == KeyG ==>
        unchanged(this, paddle`x, paddle`y, ball`x, ball`y, ball`vx, ball`vy, ball`throwSpeed, spriteManager, levelFactory)
      ensures running && key == KeyS ==> paddleMoveSpeed == Toggle(cfg.keyInputSpeed, BoostedSpeed(cfg), old(paddleMoveSpeed))
      ensures key == KeyS ==>
        unchanged(this`currentLevel, this`ballLockedToPaddle, this`outcome, paddle, ball, spriteManager, levelFactory)
      ensures running && key == KeyM ==>
        AddedBalls(old(spriteManager.activeSprites), spriteManager.activeSprites, if MultiplyDraws(cfg) then Spawned(cfg) else 0)
      ensures key == KeyM ==> unchanged(this, paddle, ball, levelFactory)
      ensures running && key == KeyT ==> ball.throwSpeed == Toggle(cfg.ballSpeed, SlowedSpeed(cfg), old(ball.throwSpeed))
      ensures key == KeyT ==>
        unchanged(this, paddle, ball`x, ball`y, ball`vx, ball`vy, ball`inGodMode, spriteManager, levelFactory)
      ensures key == OtherKey || key == ArrowKey(OtherArrow) || (key == Space && old(ball.vx != 0 || ball.vy != 0))
              || (key.DigitKey? && !(0 < key.ordinal - 24 < 6)) ==>
        unchanged(this, ball, paddle, spriteManager, levelFactory)
    {
      if running {
        if key.ArrowKey? || key.Space? || key.DigitKey? || key.KeyR? {
          HandlePlayKey(key);
        } else {
          HandleCheatKey(key);
        }
      }
    }

    /** The keys of play: arrows, space, digits and R. */
    method HandlePlayKey(key: Key)
      requires Valid()
      requires key.ArrowKey? || key.Space? || key.DigitKey? || key.KeyR?
      modifies this`paddleMoveSpeed, this`currentLevel, this`ballLockedToPaddle,
               paddle`x, paddle`y,
               ball`x, ball`y, ball`vx, ball`vy, ball`throwSpeed,
               spriteManager`activeSprites,
               levelFactory`activeBlocks, levelFactory`activePowerUps, levelFactory`validPositions,
               levelFactory`blockPositions, levelFactory`level, levelFactory`loadFailed
      ensures Valid()
      ensures key == ArrowKey(LeftArrow) ==>
        && paddle.x == (if old(paddle.x) - paddleMoveSpeed > 0 then old(paddle.x) - paddleMoveSpeed else 0)
        && ball.x - old(ball.x) == (if ballLockedToPaddle then paddle.x - old(paddle.x) else 0)
      ensures key == ArrowKey(RightArrow) ==>
        && paddle.x == (if old(paddle.x) + paddleMoveSpeed < cfg.screenWidth - paddle.width
                        then old(paddle.x) + paddleMoveSpeed else cfg.screenWidth - paddle.width)
        && ball.x - old(ball.x) == (if ballLockedToPaddle then paddle.x - old(paddle.x) else 0)
      ensures key == ArrowKey(LeftArrow) || key == ArrowKey(RightArrow) ==>
        unchanged(this, spriteManager, levelFactory, paddle`y, paddle`healthPoints,
                  ball`y, ball`vx, ball`vy, ball`throwSpeed, ball`inGodMode)
      ensures key == ArrowKey(UpArrow) ==>
        BulletAdded(old(spriteManager.activeSprites), TruncDiv(paddle.Box().CentreX2(), 2), BallStartY(cfg), false)
      ensures key == ArrowKey(UpArrow) ==> unchanged(this, ball, paddle, levelFactory)
      ensures key == Space && old(ball.vx == 0 && ball.vy == 0) ==>
        && !ballLockedToPaddle && ball.y == ball.defaultY && ball.vy == -ball.throwSpeed
        && ball.vx == (if old(ball.Box().CentreX2()) <= paddle.Box().CentreX2() then -ballThrowSpeedX else ballThrowSpeedX)
      ensures key == Space ==>
        unchanged(this`currentLevel, this`paddleMoveSpeed, this`outcome, paddle, spriteManager, levelFactory,
                  ball`x, ball`throwSpeed, ball`inGodMode)
      ensures key.DigitKey? && 0 < key.ordinal - 24 < 6 ==> LevelEntered(key.ordinal - 24)
      ensures key.DigitKey? ==>
        unchanged(this`outcome, spriteManager, paddle`healthPoints, ball`vx, ball`vy, ball`inGodMode)
      ensures key == KeyR ==>
        && ballLockedToPaddle
        && ball.x == ball.defaultX && ball.y == ball.defaultY
        && paddle.x == paddle.defaultX && paddle.y == paddle.defaultY
      ensures key == KeyR ==>
        unchanged(this`currentLevel, this`paddleMoveSpeed, this`outcome, paddle`healthPoints,
                  ball`vx, ball`vy, ball`throwSpeed, ball`inGodMode, spriteManager, levelFactory)
      ensures key == ArrowKey(OtherArrow) || (key == Space && old(ball.vx != 0 || ball.vy != 0))
              || (key.DigitKey? && !(0 < key.ordinal - 24 < 6)) ==>
        unchanged(this, ball, paddle, spriteManager, levelFactory)
    {
      match key {
        case ArrowKey(arrow) =>
          HandleArrowPress(arrow);
        case Space =>
          if ball.vx == 0 && ball.vy == 0 {
            HandleThrow();
          }
        case DigitKey(ordinal) =>
          HandleDigitPress(ordinal);
        case KeyR =>
          ResetPositions();
      }
    }

    /** The cheat keys N, G, S, M and T; any other key does nothing. */
    method HandleCheatKey(key: Key)
      requires Valid()
      requires !(key.ArrowKey? || key.Space? || key.DigitKey? || key.KeyR?)
      modifies this`paddleMoveSpeed, this`outcome, paddle`healthPoints,
               ball`throwSpeed, ball`inGodMode, spriteManager`activeSprites
      ensures Valid()
      ensures key == KeyN ==> outcome == Lost
      ensures key == KeyN ==>
        unchanged(this`currentLevel, this`paddleMoveSpeed, this`ballLockedToPaddle, paddle, ball, spriteManager, levelFactory)
      ensures key == KeyG ==> ball.inGodMode == !old(ball.inGodMode) && paddle.healthPoints == INT_MAX
      ensures key == KeyG ==>
        unchanged(this, paddle`x, paddle`y, ball`x, ball`y, ball`vx, ball`vy, ball`throwSpeed, spriteManager, levelFactory)
      ensures key == KeyS ==> paddleMoveSpeed == Toggle(cfg.keyInputSpeed, BoostedSpeed(cfg), old(paddleMoveSpeed))
      ensures key == KeyS ==>
        unchanged(this`currentLevel, this`ballLockedToPaddle, this`outcome, paddle, ball, spriteManager, levelFactory)
      ensures key == KeyM ==>
        AddedBalls(old(spriteManager.activeSprites), spriteManager.activeSprites, if MultiplyDraws(cfg) then Spawned(cfg) else 0)
      ensures key == KeyM ==> unchanged(this, paddle, ball, levelFactory)
      ensures key == KeyT ==> ball.throwSpeed == Toggle(cfg.ballSpeed, SlowedSpeed(cfg), old(ball.throwSpeed))
      ensures key == KeyT ==>
        unchanged(this, paddle, ball`x, ball`y, ball`vx, ball`vy, ball`inGodMode, spriteManager, levelFactory)
      ensures key == OtherKey ==> unchanged(this, ball, paddle, spriteManager, levelFactory)
    {
      match key {
        case KeyN =>
          ShowEndGameScreen(Lost);
        case KeyG =>
          ToggleGodMode();
        case KeyS =>
          var _ := ActivatePowerUp("speed");
          assert spriteManager.activeSprites == spriteManager.activeSprites[..|old(spriteManager.activeSprites)|];
        case KeyM =>
          var _ := ActivatePowerUp("multiply");
        case KeyT =>
          var _ := ActivatePowerUp("slow");
          assert spriteManager.activeSprites == spriteManager.activeSprites[..|old(spriteManager.activeSprites)|];
        case OtherKey =>
      }
    }

    /** The R key: paddle and ball go back to where they started and the ball is caught. */
    method ResetPositions()
      requires Valid()
      modifies paddle`x, paddle`y, ball`x, ball`y, this`ballLockedToPaddle
      ensures Valid()
      ensures ballLockedToPaddle
      ensures ball.x == ball.defaultX && ball.y == ball.defaultY
      ensures paddle.x == paddle.defaultX && paddle.y == paddle.defaultY
    {
      ball.ResetPosition();
      paddle.ResetPosition();
      ballLockedToPaddle := true;
    }

    /** The G key: the ball's god mode flips and the paddle gets the largest int of health. */
    method ToggleGodMode()
      requires Valid()
      modifies ball`inGodMode, paddle`healthPoints
      ensures Valid()
      ensures ball.inGodMode == !old(ball.inGodMode) && paddle.healthPoints == INT_MAX
    {
      ball.SetInGodMode(!ball.IsInGodMode());
      paddle.SetMyHealthPoints(INT_MAX);
    }

    /** `handleArrowPress`: right and left move the paddle; up fires a paddle bullet from the paddle's centre at the ball's start height. */
    method HandleArrowPress(arrow: Arrow)
      requires Valid()
      modifies paddle`x, ball`x, spriteManager`activeSprites
      ensures Valid()
      ensures arrow != UpArrow ==> spriteManager.activeSprites == old(spriteManager.activeSprites)
      ensures arrow == LeftArrow ==>
        && paddle.x == (if old(paddle.x) - paddleMoveSpeed > 0 then old(paddle.x) - paddleMoveSpeed else 0)
        && ball.x - old(ball.x) == (if ballLockedToPaddle then paddle.x - old(paddle.x) else 0)
      ensures arrow == RightArrow ==>
        && paddle.x == (if old(paddle.x) + paddleMoveSpeed < cfg.screenWidth - paddle.width
                        then old(paddle.x) + paddleMoveSpeed else cfg.screenWidth - paddle.width)
        && ball.x - old(ball.x) == (if ballLockedToPaddle then paddle.x - old(paddle.x) else 0)
      ensures arrow == UpArrow ==> unchanged(paddle, ball) && BulletAdded(old(spriteManager.activeSprites), TruncDiv(paddle.Box().CentreX2(), 2), BallStartY(cfg), false)
      ensures arrow == OtherArrow ==> unchanged(paddle, ball)
    {
      match arrow {
        case RightArrow =>
          HandleRightPress();
        case LeftArrow =>
          HandleLeftPress();
        case UpArrow =>
          AddBullet(TruncDiv(paddle.Box().CentreX2(), 2), BallStartY(cfg), false);
        case OtherArrow =>
      }
    }

    /** `handleDigitPress`: the key's ordinal less 24 is the level asked for; only levels 1 to 5 are taken. */
    method HandleDigitPress(ordinal: int)
      requires Valid()
      modifies paddle`x, paddle`y, ball`x, ball`y, ball`throwSpeed,
               this`currentLevel, this`ballLockedToPaddle, this`paddleMoveSpeed,
               levelFactory`activeBlocks, levelFactory`activePowerUps, levelFactory`validPositions,
               levelFactory`blockPositions, levelFactory`level, levelFactory`loadFailed
      ensures Valid()
      ensures 0 < ordinal - 24 < 6 ==> LevelEntered(ordinal - 24)
      ensures 0 < ordinal - 24 < 6 ==> forall b :: b in levelFactory.activeBlocks ==> fresh(b)
      ensures !(0 < ordinal - 24 < 6) ==> unchanged(this, ball, paddle, levelFactory)
    {
      var levelDesired := ordinal - 24;
      if levelDesired > 0 && levelDesired < 6 {
        TransitionLevel(levelDesired);
      }
    }

    /**
     * `handleThrow`: the ball leaves moving up at its throw speed, to the left
     * when its centre is not right of the paddle's centre and to the right
     * otherwise, and is no longer caught.
     */
    method HandleThrow()
      requires Valid()
      modifies ball`y, ball`vx, ball`vy, this`ballLockedToPaddle
      ensures Valid()
      ensures !ballLockedToPaddle
      ensures ball.y == ball.defaultY && ball.vy == -ball.throwSpeed
      ensures ball.vx == if old(ball.Box().CentreX2()) <= paddle.Box().CentreX2() then -ballThrowSpeedX else ballThrowSpeedX
    {
      if ball.Box().CentreX2() <= paddle.Box().CentreX2() {
        ball.BeThrown(-ballThrowSpeedX);
      } else {
        ball.BeThrown(ballThrowSpeedX);
      }
      ballLockedToPaddle := false;
    }

    /**
     * `handleLeftPress`: the paddle moves left by its speed, or stops at the
     * left wall when that would take its left edge to 0 or beyond; a caught
     * ball moves by exactly as much as the paddle, a free one not at all. A
     * paddle inside the scene stays inside it.
     */
    method HandleLeftPress()
      requires Valid()
      modifies paddle`x, ball`x
      ensures Valid()
      ensures paddle.x == if old(paddle.x) - paddleMoveSpeed > 0 then old(paddle.x) - paddleMoveSpeed else 0
      ensures ball.x - old(ball.x) == if ballLockedToPaddle then paddle.x - old(paddle.x) else 0
      ensures 0 <= old(paddle.x) <= cfg.screenWidth - paddle.width && paddleMoveSpeed >= 0 ==>
        0 <= paddle.x <= cfg.screenWidth - paddle.width
    {
      if paddle.x - paddleMoveSpeed > 0 {
        paddle.SetX(paddle.x - paddleMoveSpeed);
        if ballLockedToPaddle {
          ball.SetX(ball.x - paddleMoveSpeed);
        }
      } else {
        var distancePaddleMoves := -paddle.x;
        paddle.SetX(0);
        if ballLockedToPaddle {
          ball.SetX(ball.x + distancePaddleMoves);
        }
      }
    }

    /**
     * `handleRightPress`: the paddle moves right by its speed, or stops at
     * the right wall when its left edge would reach the scene width less its
     * width; a caught ball moves by exactly as much as the paddle. A paddle
     * inside the scene stays inside it.
     */
    method HandleRightPress()
      requires Valid()
      modifies paddle`x, ball`x
      ensures Valid()
      ensures paddle.x == if old(paddle.x) + paddleMoveSpeed < cfg.screenWidth - paddle.width
                          then old(paddle.x) + paddleMoveSpeed else cfg.screenWidth - paddle.width
      ensures ball.x - old(ball.x) == if ballLockedToPaddle then paddle.x - old(paddle.x) else 0
      ensures 0 <= old(paddle.x) <= cfg.screenWidth - paddle.width && paddleMoveSpeed >= 0 ==>
        0 <= paddle.x <= cfg.screenWidth - paddle.width
    {
      var paddleWidth := paddle.width;
      if paddle.x + paddleMoveSpeed < cfg.screenWidth - paddleWidth {
        paddle.SetX(paddle.x + paddleMoveSpeed);
        if ballLockedToPaddle {
          ball.SetX(ball.x + paddleMoveSpeed);
        }
      } else {
        var distancePaddleMoves := cfg.screenWidth - paddleWidth - paddle.x;
        paddle.SetX(cfg.screenWidth - paddleWidth);
        if ballLockedToPaddle {
          ball.SetX(ball.x + distancePaddleMoves);
        }
      }
    }

    /**
     * `processCollisions`: a ball touching the paddle stops and is caught;
     * then one collision pass runs, and every power-up it recorded is
     * activated and leaves the level, so that exactly the power-ups no sprite
     * touched remain. A multiply activation whose random draw throws stops
     * the activations there (`ok` is false).
     */
    method ProcessCollisions() returns (ok: bool)
      requires Valid()
      modifies ball`vx, ball`vy, this`ballLockedToPaddle,
               spriteManager.activeSprites`vx, spriteManager.activeSprites`vy, spriteManager.activeSprites`damageTaken,
               levelFactory.activeBlocks`damageTaken, paddle`vx, paddle`vy, paddle`damageTaken,
               this`paddleMoveSpeed, ball`throwSpeed, spriteManager`activeSprites, levelFactory`activePowerUps
      ensures Valid()
      ensures paddle.lives == old(paddle.lives) && currentLevel == old(currentLevel) && outcome == old(outcome)
      ensures Intersects(old(ball.Box()), old(paddle.Box())) ==> ballLockedToPaddle
      ensures !Intersects(old(ball.Box()), old(paddle.Box())) ==> ballLockedToPaddle == old(ballLockedToPaddle)
      ensures levelFactory.activeBlocks == old(levelFactory.activeBlocks)
      ensures paddle.damageTaken == old(paddle.damageTaken) + PaddleDamage(old(Bodies(spriteManager.activeSprites)), paddle.Box())
      ensures MultiplyDraws(cfg) ==> ok
      ensures ok ==> forall p :: p in levelFactory.activePowerUps <==>
        p in old(levelFactory.activePowerUps) && !HitBySome(old(Bodies(spriteManager.activeSprites)), p)
      ensures var recorded := RecordAll(old(Bodies(spriteManager.activeSprites)), old(levelFactory.activePowerUps));
        var done := recorded[..ActivatedCount(recorded, cfg)];
        && (ok <==> done == recorded)
        && levelFactory.activePowerUps == Without(old(levelFactory.activePowerUps), done)
        && paddleMoveSpeed == Toggles(cfg.keyInputSpeed, BoostedSpeed(cfg), old(paddleMoveSpeed), CountOfType(done, "speed"))
        && ball.throwSpeed == Toggles(cfg.ballSpeed, SlowedSpeed(cfg), old(ball.throwSpeed), CountOfType(done, "slow"))
    {
      CatchBall();
      ok := ResolveCollisions();
    }

    /**
     * The rest of `processCollisions`: the collision pass, then the
     * activation of the power-ups it recorded.
     */
    method ResolveCollisions() returns (ok: bool)
      requires Valid()
      modifies spriteManager.activeSprites`vx, spriteManager.activeSprites`vy, spriteManager.activeSprites`damageTaken,
               levelFactory.activeBlocks`damageTaken, paddle`vx, paddle`vy, paddle`damageTaken,
               this`paddleMoveSpeed, ball`throwSpeed, spriteManager`activeSprites, levelFactory`activePowerUps
      ensures Valid()
      ensures paddle.lives == old(paddle.lives) && currentLevel == old(currentLevel) && outcome == old(outcome)
      ensures levelFactory.activeBlocks == old(levelFactory.activeBlocks)
      ensures paddle.damageTaken == old(paddle.damageTaken) + PaddleDamage(old(Bodies(spriteManager.activeSprites)), paddle.Box())
      ensures MultiplyDraws(cfg) ==> ok
      ensures ok ==> forall p :: p in levelFactory.activePowerUps <==>
        p in old(levelFactory.activePowerUps) && !HitBySome(old(Bodies(spriteManager.activeSprites)), p)
      ensures var recorded := RecordAll(old(Bodies(spriteManager.activeSprites)), old(levelFactory.activePowerUps));
        var done := recorded[..ActivatedCount(recorded, cfg)];
        && (ok <==> done == recorded)
        && levelFactory.activePowerUps == Without(old(levelFactory.activePowerUps), done)
        && paddleMoveSpeed == Toggles(cfg.keyInputSpeed, BoostedSpeed(cfg), old(paddleMoveSpeed), CountOfType(done, "speed"))
        && ball.throwSpeed == Toggles(cfg.ballSpeed, SlowedSpeed(cfg), old(ball.throwSpeed), CountOfType(done, "slow"))
    {
      ghost var bodies := Bodies(spriteManager.activeSprites);
      ghost var powerUps := levelFactory.activePowerUps;
      var powerUpsToActivate := CheckCollisions();
      ok := ActivatePowerUps(powerUpsToActivate);
      if ok {
        assert powerUpsToActivate[..|powerUpsToActivate|] == powerUpsToActivate;
        RecordAllMembers(bodies, powerUps);
        WithoutMembers(powerUps, powerUpsToActivate);
      }
    }

    /** The first step of `processCollisions`: a ball touching the paddle stops and is caught. */
    method CatchBall()
      requires Valid()
      modifies ball`vx, ball`vy, this`ballLockedToPaddle
      ensures Valid()
      ensures Bodies(spriteManager.activeSprites) == old(Bodies(spriteManager.activeSprites))
      ensures paddle.lives == old(paddle.lives) && currentLevel == old(currentLevel) && outcome == old(outcome)
      ensures Intersects(ball.Box(), paddle.Box()) ==> ballLockedToPaddle && ball.vx == 0 && ball.vy == 0
      ensures !Intersects(ball.Box(), paddle.Box()) ==> ballLockedToPaddle == old(ballLockedToPaddle) && ball.vx == old(ball.vx) && ball.vy == old(ball.vy)
    {
      if ball.CollidesWith(ToSprite(paddle)) {
        ball.SetVelocity(0, 0);
        ballLockedToPaddle := true;
      }
    }

    /**
     * `checkCollisions`: every live sprite in turn is checked against every
     * active block, which takes damage from it and then bounces it, against
     * every active power-up, which is recorded, and against the paddle, with
     * which it collides. No sprite moves and no block or power-up leaves
     * during the pass. The result is the recorded power-ups.
     */
    method CheckCollisions() returns (touched: seq<PowerUp>)
      requires Valid()
      modifies spriteManager.activeSprites`vx, spriteManager.activeSprites`vy, spriteManager.activeSprites`damageTaken,
               levelFactory.activeBlocks`damageTaken, paddle`vx, paddle`vy, paddle`damageTaken
      ensures Valid()
      ensures paddle.lives == old(paddle.lives) && currentLevel == old(currentLevel) && outcome == old(outcome)
      ensures touched == RecordAll(old(Bodies(spriteManager.activeSprites)), levelFactory.activePowerUps)
      ensures Damages(levelFactory.activeBlocks)
        == DamagedBy(old(Damages(levelFactory.activeBlocks)), levelFactory.activeBlocks, old(Bodies(spriteManager.activeSprites)))
      ensures Velocities(spriteManager.activeSprites)
        == DeflectFirst(old(Velocities(spriteManager.activeSprites)), old(Bodies(spriteManager.activeSprites)),
                        BlockBounds(levelFactory.activeBlocks), paddle.Box(), |spriteManager.activeSprites|)
      ensures paddle.damageTaken == old(paddle.damageTaken) + PaddleDamage(old(Bodies(spriteManager.activeSprites)), paddle.Box())
      ensures paddle.vx == Flip(old(paddle.vx), Touching(old(Bodies(spriteManager.activeSprites)), paddle.Box()))
      ensures paddle.vy == Flip(old(paddle.vy), Touching(old(Bodies(spriteManager.activeSprites)), paddle.Box()))
    {
      touched := CheckSprites(spriteManager.activeSprites, levelFactory.activeBlocks, levelFactory.activePowerUps);
    }

    /**
     * The state of a collision pass over `sprites`, with snapshots `bodies`,
     * once the first i of them have been checked: the power-ups they touched
     * are recorded, the blocks have taken their damage from them starting
     * from `d0`, they have been deflected starting from the velocities `v0`,
     * and the paddle, which started with damage and velocity `p0`, has
     * collided with each of them that overlaps it.
     */
    ghost predicate PassedFirst(sprites: seq<Sprite>, blocks: seq<Block>, powerUps: seq<PowerUp>, touched: seq<PowerUp>,
                                bodies: seq<Body>, d0: seq<int>, v0: seq<(int, int)>, p0: (int, int, int), paddleBox: Rect, i: int)
      reads sprites, blocks, paddle
    {
      && 0 <= i <= |sprites| && |bodies| == |sprites| && |v0| == |sprites| && |d0| == |blocks|
      && touched == RecordAll(bodies[..i], powerUps)
      && Damages(blocks) == DamagedBy(d0, blocks, bodies[..i])
      && Velocities(sprites) == DeflectFirst(v0, bodies, BlockBounds(blocks), paddleBox, i)
      && paddle.damageTaken == p0.0 + PaddleDamage(bodies[..i], paddleBox)
      && paddle.vx == Flip(p0.1, Touching(bodies[..i], paddleBox))
      && paddle.vy == Flip(p0.2, Touching(bodies[..i], paddleBox))
    }

    /** The loop of `checkCollisions`, over the live sprites in order. */
    method CheckSprites(sprites: seq<Sprite>, blocks: seq<Block>, powerUps: seq<PowerUp>) returns (touched: seq<PowerUp>)
      requires Distinct(sprites) && Distinct(blocks) && paddle.kind == Paddle
      requires forall s :: s in sprites ==> s.kind != Paddle
      modifies sprites`vx, sprites`vy, sprites`damageTaken, blocks`damageTaken, paddle`vx, paddle`vy, paddle`damageTaken
      ensures touched == RecordAll(old(Bodies(sprites)), powerUps)
      ensures Damages(blocks) == DamagedBy(old(Damages(blocks)), blocks, old(Bodies(sprites)))
      ensures Velocities(sprites) == DeflectFirst(old(Velocities(sprites)), old(Bodies(sprites)), BlockBounds(blocks), paddle.Box(), |sprites|)
      ensures paddle.damageTaken == old(paddle.damageTaken) + PaddleDamage(old(Bodies(sprites)), paddle.Box())
      ensures paddle.vx == Flip(old(paddle.vx), Touching(old(Bodies(sprites)), paddle.Box()))
      ensures paddle.vy == Flip(old(paddle.vy), Touching(old(Bodies(sprites)), paddle.Box()))
    {
      ghost var bodies := Bodies(sprites);
      ghost var paddleBox := paddle.Box();
      ghost var d0 := Damages(blocks);
      ghost var v0 := Velocities(sprites);
      ghost var p0 := (paddle.damageTaken, paddle.vx, paddle.vy);
      touched := [];
      var i := 0;
      while i < |sprites|
        invariant PassedFirst(sprites, blocks, powerUps, touched, bodies, d0, v0, p0, paddleBox, i)
      {
        touched := CheckSpriteAt(sprites, i, blocks, powerUps, touched, bodies, d0, v0, p0, paddleBox);
        i := i + 1;
      }
      assert bodies[..i] == bodies;
    }

    /**
     * The body of `checkCollisions`' loop for the i-th sprite, seen from the
     * whole pass: it takes the pass from the first i sprites to the first
     * i + 1.
     */
    method CheckSpriteAt(sprites: seq<Sprite>, i: int, blocks: seq<Block>, powerUps: seq<PowerUp>, touched: seq<PowerUp>,
                         ghost bodies: seq<Body>, ghost d0: seq<int>, ghost v0: seq<(int, int)>, ghost p0: (int, int, int),
                         ghost paddleBox: Rect) returns (r: seq<PowerUp>)
      requires Distinct(sprites) && Distinct(blocks)
      requires paddle.kind == Paddle && forall s :: s in sprites ==> s.kind != Paddle
      requires bodies == Bodies(sprites) && paddleBox == paddle.Box()
      requires i < |sprites| && PassedFirst(sprites, blocks, powerUps, touched, bodies, d0, v0, p0, paddleBox, i)
      modifies sprites`vx, sprites`vy, sprites`damageTaken, blocks`damageTaken, paddle`vx, paddle`vy, paddle`damageTaken
      ensures PassedFirst(sprites, blocks, powerUps, r, bodies, d0, v0, p0, paddleBox, i + 1)
    {
      BodyAt(sprites, i);
      r := CheckSpriteVelocities(sprites, i, blocks, powerUps, touched, bodies[i], paddleBox);
      PassStep(bodies, i, powerUps, paddleBox);
      DamagedByStep(d0, blocks, bodies, i);
      DeflectStep(v0, bodies, BlockBounds(blocks), paddleBox, i);
    }

    /** `CheckSpriteDamages` for the i-th of the live sprites, with the velocities of all of them stated as one sequence. */
    method CheckSpriteVelocities(sprites: seq<Sprite>, i: int, blocks: seq<Block>, powerUps: seq<PowerUp>, recorded: seq<PowerUp>,
                                 ghost body: Body, ghost paddleBox: Rect) returns (r: seq<PowerUp>)
      requires Distinct(sprites) && Distinct(blocks) && 0 <= i < |sprites|
      requires paddle.kind == Paddle && forall s :: s in sprites ==> s.kind != Paddle
      requires body == sprites[i].Snapshot() && paddleBox == paddle.Box()
      modifies sprites`vx, sprites`vy, sprites`damageTaken, blocks`damageTaken, paddle`vx, paddle`vy, paddle`damageTaken
      ensures r == Record(recorded, body.box, powerUps)
      ensures Damages(blocks) == StruckBy(old(Damages(blocks)), blocks, body)
      ensures var v := old(Velocities(sprites));
        Velocities(sprites) == v[i := Deflect(v[i], body.box, BlockBounds(blocks), paddleBox)]
      ensures var hit := Intersects(body.box, paddleBox);
        && paddle.damageTaken == old(paddle.damageTaken) + (if hit && body.kind == Bullet then body.damage else 0)
        && paddle.vx == (if hit then -old(paddle.vx) else old(paddle.vx))
        && paddle.vy == (if hit then -old(paddle.vy) else old(paddle.vy))
    {
      DistinctOthers(sprites, i);
      VelocitiesAt(sprites);
      r := CheckSpriteDamages(sprites[i], blocks, powerUps, recorded, body, paddleBox);
      VelocitiesAt(sprites);
    }

    /** `CheckSprite`, with the damage taken by all the blocks stated as one sequence. */
    method CheckSpriteDamages(sprite: Sprite, blocks: seq<Block>, powerUps: seq<PowerUp>, recorded: seq<PowerUp>,
                              ghost body: Body, ghost paddleBox: Rect) returns (r: seq<PowerUp>)
      requires Distinct(blocks) && paddle.kind == Paddle && sprite.kind != Paddle
      requires body == sprite.Snapshot() && paddleBox == paddle.Box()
      modifies sprite`vx, sprite`vy, sprite`damageTaken, blocks`damageTaken, paddle`vx, paddle`vy, paddle`damageTaken
      ensures r == Record(recorded, body.box, powerUps)
      ensures Damages(blocks) == StruckBy(old(Damages(blocks)), blocks, body)
      ensures (sprite.vx, sprite.vy) == Deflect((old(sprite.vx), old(sprite.vy)), body.box, BlockBounds(blocks), paddleBox)
      ensures var hit := Intersects(body.box, paddleBox);
        && paddle.damageTaken == old(paddle.damageTaken) + (if hit && body.kind == Bullet then body.damage else 0)
        && paddle.vx == (if hit then -old(paddle.vx) else old(paddle.vx))
        && paddle.vy == (if hit then -old(paddle.vy) else old(paddle.vy))
    {
      DamagesAt(blocks);
      r := CheckSprite(sprite, blocks, powerUps, recorded, body, paddleBox);
      DamagesAt(blocks);
    }

    /**
     * The body of `checkCollisions`' loop for one sprite: its blocks, then
     * its power-ups, then the paddle.
     */
    method CheckSprite(sprite: Sprite, blocks: seq<Block>, powerUps: seq<PowerUp>, recorded: seq<PowerUp>,
                       ghost body: Body, ghost paddleBox: Rect) returns (r: seq<PowerUp>)
      requires Distinct(blocks) && paddle.kind == Paddle && sprite.kind != Paddle
      requires body == sprite.Snapshot() && paddleBox == paddle.Box()
      modifies sprite`vx, sprite`vy, sprite`damageTaken, blocks`damageTaken, paddle`vx, paddle`vy, paddle`damageTaken
      ensures r == Record(recorded, body.box, powerUps)
      ensures forall k :: 0 <= k < |blocks| ==>
        blocks[k].damageTaken == old(blocks[k].damageTaken)
          + (if Intersects(body.box, blocks[k].Bounds()) then DamageTo(blocks[k].isRubber, body.kind, body.damage) else 0)
      ensures (sprite.vx, sprite.vy) == Deflect((old(sprite.vx), old(sprite.vy)), body.box, BlockBounds(blocks), paddleBox)
      ensures var hit := Intersects(body.box, paddleBox);
        && paddle.damageTaken == old(paddle.damageTaken) + (if hit && body.kind == Bullet then body.damage else 0)
        && paddle.vx == (if hit then -old(paddle.vx) else old(paddle.vx))
        && paddle.vy == (if hit then -old(paddle.vy) else old(paddle.vy))
    {
      ghost var bounds := BlockBounds(blocks);
      ghost var ux, uy := sprite.vx, sprite.vy;
      StrikeBlocks(sprite, blocks);
      ghost var n, m := SideHits(body.box, bounds), FaceHits(body.box, bounds);
      assert sprite.vx == Flip(ux, n) && sprite.vy == Flip(uy, m);
      r := RecordPowerUps(sprite, powerUps, recorded);
      if sprite.CollidesWith(ToSprite(paddle)) {
        Collide(sprite, paddle);
        assert sprite.vx == Flip(ux, n + 1) && sprite.vy == Flip(uy, m + 1);
      }
    }

    /**
     * The block loop of `checkCollisions` for one sprite: each block it
     * overlaps takes damage from it and then bounces it off the face struck.
     */
    method StrikeBlocks(sprite: Sprite, blocks: seq<Block>)
      requires Distinct(blocks)
      modifies sprite`vx, sprite`vy, blocks`damageTaken
      ensures forall k :: 0 <= k < |blocks| ==>
        blocks[k].damageTaken == old(blocks[k].damageTaken)
          + (if Intersects(sprite.Box(), blocks[k].Bounds()) then DamageTo(blocks[k].isRubber, sprite.kind, sprite.damageDealt) else 0)
      ensures sprite.vx == Flip(old(sprite.vx), SideHits(sprite.Box(), BlockBounds(blocks)))
      ensures sprite.vy == Flip(old(sprite.vy), FaceHits(sprite.Box(), BlockBounds(blocks)))
    {
      ghost var bounds := BlockBounds(blocks);
      BlockBoundsAt(blocks);
      ghost var box := sprite.Box();
      var j := 0;
      while j < |blocks|
        invariant 0 <= j <= |blocks|
        invariant forall k :: 0 <= k < |blocks| ==>
          blocks[k].damageTaken == old(blocks[k].damageTaken)
            + (if k < j && Intersects(box, bounds[k]) then DamageTo(blocks[k].isRubber, sprite.kind, sprite.damageDealt) else 0)
        invariant sprite.vx == Flip(old(sprite.vx), SideHits(box, bounds[..j]))
        invariant sprite.vy == Flip(old(sprite.vy), FaceHits(box, bounds[..j]))
      {
        ghost var ux, uy := sprite.vx, sprite.vy;
        StrikeBlock(sprite, blocks[j]);
        BounceStep(box, bounds, j, old(sprite.vx), old(sprite.vy), ux, uy, sprite.vx, sprite.vy);
        DistinctOthers(blocks, j);
        j := j + 1;
      }
      assert bounds[..j] == bounds;
    }

    /** One step of that loop: a block the sprite overlaps takes damage from it, then bounces it. */
    method StrikeBlock(sprite: Sprite, block: Block)
      modifies sprite`vx, sprite`vy, block`damageTaken
      ensures var hit := Intersects(sprite.Box(), block.Bounds());
        && block.damageTaken == old(block.damageTaken) + (if hit then DamageTo(block.isRubber, sprite.kind, sprite.damageDealt) else 0)
        && sprite.vx == (if hit && !HitsTopOrBottom(sprite.Box(), block.Bounds()) then -old(sprite.vx) else old(sprite.vx))
        && sprite.vy == (if hit && HitsTopOrBottom(sprite.Box(), block.Bounds()) then -old(sprite.vy) else old(sprite.vy))
    {
      if sprite.CollidesWith(ToRectangle(block.Bounds())) {
        block.TakeDamageFrom(sprite);
        sprite.BounceOffBlock(block.Bounds());
      }
    }

    /** The power-up loop of `checkCollisions` for one sprite: each power-up it overlaps joins the recorded set. */
    method RecordPowerUps(sprite: Sprite, powerUps: seq<PowerUp>, recorded: seq<PowerUp>) returns (r: seq<PowerUp>)
      ensures r == Record(recorded, sprite.Box(), powerUps)
    {
      r := recorded;
      var j := 0;
      while j < |powerUps|
        invariant 0 <= j <= |powerUps|
        invariant r == Record(recorded, sprite.Box(), powerUps[..j])
      {
        var powerUp := powerUps[j];
        if sprite.CollidesWith(ToRectangle(powerUp.Bounds())) && powerUp !in r {
          r := r + [powerUp];
        }
        assert powerUps[..j + 1][..j] == powerUps[..j];
        j := j + 1;
      }
      assert powerUps[..j] == powerUps;
    }

    /**
     * `activatePowerUps`: each recorded power-up in turn is activated and
     * taken out of the level's active power-ups. The speed and slow toggles
     * flip once per power-up of their type; each multiply power-up adds its
     * balls. An activation that throws ends the loop: the power-ups from it
     * on stay, and `ok` is false.
     */
    method ActivatePowerUps(powerUpsToActivate: seq<PowerUp>) returns (ok: bool)
      requires Valid()
      modifies this`paddleMoveSpeed, ball`throwSpeed, spriteManager`activeSprites, levelFactory`activePowerUps
      ensures Valid()
      ensures paddle.lives == old(paddle.lives) && currentLevel == old(currentLevel) && outcome == old(outcome)
      ensures paddle.damageTaken == old(paddle.damageTaken) && paddle.Box() == old(paddle.Box())
      ensures levelFactory.activeBlocks == old(levelFactory.activeBlocks)
      ensures ok <==> ActivatedCount(powerUpsToActivate, cfg) == |powerUpsToActivate|
      ensures var done := powerUpsToActivate[..ActivatedCount(powerUpsToActivate, cfg)];
        && levelFactory.activePowerUps == Without(old(levelFactory.activePowerUps), done)
        && paddleMoveSpeed == Toggles(cfg.keyInputSpeed, BoostedSpeed(cfg), old(paddleMoveSpeed), CountOfType(done, "speed"))
        && ball.throwSpeed == Toggles(cfg.ballSpeed, SlowedSpeed(cfg), old(ball.throwSpeed), CountOfType(done, "slow"))
        && AddedBalls(old(spriteManager.activeSprites), spriteManager.activeSprites, SpawnedBy(CountOfType(done, "multiply"), cfg))
    {
      WithoutNothing(levelFactory.activePowerUps);
      ghost var start := (levelFactory.activePowerUps, paddleMoveSpeed, ball.throwSpeed, spriteManager.activeSprites);
      var i := 0;
      ok := true;
      while i < |powerUpsToActivate| && ok
        invariant ActivatedFirst(powerUpsToActivate, i, start)
        invariant forall k :: 0 <= k < i ==> Activates(powerUpsToActivate[k].Type(), cfg)
        invariant !ok ==> i < |powerUpsToActivate| && !Activates(powerUpsToActivate[i].Type(), cfg)
        decreases |powerUpsToActivate| - i, ok
      {
        ok := ActivatePowerUpAt(powerUpsToActivate, i, start);
        if ok {
          i := i + 1;
        }
      }
      assert ActivatedCount(powerUpsToActivate, cfg) == i;
    }

    /**
     * The state of `activatePowerUps` once the first i power-ups have been
     * activated, from the starting power-ups, speeds and live sprites
     * `start`.
     */
    ghost predicate ActivatedFirst(ps: seq<PowerUp>, i: int, start: (seq<PowerUp>, int, int, seq<Sprite>))
      reads this`paddleMoveSpeed, ball`throwSpeed, spriteManager`activeSprites, levelFactory`activeBlocks, levelFactory`activePowerUps
    {
      && 0 <= i <= |ps|
      && Valid()
      && levelFactory.activePowerUps == Without(start.0, ps[..i])
      && paddleMoveSpeed == Toggles(cfg.keyInputSpeed, BoostedSpeed(cfg), start.1, CountOfType(ps[..i], "speed"))
      && ball.throwSpeed == Toggles(cfg.ballSpeed, SlowedSpeed(cfg), start.2, CountOfType(ps[..i], "slow"))
      && AddedBalls(start.3, spriteManager.activeSprites, SpawnedBy(CountOfType(ps[..i], "multiply"), cfg))
    }

    /**
     * The body of `activatePowerUps`' loop: the i-th power-up is activated
     * and leaves the level; when its activation throws, nothing changes and
     * the power-up stays.
     */
    method ActivatePowerUpAt(ps: seq<PowerUp>, i: int, ghost start: (seq<PowerUp>, int, int, seq<Sprite>)) returns (ok: bool)
      requires i < |ps| && ActivatedFirst(ps, i, start)
      modifies this`paddleMoveSpeed, ball`throwSpeed, spriteManager`activeSprites, levelFactory`activePowerUps
      ensures ok <==> Activates(ps[i].Type(), cfg)
      ensures ok ==> ActivatedFirst(ps, i + 1, start)
      ensures !ok ==> ActivatedFirst(ps, i, start)
    {
      var powerUp := ps[i];
      ghost var before := spriteManager.activeSprites;
      ghost var done := CountOfType(ps[..i], "multiply");
      ok := ActivatePowerUp(powerUp.Type());
      if !ok {
        return;
      }
      WithoutAppend(start.0, ps[..i], powerUp);
      RemovePowerUp(powerUp);
      assert ps[..i + 1] == ps[..i] + [powerUp];
      CountOfTypeNext(ps, i, "speed");
      CountOfTypeNext(ps, i, "slow");
      CountOfTypeNext(ps, i, "multiply");
      ghost var added := if powerUp.Type() == "multiply" then Spawned(cfg) else 0;
      AddedBallsChain(start.3, before, spriteManager.activeSprites, SpawnedBy(done, cfg), added);
      assert SpawnedBy(done, cfg) + added == SpawnedBy(CountOfType(ps[..i + 1], "multiply"), cfg);
    }

    /** An activated power-up leaves the level's power-ups. */
    method RemovePowerUp(powerUp: PowerUp)
      requires Valid()
      modifies levelFactory`activePowerUps
      ensures Valid()
      ensures levelFactory.activePowerUps == Without(old(levelFactory.activePowerUps), [powerUp])
    {
      WithoutDistinct(levelFactory.activePowerUps, [powerUp]);
      levelFactory.activePowerUps := Without(levelFactory.activePowerUps, [powerUp]);
    }

    /**
     * `activatePowerUp(type)`: "speed" toggles the paddle speed between its
     * base and boosted values, "slow" toggles the ball's throw speed between
     * the ball speed and the slowed speed, "multiply" adds the configured
     * number of balls, and any other type changes nothing.
     */
    method ActivatePowerUp(powerUpType: string) returns (ok: bool)
      requires Valid()
      modifies this`paddleMoveSpeed, ball`throwSpeed, spriteManager`activeSprites
      ensures Valid()
      ensures ok <==> Activates(powerUpType, cfg)
      ensures paddleMoveSpeed == if powerUpType == "speed" then Toggle(cfg.keyInputSpeed, BoostedSpeed(cfg), old(paddleMoveSpeed)) else old(paddleMoveSpeed)
      ensures ball.throwSpeed == if powerUpType == "slow" then Toggle(cfg.ballSpeed, SlowedSpeed(cfg), old(ball.throwSpeed)) else old(ball.throwSpeed)
      ensures AddedBalls(old(spriteManager.activeSprites), spriteManager.activeSprites, if powerUpType == "multiply" && ok then Spawned(cfg) else 0)
      ensures !ok ==> spriteManager.activeSprites == old(spriteManager.activeSprites)
    {
      ok := true;
      if powerUpType == "speed" {
        if paddleMoveSpeed == cfg.keyInputSpeed {
          paddleMoveSpeed := TruncDiv(paddleMoveSpeed * cfg.speedMultiplier.num, cfg.speedMultiplier.den);
        } else {
          paddleMoveSpeed := cfg.keyInputSpeed;
        }
      } else if powerUpType == "multiply" {
        ok := ActivateMultiply();
      } else if powerUpType == "slow" {
        if ball.throwSpeed == cfg.ballSpeed {
          ball.SetThrowSpeed(ball.throwSpeed - cfg.slowAmount);
        } else {
          ball.SetThrowSpeed(cfg.ballSpeed);
        }
      }
      assert spriteManager.activeSprites[..|old(spriteManager.activeSprites)|] == old(spriteManager.activeSprites);
    }

    /**
     * `activateMultiply`: the configured number of new balls join the live
     * sprites, each at the top-left corner moving right and down with a
     * random velocity below the horizontal throw speed and the ball speed.
     * When there are balls to add and either speed is not positive, a draw
     * in the first iteration throws and no ball joins.
     */
    method ActivateMultiply() returns (ok: bool)
      requires Valid()
      modifies spriteManager`activeSprites
      ensures Valid()
      ensures ok <==> MultiplyDraws(cfg)
      ensures AddedBalls(old(spriteManager.activeSprites), spriteManager.activeSprites, if ok then Spawned(cfg) else 0)
      ensures !ok ==> spriteManager.activeSprites == old(spriteManager.activeSprites)
      ensures forall k :: |old(spriteManager.activeSprites)| <= k < |spriteManager.activeSprites| ==>
        var s := spriteManager.activeSprites[k];
        fresh(s) && s.x == 0 && s.y == 0 && 0 <= s.vx < cfg.horizontalThrowSpeed && 0 <= s.vy < cfg.ballSpeed
    {
      var i := 0;
      while i < cfg.multiplyCount
        invariant 0 <= i && (i <= cfg.multiplyCount || i == 0)
        invariant i > 0 ==> cfg.horizontalThrowSpeed > 0 && cfg.ballSpeed > 0
        invariant Valid()
        invariant AddedBalls(old(spriteManager.activeSprites), spriteManager.activeSprites, i)
        invariant forall k :: |old(spriteManager.activeSprites)| <= k < |spriteManager.activeSprites| ==>
          var s := spriteManager.activeSprites[k];
          fresh(s) && s.x == 0 && s.y == 0 && 0 <= s.vx < cfg.horizontalThrowSpeed && 0 <= s.vy < cfg.ballSpeed
      {
        var auxiliaryBall := new Sprite.MakeAuxiliaryBall(cfg, 0, 0);
        if cfg.horizontalThrowSpeed <= 0 || cfg.ballSpeed <= 0 {
          return false;
        }
        var ux :| 0 <= ux < cfg.horizontalThrowSpeed;
        var uy :| 0 <= uy < cfg.ballSpeed;
        auxiliaryBall.SetVelocity(ux, uy);
        spriteManager.AddLiveSprite(auxiliaryBall);
        i := i + 1;
      }
      ok := true;
    }

    /**
     * `collide(s1, s2)`: each sprite takes damage from the other if it is the
     * paddle, then both reverse their whole velocity (a sprite colliding with
     * itself ends where it started).
     */
    method Collide(s1: Sprite, s2: Sprite)
      modifies s1`damageTaken, s1`vx, s1`vy, s2`damageTaken, s2`vx, s2`vy
      ensures s1 != s2 ==> s1.vx == -old(s1.vx) && s1.vy == -old(s1.vy) && s2.vx == -old(s2.vx) && s2.vy == -old(s2.vy)
      ensures s1 != s2 ==> s1.damageTaken == old(s1.damageTaken) + Hurt(s1, s2) && s2.damageTaken == old(s2.damageTaken) + Hurt(s2, s1)
      ensures s1 == s2 ==> s1.vx == old(s1.vx) && s1.vy == old(s1.vy) && s1.damageTaken == old(s1.damageTaken)
    {
      ExchangeDamage(s1, s2);
      ExchangeDamage(s2, s1);
      s1.SetVelocity(-s1.vx, -s1.vy);
      s2.SetVelocity(-s2.vx, -s2.vy);
    }

    /** `exchangeDamage(victim, aggressor)`: only the paddle, the one character, takes damage, and only from a bullet. */
    method ExchangeDamage(victim: Sprite, aggressor: Sprite)
      modifies victim`damageTaken
      ensures victim.damageTaken == old(victim.damageTaken) + Hurt(victim, aggressor)
    {
      if victim.kind == Paddle {
        victim.TakeDamageFrom(aggressor);
      }
    }

    /** `addBullet(x, y, fromBoss)`: a new bullet at (bulletX, bulletY) joins the live sprites. */
    method AddBullet(bulletX: int, bulletY: int, fromBoss: bool)
      requires Valid()
      modifies spriteManager`activeSprites
      ensures Valid()
      ensures BulletAdded(old(spriteManager.activeSprites), bulletX, bulletY, fromBoss)
    {
      var bullet := new Sprite.MakeBullet(cfg, bulletX, bulletY, fromBoss);
      spriteManager.AddLiveSprite(bullet);
    }

    /** The live sprites are `before` and one more: a bullet at (bulletX, bulletY) fired by the boss or not as given. */
    ghost predicate BulletAdded(before: seq<Sprite>, bulletX: int, bulletY: int, fromBoss: bool)
      reads spriteManager`activeSprites, spriteManager.activeSprites`x, spriteManager.activeSprites`y
    {
      var after := spriteManager.activeSprites;
      && |after| == |before| + 1 && after[..|before|] == before
      && after[|before|].kind == Bullet && after[|before|].x == bulletX && after[|before|].y == bulletY
      && after[|before|].IsFromBoss() == fromBoss
    }

    /** `transitionLevel()`: past the last level the game is won; otherwise the next level starts. */
    method TransitionToNextLevel()
      requires Valid()
      modifies paddle`x, paddle`y, ball`x, ball`y, ball`throwSpeed,
               this`currentLevel, this`ballLockedToPaddle, this`paddleMoveSpeed, this`outcome,
               levelFactory`activeBlocks, levelFactory`activePowerUps, levelFactory`validPositions,
               levelFactory`blockPositions, levelFactory`level, levelFactory`loadFailed
      ensures Valid()
      ensures old(currentLevel) + 1 > cfg.lastLevel ==>
        outcome == Won && unchanged(this`currentLevel, this`paddleMoveSpeed, this`ballLockedToPaddle, ball, paddle, levelFactory)
      ensures old(currentLevel) + 1 <= cfg.lastLevel ==> outcome == old(outcome) && LevelEntered(old(currentLevel) + 1)
      ensures old(currentLevel) + 1 <= cfg.lastLevel ==> forall b :: b in levelFactory.activeBlocks ==> fresh(b)
    {
      if currentLevel + 1 > cfg.lastLevel {
        ShowEndGameScreen(Won);
      } else {
        TransitionLevel(currentLevel + 1);
      }
    }

    /**
     * The state `transitionLevel(lvl)` leaves: level lvl with the ball
     * caught, paddle and ball at their default positions, base speeds, and
     * the level factory loaded with lvl, completely exactly when it fits.
     */
    ghost predicate LevelEntered(lvl: int)
      reads this`currentLevel, this`ballLockedToPaddle, this`paddleMoveSpeed, paddle`x, paddle`y, ball`x, ball`y, ball`throwSpeed,
            levelFactory`level, levelFactory`loadFailed, levelFactory`validPositions, levelFactory`activeBlocks,
            levelFactory`activePowerUps, levelFactory`blockPositions, levelFactory.activeBlocks
    {
      && currentLevel == lvl && ballLockedToPaddle
      && paddle.x == paddle.defaultX && paddle.y == paddle.defaultY && ball.x == ball.defaultX && ball.y == ball.defaultY
      && ball.throwSpeed == cfg.ballSpeed && paddleMoveSpeed == cfg.keyInputSpeed
      && levelFactory.level == lvl
      && (!levelFactory.loadFailed <==> levelFactory.Fits(lvl))
      && (!levelFactory.loadFailed ==> levelFactory.Populated(lvl))
      && (levelFactory.loadFailed ==> levelFactory.PartlyLoaded(lvl))
      && (forall b :: b in levelFactory.activeBlocks ==> b.damageTaken == 0)
    }

    /**
     * `transitionLevel(desiredLevel)`: paddle and ball back at their default
     * positions with the ball caught, both speeds back to base, and the level
     * regenerated; it loads completely exactly when it fits. Live sprites
     * other than the ball stay.
     */
    method TransitionLevel(desiredLevel: int)
      requires Valid()
      modifies paddle`x, paddle`y, ball`x, ball`y, ball`throwSpeed,
               this`currentLevel, this`ballLockedToPaddle, this`paddleMoveSpeed,
               levelFactory`activeBlocks, levelFactory`activePowerUps, levelFactory`validPositions,
               levelFactory`blockPositions, levelFactory`level, levelFactory`loadFailed
      ensures Valid()
      ensures currentLevel == desiredLevel && ballLockedToPaddle
      ensures paddle.x == paddle.defaultX && paddle.y == paddle.defaultY && ball.x == ball.defaultX && ball.y == ball.defaultY
      ensures ball.throwSpeed == cfg.ballSpeed && paddleMoveSpeed == cfg.keyInputSpeed
      ensures levelFactory.level == desiredLevel
      ensures !levelFactory.loadFailed <==> levelFactory.Fits(desiredLevel)
      ensures !levelFactory.loadFailed ==> levelFactory.Populated(desiredLevel)
      ensures LevelEntered(desiredLevel)
      ensures forall b :: b in levelFactory.activeBlocks ==> fresh(b)
    {
      paddle.ResetPosition();
      ball.ResetPosition();
      currentLevel := desiredLevel;
      ballLockedToPaddle := true;
      ball.SetThrowSpeed(cfg.ballSpeed);
      paddleMoveSpeed := cfg.keyInputSpeed;
      levelFactory.UpdateLevel(currentLevel);
    }

    /** `showEndGameScreen(endState)`: the end screen for the outcome is shown and takes over the keys. */
    method ShowEndGameScreen(endState: Outcome)
      requires endState != Playing
      modifies this`outcome
      ensures outcome == endState
    {
      outcome := endState;
    }

    /**
     * `refreshSprites`: every live sprite moves one frame along its velocity
     * and bounces off the walls where it arrives. Then, when the paddle is
     * dead or the ball has fallen past y = 600, the paddle is healed and
     * loses a life: with none left the game is lost, otherwise paddle and
     * ball go back to their default positions.
     */
    method RefreshSprites()
      requires Valid()
      modifies spriteManager.activeSprites`x, spriteManager.activeSprites`y,
               spriteManager.activeSprites`vx, spriteManager.activeSprites`vy,
               ball`x, ball`y, paddle`x, paddle`y, paddle`damageTaken, paddle`lives, this`outcome
      ensures Valid()
      ensures forall k :: 0 <= k < |spriteManager.activeSprites| && spriteManager.activeSprites[k] != ball ==>
        var s := spriteManager.activeSprites[k];
        Advanced(s, old(s.x), old(s.y), old(s.vx), old(s.vy))
      ensures (ball.vx, ball.vy) == ball.Rebound(old(ball.x) + old(ball.vx), old(ball.y) + old(ball.vy), old(ball.vx), old(ball.vy))
      ensures var lifeLost := old(paddle.IsDead()) || old(ball.y) + old(ball.vy) > LostBallY;
        && (lifeLost ==> paddle.damageTaken == 0 && paddle.lives == old(paddle.lives) - 1)
        && (lifeLost && paddle.lives <= 0 ==> outcome == Lost)
        && (!lifeLost ==> paddle.damageTaken == old(paddle.damageTaken) && paddle.lives == old(paddle.lives))
        && (!(lifeLost && paddle.lives <= 0) ==> outcome == old(outcome))
        && (ball.x, ball.y) == (if lifeLost && paddle.lives > 0 then (ball.defaultX, ball.defaultY)
                                else (old(ball.x) + old(ball.vx), old(ball.y) + old(ball.vy)))
        && (paddle.x, paddle.y) == (if lifeLost && paddle.lives > 0 then (paddle.defaultX, paddle.defaultY)
                                    else (old(paddle.x), old(paddle.y)))
    {
      MoveSprites();
      CheckLifeLost();
    }

    /**
     * The loop of `refreshSprites`: every live sprite moves one frame along
     * its velocity and then bounces off the walls where it arrives.
     */
    method MoveSprites()
      requires Valid()
      modifies spriteManager.activeSprites`x, spriteManager.activeSprites`y,
               spriteManager.activeSprites`vx, spriteManager.activeSprites`vy
      ensures Valid()
      ensures paddle.IsDead() == old(paddle.IsDead()) && paddle.lives == old(paddle.lives) && outcome == old(outcome)
      ensures (paddle.x, paddle.y) == old((paddle.x, paddle.y))
      ensures forall k :: 0 <= k < |spriteManager.activeSprites| ==>
        var s := spriteManager.activeSprites[k];
        Advanced(s, old(s.x), old(s.y), old(s.vx), old(s.vy))
    {
      var sprites := spriteManager.activeSprites;
      var i := 0;
      while i < |sprites|
        invariant 0 <= i <= |sprites|
        invariant forall k :: 0 <= k < i ==>
          Advanced(sprites[k], old(sprites[k].x), old(sprites[k].y), old(sprites[k].vx), old(sprites[k].vy))
        invariant forall k :: i <= k < |sprites| ==>
          && sprites[k].x == old(sprites[k].x) && sprites[k].y == old(sprites[k].y)
          && sprites[k].vx == old(sprites[k].vx) && sprites[k].vy == old(sprites[k].vy)
      {
        var sprite := sprites[i];
        sprite.UpdatePosition(1);
        sprite.Bounce();
        DistinctOthers(sprites, i);
        i := i + 1;
      }
    }

    /**
     * The check that ends `refreshSprites`: when the paddle is dead or the
     * ball has fallen past y = 600, the paddle is healed and loses a life;
     * with none left the game is lost, otherwise paddle and ball go back to
     * their default positions.
     */
    method CheckLifeLost()
      requires Valid()
      modifies ball`x, ball`y, paddle`x, paddle`y, paddle`damageTaken, paddle`lives, this`outcome
      ensures Valid()
      ensures var lifeLost := old(paddle.IsDead()) || old(ball.y) > LostBallY;
        && (lifeLost ==> paddle.damageTaken == 0 && paddle.lives == old(paddle.lives) - 1)
        && (lifeLost && paddle.lives <= 0 ==> outcome == Lost)
        && (!lifeLost ==> paddle.damageTaken == old(paddle.damageTaken) && paddle.lives == old(paddle.lives))
        && (!(lifeLost && paddle.lives <= 0) ==> outcome == old(outcome))
        && (ball.x, ball.y) == (if lifeLost && paddle.lives > 0 then (ball.defaultX, ball.defaultY) else old((ball.x, ball.y)))
        && (paddle.x, paddle.y) == (if lifeLost && paddle.lives > 0 then (paddle.defaultX, paddle.defaultY) else old((paddle.x, paddle.y)))
    {
      if paddle.IsDead() || ball.y > LostBallY {
        paddle.ResetHealth();
        var livesRemaining := paddle.Lives() - 1;
        paddle.SetLives(livesRemaining);
        if livesRemaining <= 0 {
          ShowEndGameScreen(Lost);
        } else {
          paddle.ResetPosition();
          ball.ResetPosition();
        }
      }
    }

    /**
     * `removeDeadBlocks`: the dead blocks leave the level; every live one
     * stays, in order.
     */
    method RemoveDeadBlocks()
      requires Valid()
      modifies levelFactory`activeBlocks
      ensures Valid()
      ensures levelFactory.activeBlocks == LiveBlocks(old(levelFactory.activeBlocks))
      ensures forall b :: b in levelFactory.activeBlocks <==> b in old(levelFactory.activeBlocks) && !b.IsDead()
    {
      var blocks := levelFactory.activeBlocks;
      var kept: seq<Block> := [];
      var i := 0;
      while i < |blocks|
        invariant 0 <= i <= |blocks|
        invariant kept == LiveBlocks(blocks[..i])
      {
        if !blocks[i].IsDead() {
          kept := kept + [blocks[i]];
        }
        assert blocks[..i + 1][..i] == blocks[..i];
        i := i + 1;
      }
      assert blocks[..i] == blocks;
      LiveBlocksMembers(blocks);
      levelFactory.activeBlocks := kept;
    }

    /**
     * `removeDeadNodes`: dead blocks leave; then, while the timeline runs, a
     * level with no block left moves the game on to the next level or, after
     * the last one, to the won screen.
     */
    method RemoveDeadNodes()
      requires Valid()
      modifies paddle`x, paddle`y, ball`x, ball`y, ball`throwSpeed,
               this`currentLevel, this`ballLockedToPaddle, this`paddleMoveSpeed, this`outcome,
               levelFactory`activeBlocks, levelFactory`activePowerUps, levelFactory`validPositions,
               levelFactory`blockPositions, levelFactory`level, levelFactory`loadFailed
      ensures Valid()
      ensures paddle.lives == old(paddle.lives)
      ensures var cleared := running && old(LiveBlocks(levelFactory.activeBlocks)) == [];
        && (cleared && old(currentLevel) + 1 > cfg.lastLevel ==> outcome == Won && currentLevel == old(currentLevel))
        && (cleared && old(currentLevel) + 1 <= cfg.lastLevel ==>
              currentLevel == old(currentLevel) + 1 && ballLockedToPaddle && levelFactory.level == currentLevel)
        && (!cleared ==> currentLevel == old(currentLevel) && outcome == old(outcome))
        && (!cleared ==> levelFactory.activeBlocks == old(LiveBlocks(levelFactory.activeBlocks)))
      ensures currentLevel == old(currentLevel) ==> forall b :: b in levelFactory.activeBlocks ==> !b.IsDead()
      ensures running && currentLevel == old(currentLevel) && levelFactory.OutOfBlocks() ==> outcome == Won
    {
      RemoveDeadBlocks();
      if levelFactory.OutOfBlocks() && running {
        TransitionToNextLevel();
      }
    }

    /**
     * GameEnvironment's `step`: one tick refreshes the sprites, then processes
     * collisions, then removes dead nodes. Only the playing timeline calls it.
     * The level moves on by at most one, and only within the configured
     * levels; a completed tick that does not move it on leaves only live
     * blocks, and no block at all only under the won screen. The paddle loses
     * at most one life. A multiply power-up whose random draw throws ends the
     * tick early (`completed` is false), before dead nodes are removed; that
     * happens only when the configuration makes the draw fail.
     */
    method Step() returns (completed: bool)
      requires Valid() && running
      modifies spriteManager.activeSprites`x, spriteManager.activeSprites`y,
               spriteManager.activeSprites`vx, spriteManager.activeSprites`vy, spriteManager.activeSprites`damageTaken,
               ball`x, ball`y, ball`vx, ball`vy, ball`throwSpeed,
               paddle`x, paddle`y, paddle`vx, paddle`vy, paddle`damageTaken, paddle`lives,
               this`paddleMoveSpeed, this`currentLevel, this`ballLockedToPaddle, this`outcome,
               spriteManager`activeSprites, levelFactory.activeBlocks`damageTaken,
               levelFactory`activeBlocks, levelFactory`activePowerUps, levelFactory`validPositions,
               levelFactory`blockPositions, levelFactory`level, levelFactory`loadFailed
      ensures Valid()
      ensures currentLevel == old(currentLevel)
           || (currentLevel == old(currentLevel) + 1 <= cfg.lastLevel && ballLockedToPaddle && levelFactory.level == currentLevel)
      ensures MultiplyDraws(cfg) ==> completed
      ensures !completed ==> currentLevel == old(currentLevel)
      ensures completed && currentLevel == old(currentLevel) ==> forall b :: b in levelFactory.activeBlocks ==> !b.IsDead()
      ensures completed && currentLevel == old(currentLevel) && levelFactory.OutOfBlocks() ==> outcome == Won
      ensures paddle.lives == old(paddle.lives) || paddle.lives == old(paddle.lives) - 1
    {
      RefreshSprites();
      completed := CollideAndRemove();
    }

    /**
     * The rest of `step` after `refreshSprites`: collisions are processed,
     * then dead nodes are removed, unless a power-up's activation threw.
     */
    method CollideAndRemove() returns (completed: bool)
      requires Valid() && running
      modifies spriteManager.activeSprites`vx, spriteManager.activeSprites`vy, spriteManager.activeSprites`damageTaken,
               ball`x, ball`y, ball`vx, ball`vy, ball`throwSpeed,
               paddle`x, paddle`y, paddle`vx, paddle`vy, paddle`damageTaken,
               this`paddleMoveSpeed, this`currentLevel, this`ballLockedToPaddle, this`outcome,
               spriteManager`activeSprites, levelFactory.activeBlocks`damageTaken,
               levelFactory`activeBlocks, levelFactory`activePowerUps, levelFactory`validPositions,
               levelFactory`blockPositions, levelFactory`level, levelFactory`loadFailed
      ensures Valid()
      ensures paddle.lives == old(paddle.lives)
      ensures currentLevel == old(currentLevel)
           || (currentLevel == old(currentLevel) + 1 <= cfg.lastLevel && ballLockedToPaddle && levelFactory.level == currentLevel)
      ensures MultiplyDraws(cfg) ==> completed
      ensures !completed ==> currentLevel == old(currentLevel)
      ensures completed && currentLevel == old(currentLevel) ==> forall b :: b in levelFactory.activeBlocks ==> !b.IsDead()
      ensures completed && currentLevel == old(currentLevel) && levelFactory.OutOfBlocks() ==> outcome == Won
    {
      completed := ProcessCollisions();
      if completed {
        RemoveDeadNodes();
      }
    }
  }
}

=== FILE: java_math.dfy ===
/**
 * The parts of Java's 32-bit `int` arithmetic that the game relies on:
 * division that truncates toward zero, and wrap-around on overflow.
 */
module JavaMath {

  const INT_MIN: int := -0x8000_0000
  const INT_MAX: int := 0x7fff_ffff
  const TWO_32: int := 0x1_0000_0000

  function Abs(a: int): (r: nat)
    ensures r == a || r == -a
  {
    if a < 0 then -a else a
  }

  /** Java's integer `/`: the quotient rounded toward zero (Dafny's `/` is Euclidean). */
  function TruncDiv(a: int, b: int): (q: int)
    requires b != 0
    ensures Abs(q) * Abs(b) <= Abs(a) < Abs(q) * Abs(b) + Abs(b)
    ensures (a >= 0) == (b > 0) ==> q >= 0
    ensures (a >= 0) != (b > 0) ==> q <= 0
  {
    var m := Abs(a) / Abs(b);
    DivBounds(Abs(a), Abs(b));
    if (a >= 0) == (b > 0) then m else -m
  }

  lemma DivBounds(n: nat, d: nat)
    requires d > 0
    ensures (n / d) * d <= n < (n / d) * d + d
  {
    assert n == (n / d) * d + n % d;
  }

  /** Java's `(int)` of an exact integer: reduction into [INT_MIN, INT_MAX] modulo 2^32. */
  function Wrap32(v: int): (r: int)
    ensures INT_MIN <= r <= INT_MAX
    ensures (r - v) % TWO_32 == 0
    ensures INT_MIN <= v <= INT_MAX ==> r == v
  {
    (v - INT_MIN) % TWO_32 + INT_MIN
  }

  /** On non-negative operands Java's division and Dafny's agree. */
  lemma TruncDivNonNegative(a: int, b: int)
    requires a >= 0 && b > 0
    ensures TruncDiv(a, b) == a / b
  {
  }
}

=== FILE: level_factory.dfy ===
/**
 * Level generation. The scene is divided into a square grid of block-sized
 * cells; for a level, every block type places its configured number of
 * blocks on cells drawn at random without replacement, and every power-up
 * type then hides its configured number of power-ups behind cells that
 * received a block.
 *
 * The position pools are `ArrayList`s shrunk in place with `remove(index)`;
 * the active blocks and power-ups are `HashSet`s, kept here as sequences in
 * insertion order. A random draw `nextInt(bound)` is a nondeterministic
 * choice in [0, bound), and a bound that is not positive makes the draw
 * fail, as Java's `IllegalArgumentException` does; a failure abandons the
 * rest of the level.
 */
module LevelFactories {
  import opened JavaMath
  import opened Seqs
  import opened Properties
  import opened Blocks
  import opened PowerUps

  /** A grid cell: column x and row y. */
  datatype Cell = Cell(x: int, y: int)

  function CellOf(b: Block): Cell {
    Cell(b.gx, b.gy)
  }

  function CellOfPowerUp(p: PowerUp): Cell {
    Cell(p.gx, p.gy)
  }

  /** The grid cells of a sequence of blocks, in order. */
  function Cells(bs: seq<Block>): (cs: seq<Cell>)
    ensures |cs| == |bs|
    ensures forall k :: 0 <= k < |bs| ==> cs[k] == CellOf(bs[k])
  {
    seq(|bs|, k requires 0 <= k < |bs| => CellOf(bs[k]))
  }

  /** The grid cells of a sequence of power-ups, in order. */
  function PowerUpCells(ps: seq<PowerUp>): (cs: seq<Cell>)
    ensures |cs| == |ps|
    ensures forall k :: 0 <= k < |ps| ==> cs[k] == CellOfPowerUp(ps[k])
  {
    seq(|ps|, k requires 0 <= k < |ps| => CellOfPowerUp(ps[k]))
  }

  /** The first n cells of column i: (i, 0), ..., (i, n - 1). */
  function Row(i: int, n: nat): seq<Cell> {
    seq(n, j => Cell(i, j))
  }

  /**
   * The cells (i, j) with 0 <= i < m and 0 <= j < n, in the order the nested
   * loops of the factory visit them: each exactly once.
   */
  function Rows(m: nat, n: nat): seq<Cell> {
    if m == 0 then [] else Rows(m - 1, n) + Row(m - 1, n)
  }

  /** There are m * n cells in all. */
  lemma {:induction false} RowsLength(m: nat, n: nat)
    ensures |Rows(m, n)| == m * n
  {
    if m > 0 {
      RowsLength(m - 1, n);
      assert (m - 1) * n + n == m * n;
    }
  }

  /** The nested loops visit exactly the cells (i, j) with 0 <= i < m and 0 <= j < n. */
  lemma {:induction false} RowsCover(m: nat, n: nat)
    ensures forall c :: c in Rows(m, n) <==> 0 <= c.x < m && 0 <= c.y < n
  {
    if m > 0 {
      RowsCover(m - 1, n);
      var row := Row(m - 1, n);
      assert forall c :: c in row ==> c.x == m - 1;
      forall c: Cell | c.x == m - 1 && 0 <= c.y < n ensures c in row {
        assert row[c.y] == c;
      }
    }
  }

  /** The nested loops visit no cell twice. */
  lemma {:induction false} RowsDistinct(m: nat, n: nat)
    ensures Distinct(Rows(m, n))
  {
    if m > 0 {
      RowsDistinct(m - 1, n);
      RowsCover(m - 1, n);
      var row := Row(m - 1, n);
      assert Distinct(row) by {
        forall i, j | 0 <= i < j < |row| ensures row[i] != row[j] {
          assert row[i].y == i && row[j].y == j;
        }
      }
      assert forall c :: c in row ==> c.x == m - 1;
      DistinctConcat(Rows(m - 1, n), row);
    }
  }

  class LevelFactory {
    const cfg: Config
    /** GRID_DIMENSION: the scene width divided by the block size. */
    const gridDimension: int
    /** Cells that hold a block, from which power-up cells are drawn. */
    var blockPositions: seq<Cell>
    var activeBlocks: seq<Block>
    var activePowerUps: seq<PowerUp>
    /** Cells still free for a block. */
    var validPositions: seq<Cell>
    /** The level being generated (the Java field `levelString`). */
    var level: int
    /** The last level load threw instead of completing. */
    var loadFailed: bool

    /** `new LevelFactory()`: empty pools and sets, then level one. */
    constructor (config: Config)
      requires config.blockSize > 0
      ensures cfg == config && gridDimension == config.GridDimension()
      ensures level == 1
      ensures !loadFailed <==> Fits(1)
      ensures !loadFailed ==> Populated(1)
      ensures Distinct(activeBlocks) && Distinct(activePowerUps)
      ensures forall b :: b in activeBlocks ==> fresh(b) && b.damageTaken == 0
      ensures multiset(validPositions) + multiset(Cells(activeBlocks)) == multiset(Grid())
      ensures loadFailed ==> PartlyLoaded(1)
    {
      cfg := config;
      gridDimension := config.GridDimension();
      blockPositions, activeBlocks, activePowerUps, validPositions := [], [], [], [];
      level, loadFailed := 0, false;
      new;
      UpdateLevel(1);
    }

    /** The side of the grid, or 0 when the grid dimension is not positive. */
    function Side(): nat {
      if gridDimension > 0 then gridDimension else 0
    }

    /** Every cell of the grid, in generation order. */
    function Grid(): seq<Cell> {
      Rows(Side(), Side())
    }

    /** The block types of `lvl`, one entry per block, in creation order. */
    function BlockSchedule(lvl: int): seq<string> {
      cfg.Schedule(lvl, cfg.blockTypes)
    }

    /** The power-up types of `lvl`, one entry per power-up, in creation order. */
    function PowerUpSchedule(lvl: int): seq<string> {
      cfg.Schedule(lvl, cfg.powerUpTypes)
    }

    /** A level fits when its blocks fit on the grid and its power-ups behind its blocks. */
    predicate Fits(lvl: int) {
      |BlockSchedule(lvl)| <= |Grid()| && |PowerUpSchedule(lvl)| <= |BlockSchedule(lvl)|
    }

    /** `b` is what `addBlock(blockType, ...)` creates: its health, its rubber flag (by the type's name) and its size. */
    predicate BlockOfType(b: Block, blockType: string) {
      && b.healthPoints == cfg.BlockHealth(blockType)
      && b.isRubber == (blockType == "rubber")
      && b.size == cfg.blockSize
    }

    /** Block k was created for the k-th entry of `schedule`. */
    predicate BlocksFollow(bs: seq<Block>, schedule: seq<string>) {
      |bs| == |schedule| && forall k :: 0 <= k < |bs| ==> BlockOfType(bs[k], schedule[k])
    }

    /** Power-up k was created for the k-th entry of `schedule`, on its own cell. */
    predicate PowerUpsFollow(ps: seq<PowerUp>, schedule: seq<string>) {
      |ps| == |schedule| && forall k :: 0 <= k < |ps| ==> ps[k] == MakePowerUp(cfg, schedule[k], ps[k].gx, ps[k].gy)
    }

    /** Some block in `bs` is `equals` to a new block of this health on this cell. */
    predicate HasBlockLike(bs: seq<Block>, health: int, cell: Cell) {
      exists k :: 0 <= k < |bs| && bs[k].healthPoints == health && CellOf(bs[k]) == cell
    }

    /**
     * The state a completed load of `lvl` leaves: the blocks follow the
     * level's block schedule, and together with the free cells they make up
     * the grid; the power-ups follow the power-up schedule, and together with
     * the remaining block positions they make up the cells of the blocks.
     */
    ghost predicate Loaded(lvl: int, free: seq<Cell>, blocks: seq<Block>, powerUps: seq<PowerUp>, left: seq<Cell>) {
      && BlocksFollow(blocks, BlockSchedule(lvl))
      && multiset(free) + multiset(Cells(blocks)) == multiset(Grid())
      && PowerUpsFollow(powerUps, PowerUpSchedule(lvl))
      && multiset(left) + multiset(PowerUpCells(powerUps)) == multiset(Cells(blocks))
    }

    /**
     * What a failed load of `lvl` leaves. When the blocks did not fit, the
     * blocks placed before the failing draw follow the start of the block
     * schedule and no power-up was placed. When only the power-ups did not
     * fit, all blocks are placed and the power-ups placed follow the start
     * of the power-up schedule.
     */
    ghost predicate PartlyLoaded(lvl: int)
      reads this`activeBlocks, this`activePowerUps
    {
      Abandoned(lvl, activeBlocks, activePowerUps)
    }

    /** The blocks and power-ups a failed load of `lvl` leaves, as `PartlyLoaded` describes them. */
    ghost predicate Abandoned(lvl: int, blocks: seq<Block>, powerUps: seq<PowerUp>) {
      if |BlockSchedule(lvl)| > |Grid()| then
        && powerUps == []
        && |blocks| < |BlockSchedule(lvl)|
        && BlocksFollow(blocks, BlockSchedule(lvl)[..|blocks|])
      else
        && BlocksFollow(blocks, BlockSchedule(lvl))
        && |powerUps| < |PowerUpSchedule(lvl)|
        && PowerUpsFollow(powerUps, PowerUpSchedule(lvl)[..|powerUps|])
    }

    /** The factory holds a completed load of `lvl`. */
    ghost predicate Populated(lvl: int)
      reads this`validPositions, this`activeBlocks, this`activePowerUps, this`blockPositions
    {
      Loaded(lvl, validPositions, activeBlocks, activePowerUps, blockPositions)
    }

    /**
     * `updateLevel(level)`: clear everything, then generate the grid, the
     * blocks and the power-ups of the level. The load completes exactly when
     * the level fits; otherwise a draw from an empty pool fails part-way.
     */
    method UpdateLevel(newLevel: int)
      modifies this`activeBlocks, this`activePowerUps, this`validPositions, this`blockPositions, this`level, this`loadFailed
      ensures level == newLevel
      ensures !loadFailed <==> Fits(newLevel)
      ensures !loadFailed ==> Populated(newLevel)
      ensures Distinct(activeBlocks) && Distinct(activePowerUps)
      ensures forall b :: b in activeBlocks ==> fresh(b) && b.damageTaken == 0
      ensures multiset(validPositions) + multiset(Cells(activeBlocks)) == multiset(Grid())
      ensures loadFailed ==> PartlyLoaded(newLevel)
    {
      ClearAll();
      level := newLevel;
      var ok := GenerateLevel();
      loadFailed := !ok;
    }

    /**
     * The three generation steps of `updateLevel` on cleared collections:
     * the grid, then the blocks, then, unless a block draw failed, the
     * power-ups.
     */
    method GenerateLevel() returns (ok: bool)
      requires activeBlocks == [] && activePowerUps == [] && validPositions == [] && blockPositions == []
      modifies this`activeBlocks, this`activePowerUps, this`validPositions, this`blockPositions
      ensures ok <==> Fits(level)
      ensures ok ==> Populated(level)
      ensures Distinct(activeBlocks) && Distinct(activePowerUps)
      ensures forall b :: b in activeBlocks ==> fresh(b) && b.damageTaken == 0
      ensures multiset(validPositions) + multiset(Cells(activeBlocks)) == multiset(Grid())
      ensures !ok ==> PartlyLoaded(level)
    {
      GenerateValidPositions();
      ghost var grid := validPositions;
      assert grid == Grid();
      RowsDistinct(Side(), Side());
      ok := GenerateBlocks();
      ghost var free, blocks, placedOk := validPositions, activeBlocks, ok;
      PlacedBlocksDistinct(free, blocks, grid);
      if ok {
        ghost var pool := blockPositions;
        WithoutDistinct(grid, free);
        ok := GeneratePowerUps();
        PlacedPowerUpsDistinct(blockPositions, activePowerUps, pool);
      }
      LoadOutcome(level, grid, free, blocks, activePowerUps, blockPositions, placedOk, ok);
      FailedOutcome(level, grid, blocks, activePowerUps, placedOk, ok);
    }

    /** What the three generation steps of a load establish adds up to the load's outcome. */
    lemma LoadOutcome(lvl: int, grid: seq<Cell>, free: seq<Cell>, blocks: seq<Block>, powerUps: seq<PowerUp>, left: seq<Cell>,
                      blocksOk: bool, ok: bool)
      requires grid == Grid()
      requires blocksOk <==> |BlockSchedule(lvl)| <= |grid|
      requires multiset(free) + multiset(Cells(blocks)) == multiset(grid)
      requires blocksOk ==> BlocksFollow(blocks, BlockSchedule(lvl))
      requires !blocksOk ==> !ok
      requires blocksOk ==> (ok <==> |PowerUpSchedule(lvl)| <= |Without(grid, free)|)
      requires blocksOk ==> multiset(left) + multiset(PowerUpCells(powerUps)) == multiset(Without(grid, free))
      requires ok ==> PowerUpsFollow(powerUps, PowerUpSchedule(lvl))
      ensures ok <==> Fits(lvl)
      ensures ok ==> Loaded(lvl, free, blocks, powerUps, left)
    {
      RowsDistinct(Side(), Side());
      LeftForPowerUps(grid, free, Cells(blocks));
    }

    /** A load that stopped at a failed draw leaves what `Abandoned` describes. */
    lemma FailedOutcome(lvl: int, grid: seq<Cell>, blocks: seq<Block>, powerUps: seq<PowerUp>, blocksOk: bool, ok: bool)
      requires grid == Grid()
      requires blocksOk <==> |BlockSchedule(lvl)| <= |grid|
      requires !blocksOk ==> |blocks| < |BlockSchedule(lvl)| && BlocksFollow(blocks, BlockSchedule(lvl)[..|blocks|])
      requires !blocksOk ==> !ok && powerUps == []
      requires blocksOk ==> BlocksFollow(blocks, BlockSchedule(lvl))
      requires blocksOk && !ok ==> |powerUps| < |PowerUpSchedule(lvl)| && PowerUpsFollow(powerUps, PowerUpSchedule(lvl)[..|powerUps|])
      ensures !ok ==> Abandoned(lvl, blocks, powerUps)
    {
    }

    /** `clearAll()`: no blocks, power-ups or positions are left. */
    method ClearAll()
      modifies this`activeBlocks, this`activePowerUps, this`validPositions, this`blockPositions
      ensures activeBlocks == [] && activePowerUps == [] && validPositions == [] && blockPositions == []
    {
      activeBlocks := [];
      activePowerUps := [];
      validPositions := [];
      blockPositions := [];
    }

    /**
     * `generateValidPositions()`: every cell of the grid is appended to the
     * free cells, row by row, and the free cells are then appended to the
     * block positions.
     */
    method GenerateValidPositions()
      modifies this`validPositions, this`blockPositions
      ensures validPositions == old(validPositions) + Grid()
      ensures blockPositions == old(blockPositions) + validPositions
    {
      var i := 0;
      while i < gridDimension
        invariant 0 <= i <= Side()
        invariant validPositions == old(validPositions) + Rows(i, Side())
        invariant blockPositions == old(blockPositions)
      {
        var j := 0;
        while j < gridDimension
          invariant 0 <= j <= Side()
          invariant validPositions == old(validPositions) + Rows(i, Side()) + Row(i, j)
          invariant blockPositions == old(blockPositions)
        {
          validPositions := validPositions + [Cell(i, j)];
          assert Row(i, j + 1) == Row(i, j) + [Cell(i, j)];
          j := j + 1;
        }
        i := i + 1;
      }
      blockPositions := blockPositions + validPositions;
    }

    /**
     * `generateBlocks()`: for each block type in turn, place its count of
     * blocks on cells drawn from the free cells, passing the draw a counter
     * that starts at the number of free cells and goes down by one per block.
     * It succeeds exactly when the level's blocks fit in the free cells; then
     * the blocks follow the block schedule, no block is lost to the set's
     * equality, and the block positions are narrowed to the cells that
     * received a block.
     *
     * Called only right after the pools are filled and the blocks cleared.
     */
    method GenerateBlocks() returns (ok: bool)
      requires activeBlocks == [] && Distinct(validPositions)
      modifies this`validPositions, this`activeBlocks, this`blockPositions
      ensures ok <==> |BlockSchedule(level)| <= |old(validPositions)|
      ensures multiset(validPositions) + multiset(Cells(activeBlocks)) == multiset(old(validPositions))
      ensures ok ==> BlocksFollow(activeBlocks, BlockSchedule(level))
      ensures ok ==> blockPositions == Without(old(blockPositions), validPositions)
      ensures !ok ==> blockPositions == old(blockPositions)
      ensures !ok ==> |activeBlocks| < |BlockSchedule(level)| && BlocksFollow(activeBlocks, BlockSchedule(level)[..|activeBlocks|])
      ensures forall b :: b in activeBlocks ==> fresh(b) && b.damageTaken == 0
    {
      var types := cfg.blockTypes;
      var size := |validPositions|;
      var t := 0;
      while t < |types|
        invariant 0 <= t <= |types|
        invariant size == |validPositions|
        invariant multiset(validPositions) + multiset(Cells(activeBlocks)) == multiset(old(validPositions))
        invariant BlocksFollow(activeBlocks, cfg.Schedule(level, types[..t]))
        invariant blockPositions == old(blockPositions)
        invariant forall b :: b in activeBlocks ==> fresh(b) && b.damageTaken == 0
      {
        var count := cfg.CountInLevel(level, types[t]);
        ghost var placed: nat;
        ok, size, placed := AddBlocksOfType(types[t], count, size, cfg.Schedule(level, types[..t]), old(validPositions));
        if !ok {
          ScheduleExceeds(cfg, level, types, t, placed);
          return;
        }
        ScheduleStep(cfg, level, types, t);
        t := t + 1;
      }
      assert types[..t] == types;
      CountPlaced(validPositions, activeBlocks, old(validPositions));
      ok := true;
      blockPositions := Without(blockPositions, validPositions);
    }

    /**
     * The inner loop of `generateBlocks()` for one block type: place `count`
     * blocks of the type, passing the draw the counter `size`, which goes
     * down by one per block. It fails when a draw fails, which happens only
     * once the free cells are used up; the blocks placed until then follow
     * the schedule so far.
     */
    method AddBlocksOfType(blockType: string, count: int, size0: int, ghost done: seq<string>, ghost origin: seq<Cell>)
      returns (ok: bool, size: int, ghost placed: nat)
      requires size0 == |validPositions| && Distinct(origin)
      requires multiset(validPositions) + multiset(Cells(activeBlocks)) == multiset(origin)
      requires BlocksFollow(activeBlocks, done)
      requires forall b :: b in activeBlocks ==> b.damageTaken == 0
      modifies this`validPositions, this`activeBlocks
      ensures ok ==> size == |validPositions|
      ensures multiset(validPositions) + multiset(Cells(activeBlocks)) == multiset(origin)
      ensures forall b :: b in activeBlocks ==> (b in old(activeBlocks) || fresh(b)) && b.damageTaken == 0
      ensures ok ==> BlocksFollow(activeBlocks, done + Repeat(blockType, count))
      ensures !ok ==> placed < count && |done| + placed == |origin| && BlocksFollow(activeBlocks, done + Repeat(blockType, placed))
    {
      size := size0;
      var i := 0;
      while i < count
        invariant 0 <= i && (i <= count || i == 0)
        invariant size == |validPositions|
        invariant multiset(validPositions) + multiset(Cells(activeBlocks)) == multiset(origin)
        invariant BlocksFollow(activeBlocks, done + Repeat(blockType, i))
        invariant forall b :: b in activeBlocks ==> (b in old(activeBlocks) || fresh(b)) && b.damageTaken == 0
      {
        ghost var before, pool := activeBlocks, validPositions;
        ghost var drawn: nat, added: Block?;
        ok, drawn, added := AddBlock(blockType, size);
        size := size - 1;
        if !ok {
          CountPlaced(pool, before, origin);
          placed := i;
          return;
        }
        NoBlockLike(pool, drawn, before, origin, added.healthPoints);
        BlockPlaced(pool, validPositions, drawn, before, added, done + Repeat(blockType, i), blockType, origin);
        RepeatOneMore(done, blockType, i);
        i := i + 1;
      }
      RepeatAll(blockType, count, i);
      ok, placed := true, i;
    }

    /** A drawn free cell holds no block, so no block in the set is `equals` to the new one. */
    lemma NoBlockLike(pool: seq<Cell>, drawn: nat, blocks: seq<Block>, origin: seq<Cell>, health: int)
      requires multiset(pool) + multiset(Cells(blocks)) == multiset(origin) && Distinct(origin)
      requires drawn < |pool|
      ensures !HasBlockLike(blocks, health, pool[drawn])
    {
      FreeCellUnused(pool, blocks, origin);
      assert pool[drawn] in pool;
      forall k | 0 <= k < |blocks| ensures CellOf(blocks[k]) != pool[drawn] {
        assert Cells(blocks)[k] in Cells(blocks);
      }
    }

    /** Placing one more block keeps the pool accounting and extends the schedule followed by one type. */
    lemma BlockPlaced(pool: seq<Cell>, rest: seq<Cell>, drawn: nat, before: seq<Block>, added: Block,
                      schedule: seq<string>, x: string, origin: seq<Cell>)
      requires drawn < |pool| && rest == RemoveAt(pool, drawn)
      requires multiset(pool) + multiset(Cells(before)) == multiset(origin)
      requires BlocksFollow(before, schedule)
      requires BlockOfType(added, x) && CellOf(added) == pool[drawn]
      ensures multiset(rest) + multiset(Cells(before + [added])) == multiset(origin)
      ensures BlocksFollow(before + [added], schedule + [x])
    {
      assert Cells(before + [added]) == Cells(before) + [pool[drawn]];
    }

    /**
     * `addBlock(blockType, remaining)`: draw an index below `remaining`, take
     * the free cell at that index out of the pool and add a new block of the
     * type on it to the set, which keeps the set as it was when an `equals`
     * block is already in it. The draw fails when `remaining` is not
     * positive, and the removal when the index is past the end of the pool.
     */
    method AddBlock(blockType: string, remaining: int) returns (ok: bool, ghost drawn: nat, ghost added: Block?)
      modifies this`validPositions, this`activeBlocks
      ensures remaining <= 0 ==> !ok
      ensures 0 < remaining <= |old(validPositions)| ==> ok
      ensures !ok ==> validPositions == old(validPositions) && activeBlocks == old(activeBlocks)
      ensures ok ==> drawn < |old(validPositions)| && validPositions == RemoveAt(old(validPositions), drawn)
      ensures ok ==> added != null && fresh(added) && added.damageTaken == 0
      ensures ok ==> BlockOfType(added, blockType) && CellOf(added) == old(validPositions)[drawn]
      ensures ok ==> activeBlocks == if HasBlockLike(old(activeBlocks), added.healthPoints, CellOf(added))
                                     then old(activeBlocks) else old(activeBlocks) + [added]
    {
      drawn, added := 0, null;
      if remaining <= 0 {
        return false, 0, null;
      }
      var index :| 0 <= index < remaining;
      if index >= |validPositions| {
        return false, 0, null;
      }
      var cell := validPositions[index];
      validPositions := RemoveAt(validPositions, index);
      var block := new Block(cfg.BlockHealth(blockType), cell.x, cell.y, blockType == "rubber", cfg.blockSize);
      if !(exists k | 0 <= k < |activeBlocks| :: activeBlocks[k].Equals(block)) {
        activeBlocks := activeBlocks + [block];
      } else {
        assert HasBlockLike(activeBlocks, block.healthPoints, CellOf(block));
      }
      ok, drawn, added := true, index, block;
    }

    /**
     * `generatePowerUps()`: for each power-up type in turn, place its count
     * of power-ups on cells drawn from the block positions, with a counter
     * that starts at the number of block positions. It succeeds exactly when
     * the level's power-ups fit; then the power-ups follow the power-up
     * schedule, each on a cell taken out of the block positions.
     *
     * Called only right after the blocks are placed and the power-ups cleared.
     */
    method GeneratePowerUps() returns (ok: bool)
      requires activePowerUps == []
      modifies this`blockPositions, this`activePowerUps
      ensures ok <==> |PowerUpSchedule(level)| <= |old(blockPositions)|
      ensures multiset(blockPositions) + multiset(PowerUpCells(activePowerUps)) == multiset(old(blockPositions))
      ensures ok ==> PowerUpsFollow(activePowerUps, PowerUpSchedule(level))
      ensures !ok ==> |activePowerUps| < |PowerUpSchedule(level)| && PowerUpsFollow(activePowerUps, PowerUpSchedule(level)[..|activePowerUps|])
    {
      var types := cfg.powerUpTypes;
      var size := |blockPositions|;
      var t := 0;
      while t < |types|
        invariant 0 <= t <= |types|
        invariant size == |blockPositions|
        invariant multiset(blockPositions) + multiset(PowerUpCells(activePowerUps)) == multiset(old(blockPositions))
        invariant PowerUpsFollow(activePowerUps, cfg.Schedule(level, types[..t]))
      {
        var count := cfg.CountInLevel(level, types[t]);
        ghost var done := cfg.Schedule(level, types[..t]);
        var i := 0;
        while i < count
          invariant 0 <= i && (i <= count || i == 0)
          invariant size == |blockPositions|
          invariant multiset(blockPositions) + multiset(PowerUpCells(activePowerUps)) == multiset(old(blockPositions))
          invariant PowerUpsFollow(activePowerUps, done + Repeat(types[t], i))
        {
          ghost var before, pool := activePowerUps, blockPositions;
          ghost var drawn: nat;
          ok, drawn := AddPowerUp(types[t], size);
          size := size - 1;
          if !ok {
            CountCovered(pool, before, old(blockPositions));
            ScheduleExceeds(cfg, level, types, t, i);
            return;
          }
          PowerUpPlaced(pool, blockPositions, drawn, before, activePowerUps, done + Repeat(types[t], i), types[t], old(blockPositions));
          RepeatOneMore(done, types[t], i);
          i := i + 1;
        }
        ScheduleStep(cfg, level, types, t);
        RepeatAll(types[t], count, i);
        t := t + 1;
      }
      assert types[..t] == types;
      CountCovered(blockPositions, activePowerUps, old(blockPositions));
      ok := true;
    }

    /** Placing one more power-up keeps the pool accounting and extends the schedule followed by one type. */
    lemma PowerUpPlaced(pool: seq<Cell>, rest: seq<Cell>, drawn: nat, before: seq<PowerUp>, after: seq<PowerUp>,
                        schedule: seq<string>, x: string, origin: seq<Cell>)
      requires drawn < |pool| && rest == RemoveAt(pool, drawn)
      requires multiset(pool) + multiset(PowerUpCells(before)) == multiset(origin)
      requires PowerUpsFollow(before, schedule)
      requires after == before + [MakePowerUp(cfg, x, pool[drawn].x, pool[drawn].y)]
      ensures multiset(rest) + multiset(PowerUpCells(after)) == multiset(origin)
      ensures PowerUpsFollow(after, schedule + [x])
    {
      assert PowerUpCells(after) == PowerUpCells(before) + [pool[drawn]];
      forall k | 0 <= k < |after| ensures after[k] == MakePowerUp(cfg, (schedule + [x])[k], after[k].gx, after[k].gy) {
        if k < |before| {
          assert after[k] == before[k];
        }
      }
    }

    /**
     * `addPowerUp(type, blockPositionsLeft)`: draw an index below
     * `blockPositionsLeft`, take the block position at that index out of the
     * pool and add a power-up of the type on that cell. The draw fails when
     * the bound is not positive, and the removal when the index is past the
     * end of the pool.
     */
    method AddPowerUp(powerUpType: string, blockPositionsLeft: int) returns (ok: bool, ghost drawn: nat)
      modifies this`blockPositions, this`activePowerUps
      ensures blockPositionsLeft <= 0 ==> !ok
      ensures 0 < blockPositionsLeft <= |old(blockPositions)| ==> ok
      ensures !ok ==> blockPositions == old(blockPositions) && activePowerUps == old(activePowerUps)
      ensures ok ==> drawn < |old(blockPositions)| && blockPositions == RemoveAt(old(blockPositions), drawn)
      ensures ok ==>
        var cell := old(blockPositions)[drawn];
        activePowerUps == old(activePowerUps) + [MakePowerUp(cfg, powerUpType, cell.x, cell.y)]
    {
      drawn := 0;
      if blockPositionsLeft <= 0 {
        return false, 0;
      }
      var index :| 0 <= index < blockPositionsLeft;
      if index >= |blockPositions| {
        return false, 0;
      }
      var cell := blockPositions[index];
      blockPositions := RemoveAt(blockPositions, index);
      activePowerUps := activePowerUps + [MakePowerUp(cfg, powerUpType, cell.x, cell.y)];
      ok, drawn := true, index;
    }

    /** `outOfBlocks()`: no active block is left. */
    predicate OutOfBlocks()
      reads this
    {
      |activeBlocks| == 0
    }

    /** `getActiveBlocks()`. */
    function ActiveBlocks(): seq<Block>
      reads this
    {
      activeBlocks
    }

    /** `getActivePowerUps()`. */
    function ActivePowerUps(): seq<PowerUp>
      reads this
    {
      activePowerUps
    }
  }

  /**
   * After a completed load, the level has exactly its configured number of
   * blocks, on pairwise distinct cells of the grid, no two of them `equals`
   * (so none was lost to the set), each rubber exactly when its type is
   * "rubber".
   */
  lemma PopulatedBlocks(f: LevelFactory, lvl: int)
    requires f.Populated(lvl)
    ensures |f.activeBlocks| == PlacedCount(f.cfg, lvl, f.cfg.blockTypes)
    ensures Distinct(Cells(f.activeBlocks))
    ensures forall b :: b in f.activeBlocks ==> 0 <= b.gx < f.Side() && 0 <= b.gy < f.Side()
    ensures forall i, j :: 0 <= i < j < |f.activeBlocks| ==> !f.activeBlocks[i].Equals(f.activeBlocks[j])
    ensures forall k :: 0 <= k < |f.activeBlocks| ==> (f.activeBlocks[k].isRubber <==> f.BlockSchedule(lvl)[k] == "rubber")
  {
    ScheduleLength(f.cfg, lvl, f.cfg.blockTypes);
    var placed := Cells(f.activeBlocks);
    RowsCover(f.Side(), f.Side());
    RowsDistinct(f.Side(), f.Side());
    DisjointParts(f.validPositions, placed, f.Grid());
    forall b | b in f.activeBlocks ensures 0 <= b.gx < f.Side() && 0 <= b.gy < f.Side() {
      var k :| 0 <= k < |f.activeBlocks| && f.activeBlocks[k] == b;
      assert placed[k] in placed;
    }
    forall i, j | 0 <= i < j < |f.activeBlocks| ensures !f.activeBlocks[i].Equals(f.activeBlocks[j]) {
      DistinctAt(placed, i, j);
      DistinctCellsNotEqual(f.activeBlocks[i], f.activeBlocks[j]);
    }
  }

  /**
   * After a completed load, the level has exactly its configured number of
   * power-ups, on pairwise distinct cells (so at distinct scene positions),
   * each on a cell that received a block; the block positions left are the
   * block cells without a power-up.
   */
  lemma PopulatedPowerUps(f: LevelFactory, lvl: int)
    requires f.Populated(lvl)
    ensures |f.activePowerUps| == PlacedCount(f.cfg, lvl, f.cfg.powerUpTypes)
    ensures Distinct(PowerUpCells(f.activePowerUps))
    ensures forall p :: p in f.activePowerUps ==> CellOfPowerUp(p) in Cells(f.activeBlocks)
    ensures forall c :: c in f.blockPositions ==> c in Cells(f.activeBlocks) && c !in PowerUpCells(f.activePowerUps)
  {
    ScheduleLength(f.cfg, lvl, f.cfg.powerUpTypes);
    PopulatedBlocks(f, lvl);
    var covered := PowerUpCells(f.activePowerUps);
    DisjointParts(f.blockPositions, covered, Cells(f.activeBlocks));
    forall p | p in f.activePowerUps ensures CellOfPowerUp(p) in covered {
      var k :| 0 <= k < |f.activePowerUps| && f.activePowerUps[k] == p;
      assert covered[k] == CellOfPowerUp(p);
    }
  }

  /** After a completed load, the level is out of blocks exactly when it configures none. */
  lemma PopulatedOutOfBlocks(f: LevelFactory, lvl: int)
    requires f.Populated(lvl)
    ensures f.OutOfBlocks() <==> PlacedCount(f.cfg, lvl, f.cfg.blockTypes) == 0
  {
    PopulatedBlocks(f, lvl);
  }

  /** One more copy of x extends the prefix of a schedule built so far. */
  lemma RepeatOneMore(done: seq<string>, x: string, i: nat)
    ensures done + Repeat(x, i + 1) == done + Repeat(x, i) + [x]
  {
  }

  /** When the counting loop stops, it has produced the type's whole share of the schedule. */
  lemma RepeatAll(x: string, count: int, i: int)
    requires 0 <= i && (i <= count || i == 0) && i >= count
    ensures Repeat(x, i) == Repeat(x, count)
  {
  }

  /** An object still to be placed for type t means the whole schedule is longer than what is placed. */
  lemma ScheduleExceeds(cfg: Config, level: int, types: seq<string>, t: nat, i: nat)
    requires t < |types| && i < cfg.CountInLevel(level, types[t])
    ensures |cfg.Schedule(level, types[..t])| + i < |cfg.Schedule(level, types)|
    ensures cfg.Schedule(level, types[..t]) + Repeat(types[t], i)
            == cfg.Schedule(level, types)[..|cfg.Schedule(level, types[..t])| + i]
  {
    ScheduleStep(cfg, level, types, t);
    assert types == types[..t + 1] + types[t + 1..];
    ScheduleAppend(cfg, level, types[..t + 1], types[t + 1..]);
    RepeatPrefix(types[t], i, cfg.CountInLevel(level, types[t]));
  }

  /** The first i entries of a longer run of x are the run of i. */
  lemma {:induction false} RepeatPrefix(x: string, i: nat, n: int)
    requires i <= n
    ensures Repeat(x, i) == Repeat(x, n)[..i]
    decreases n
  {
    if i < n {
      RepeatPrefix(x, i, n - 1);
      assert Repeat(x, n) == Repeat(x, n - 1) + [x];
      assert Repeat(x, n)[..i] == Repeat(x, n - 1)[..i];
    }
  }

  /**
   * Once the blocks are placed, narrowing the grid to the cells not left free
   * leaves exactly the cells of the blocks, each once.
   */
  lemma LeftForPowerUps(grid: seq<Cell>, free: seq<Cell>, placed: seq<Cell>)
    requires Distinct(grid)
    requires multiset(free) + multiset(placed) == multiset(grid)
    ensures multiset(Without(grid, free)) == multiset(placed)
    ensures |Without(grid, free)| == |placed|
  {
    WithoutComplement(grid, free, placed);
    assert |multiset(Without(grid, free))| == |multiset(placed)|;
  }

  /**
   * Blocks placed on cells drawn without replacement from a duplicate-free
   * pool are distinct objects, even when a load stops part-way.
   */
  lemma PlacedBlocksDistinct(free: seq<Cell>, blocks: seq<Block>, pool: seq<Cell>)
    requires multiset(free) + multiset(Cells(blocks)) == multiset(pool) && Distinct(pool)
    ensures Distinct(blocks)
  {
    var placed := Cells(blocks);
    DisjointParts(free, placed, pool);
    forall i, j | 0 <= i < j < |blocks| ensures Differ(blocks, i, j) {
      DistinctAt(placed, i, j);
    }
  }

  /**
   * Power-ups placed on cells drawn without replacement from a duplicate-free
   * pool are pairwise different, even when a load stops part-way.
   */
  lemma PlacedPowerUpsDistinct(left: seq<Cell>, powerUps: seq<PowerUp>, pool: seq<Cell>)
    requires multiset(left) + multiset(PowerUpCells(powerUps)) == multiset(pool) && Distinct(pool)
    ensures Distinct(powerUps)
  {
    var placed := PowerUpCells(powerUps);
    DisjointParts(left, placed, pool);
    forall i, j | 0 <= i < j < |powerUps| ensures Differ(powerUps, i, j) {
      DistinctAt(placed, i, j);
    }
  }

  /** The free cells and the placed blocks account for the whole initial pool. */
  lemma CountPlaced(free: seq<Cell>, blocks: seq<Block>, pool: seq<Cell>)
    requires multiset(free) + multiset(Cells(blocks)) == multiset(pool)
    ensures |free| + |blocks| == |pool|
  {
    assert |multiset(free) + multiset(Cells(blocks))| == |multiset(pool)|;
  }

  /** The block positions left and the placed power-ups account for all the block positions. */
  lemma CountCovered(left: seq<Cell>, powerUps: seq<PowerUp>, pool: seq<Cell>)
    requires multiset(left) + multiset(PowerUpCells(powerUps)) == multiset(pool)
    ensures |left| + |powerUps| == |pool|
  {
    assert |multiset(left) + multiset(PowerUpCells(powerUps))| == |multiset(pool)|;
  }

  /** A free cell holds no block yet, when the initial pool had no repeated cell. */
  lemma FreeCellUnused(free: seq<Cell>, blocks: seq<Block>, pool: seq<Cell>)
    requires multiset(free) + multiset(Cells(blocks)) == multiset(pool) && Distinct(pool)
    ensures forall c :: c in free ==> c !in Cells(blocks)
  {
    var both := free + Cells(blocks);
    assert multiset(both) == multiset(pool);
    DistinctPermutation(both, pool);
    forall i, j | 0 <= i < |free| && 0 <= j < |blocks| ensures free[i] != Cells(blocks)[j] {
      DistinctAt(both, i, |free| + j);
    }
  }
}

=== FILE: power_ups.dfy ===
/**
 * Collectible power-ups: immutable markers hidden behind a block, each
 * carrying the type name that decides what collecting it does.
 */
module PowerUps {
  import opened Geometry
  import opened Properties

  /**
   * A power-up hidden behind grid cell (gx, gy), with the block size, offset
   * and side it was created with; its scene position is derived from them.
   */
  datatype PowerUp = PowerUp(kind: string, gx: int, gy: int, blockSize: int, offset: int, side: int)
  {
    /** `getType()`. */
    function Type(): string {
      kind
    }

    /** Left edge: the cell's left edge plus the offset. */
    function X(): int {
      gx * blockSize + offset
    }

    /** Top edge: the cell's top edge plus the offset. */
    function Y(): int {
      gy * blockSize + offset
    }

    /** The power-up's bounds in the scene. */
    function Bounds(): Rect {
      Rect(X(), Y(), side, side)
    }
  }

  /**
   * `new PowerUp(type, color, x, y)` on grid cell (x, y): a square of the
   * configured side, offset into the block cell at (x * BLOCK_SIZE + OFFSET,
   * y * BLOCK_SIZE + OFFSET); its type is the one given.
   */
  function MakePowerUp(cfg: Config, powerUpType: string, cellX: int, cellY: int): (p: PowerUp)
    ensures p.Type() == powerUpType && p.gx == cellX && p.gy == cellY
    ensures p.blockSize == cfg.blockSize && p.offset == cfg.powerUpOffset && p.side == cfg.powerUpSize
  {
    PowerUp(powerUpType, cellX, cellY, cfg.blockSize, cfg.powerUpOffset, cfg.powerUpSize)
  }

  /** A power-up's bounds are a square of the configured side whose corner is its cell's corner moved by the offset. */
  lemma PowerUpPlacement(cfg: Config, powerUpType: string, cellX: int, cellY: int)
    ensures var b := MakePowerUp(cfg, powerUpType, cellX, cellY).Bounds();
      && b.width == b.height == cfg.powerUpSize
      && b.x - cfg.powerUpOffset == cellX * cfg.blockSize
      && b.y - cfg.powerUpOffset == cellY * cfg.blockSize
  {
  }

  /** With a positive block size, power-ups on different grid cells sit at different scene positions. */
  lemma {:induction false} DistinctCellsDistinctPositions(cfg: Config, t1: string, t2: string, x1: int, y1: int, x2: int, y2: int)
    requires cfg.blockSize > 0
    requires (x1, y1) != (x2, y2)
    ensures (MakePowerUp(cfg, t1, x1, y1).X(), MakePowerUp(cfg, t1, x1, y1).Y())
         != (MakePowerUp(cfg, t2, x2, y2).X(), MakePowerUp(cfg, t2, x2, y2).Y())
  {
    if x1 != x2 {
      ScaleInjective(x1, x2, cfg.blockSize);
    } else {
      ScaleInjective(y1, y2, cfg.blockSize);
    }
  }

  lemma ScaleInjective(a: int, b: int, k: int)
    requires k > 0 && a != b
    ensures a * k != b * k
  {
    if a < b {
      assert b * k - a * k == (b - a) * k;
    } else {
      assert a * k - b * k == (a - b) * k;
    }
  }
}

=== FILE: properties.dfy ===
/**
 * The game's configuration, read once from its properties file. The model
 * takes the file as an already-parsed record; what matters of the lookup is
 * that an integer key that is absent reads as 0, so a level that does not
 * mention a block or power-up type gets none of it.
 */
module Properties {
  import opened JavaMath

  /** A double-valued setting, kept as an exact ratio num/den. */
  datatype Fraction = Fraction(num: int, den: int)

  datatype Config = Config(
    screenWidth: int,
    screenHeight: int,
    hudHeight: int,
    blockSize: int,
    keyInputSpeed: int,
    horizontalThrowSpeed: int,
    ballOffset: int,
    ballSpeed: int,
    ballDamage: int,
    ballSize: int,              // fit height of the ball image
    ballWidth: int,             // width of the ball image at that height
    auxiliaryBallWidth: int,    // width of the auxiliary-ball image at that height
    bulletSpeed: int,
    bulletDamage: int,
    bulletSize: int,            // fit height of the bullet image
    bulletWidth: int,
    paddleHealth: int,
    paddleDamage: int,
    paddleLives: int,
    paddleWidth: int,           // size of the paddle image
    paddleHeight: int,
    powerUpSize: int,
    powerUpOffset: int,
    slowAmount: int,
    multiplyCount: int,
    speedMultiplier: Fraction,
    lastLevel: int,
    framesPerSecond: int,
    blockTypes: seq<string>,
    powerUpTypes: seq<string>,
    healthKeys: map<string, int>,       // "<type>-health"
    levelKeys: map<(int, string), int>  // "num-<type>-level-<level>"
  )
  {
    /**
     * What the model assumes of the configuration: a positive block size and
     * frame rate (a zero one divides by zero while the level factory and the
     * game loop are built; a negative frame rate gives the loop's key frame a
     * negative duration), a speed multiplier with a non-zero denominator, and
     * image sizes that are not negative, as an image's size never is.
     */
    ghost predicate Valid() {
      && blockSize > 0
      && framesPerSecond > 0
      && speedMultiplier.den > 0
      && ballSize >= 0 && ballWidth >= 0 && auxiliaryBallWidth >= 0
      && bulletSize >= 0 && bulletWidth >= 0
      && paddleWidth >= 0 && paddleHeight >= 0
      && powerUpSize >= 0
    }

    /** Health of a block type; an absent key reads as 0. */
    function BlockHealth(blockType: string): int {
      if blockType in healthKeys then healthKeys[blockType] else 0
    }

    /** How many objects of a type a level holds; an absent key reads as 0. */
    function CountInLevel(level: int, objectType: string): int {
      if (level, objectType) in levelKeys then levelKeys[(level, objectType)] else 0
    }

    /**
     * The order in which the level factory creates objects for `level`: every
     * type of `types` in turn, repeated as often as its count (a count below
     * one creates none, as the counting loop does not run).
     */
    function Schedule(level: int, types: seq<string>): seq<string> {
      if types == [] then []
      else
        var last := types[|types| - 1];
        Schedule(level, types[..|types| - 1]) + Repeat(last, CountInLevel(level, last))
    }

    /** Frame period in milliseconds: 1000 / FRAMES_PER_SECOND with Java's integer division. */
    function MillisecondDelay(): (ms: int)
      requires framesPerSecond > 0
      ensures ms * framesPerSecond <= 1000 < ms * framesPerSecond + framesPerSecond
    {
      TruncDiv(1000, framesPerSecond)
    }

    /** Width of the square grid of blocks: SCENE_WIDTH / BLOCK_SIZE with Java's integer division. */
    function GridDimension(): (n: int)
      requires blockSize > 0
      ensures screenWidth >= 0 ==> n >= 0 && n * blockSize <= screenWidth < n * blockSize + blockSize
      ensures screenWidth < 0 ==> n <= 0
    {
      TruncDiv(screenWidth, blockSize)
    }
  }

  /** `n` copies of `x`; none when `n` is not positive. */
  function Repeat(x: string, n: int): (s: seq<string>)
    ensures |s| == if n > 0 then n else 0
  {
    if n <= 0 then [] else Repeat(x, n - 1) + [x]
  }

  /** Every entry of `Repeat(x, n)` is `x`. */
  lemma {:induction false} RepeatMembers(x: string, n: int)
    ensures forall y :: y in Repeat(x, n) ==> y == x
  {
    if n > 0 {
      RepeatMembers(x, n - 1);
    }
  }

  /** A schedule only holds types of the list whose count in the level is positive. */
  lemma {:induction false} ScheduleMembers(cfg: Config, level: int, types: seq<string>)
    ensures forall t :: t in cfg.Schedule(level, types) ==> t in types && cfg.CountInLevel(level, t) > 0
  {
    if types != [] {
      var last := types[|types| - 1];
      ScheduleMembers(cfg, level, types[..|types| - 1]);
      RepeatMembers(last, cfg.CountInLevel(level, last));
      assert forall t :: t in types[..|types| - 1] ==> t in types;
    }
  }

  /** A schedule is as long as the positive counts of its types added up. */
  lemma {:induction false} ScheduleLength(cfg: Config, level: int, types: seq<string>)
    ensures |cfg.Schedule(level, types)| == PlacedCount(cfg, level, types)
  {
    if types != [] {
      ScheduleLength(cfg, level, types[..|types| - 1]);
    }
  }

  /** The sum over `types` of each type's count in `level`, negative counts read as none. */
  function PlacedCount(cfg: Config, level: int, types: seq<string>): (n: nat)
  {
    if types == [] then 0
    else
      var last := types[|types| - 1];
      PlacedCount(cfg, level, types[..|types| - 1]) + (if cfg.CountInLevel(level, last) > 0 then cfg.CountInLevel(level, last) else 0)
  }

  /** Scheduling a concatenation of type lists schedules the first list, then the second. */
  lemma {:induction false} ScheduleAppend(cfg: Config, level: int, a: seq<string>, b: seq<string>)
    ensures cfg.Schedule(level, a + b) == cfg.Schedule(level, a) + cfg.Schedule(level, b)
    decreases |b|
  {
    if b == [] {
      assert a + b == a;
    } else {
      var front := b[..|b| - 1];
      assert (a + b)[..|a + b| - 1] == a + front;
      assert (a + b)[|a + b| - 1] == b[|b| - 1];
      ScheduleAppend(cfg, level, a, front);
    }
  }

  /**
   * The factory's progress through `types`: after the first t types the
   * schedule so far is a prefix of the whole schedule, and type t adds its
   * count (if positive) to it.
   */
  lemma ScheduleStep(cfg: Config, level: int, types: seq<string>, t: nat)
    requires t < |types|
    ensures cfg.Schedule(level, types[..t + 1]) == cfg.Schedule(level, types[..t]) + Repeat(types[t], cfg.CountInLevel(level, types[t]))
    ensures |cfg.Schedule(level, types[..t + 1])| <= |cfg.Schedule(level, types)|
  {
    assert types[..t + 1][..t] == types[..t];
    assert types == types[..t + 1] + types[t + 1..];
    ScheduleAppend(cfg, level, types[..t + 1], types[t + 1..]);
  }
}

=== FILE: seqs.dfy ===
/**
 * Duplicate-free sequences: the model's stand-in for the `HashSet`s and
 * `ArrayList`s of positions, blocks, power-ups and sprites the game keeps.
 */
module Seqs {

  /** No element occurs twice. */
  ghost predicate Distinct<T>(s: seq<T>) {
    forall i, j :: 0 <= i < j < |s| ==> Differ(s, i, j)
  }

  /** Positions i and j of `s` hold different elements. */
  ghost predicate Differ<T>(s: seq<T>, i: int, j: int)
    requires 0 <= i < |s| && 0 <= j < |s|
  {
    s[i] != s[j]
  }

  /** Any two positions of a duplicate-free sequence hold different elements. */
  lemma DistinctAt<T>(s: seq<T>, i: int, j: int)
    requires Distinct(s) && 0 <= i < |s| && 0 <= j < |s| && i != j
    ensures s[i] != s[j]
  {
    if i < j {
      assert Differ(s, i, j);
    } else {
      assert Differ(s, j, i);
    }
  }

  /** Dropping the head of a duplicate-free sequence leaves a duplicate-free tail without the head. */
  lemma DistinctTail<T>(s: seq<T>)
    requires Distinct(s) && s != []
    ensures Distinct(s[1..]) && s[0] !in s[1..]
  {
    forall i, j | 0 <= i < j < |s[1..]| ensures Differ(s[1..], i, j) {
      DistinctAt(s, i + 1, j + 1);
    }
    forall k | 0 <= k < |s[1..]| ensures s[1..][k] != s[0] {
      DistinctAt(s, 0, k + 1);
    }
  }

  /** In a duplicate-free sequence the entry at i differs from every other entry. */
  lemma DistinctOthers<T>(s: seq<T>, i: int)
    requires Distinct(s) && 0 <= i < |s|
    ensures forall k :: 0 <= k < |s| && k != i ==> s[k] != s[i]
  {
    forall k | 0 <= k < |s| && k != i ensures s[k] != s[i] {
      DistinctAt(s, k, i);
    }
  }

  /** The elements of `s`, as a set. */
  ghost function Elems<T>(s: seq<T>): set<T> {
    set x | x in s
  }

  /** `ArrayList.remove(int index)`: the element at `i` is taken out and the later ones shift down. */
  function RemoveAt<T>(s: seq<T>, i: nat): (r: seq<T>)
    requires i < |s|
    ensures |r| == |s| - 1
    ensures multiset(r) + multiset{s[i]} == multiset(s)
  {
    assert s == s[..i] + [s[i]] + s[i + 1..];
    s[..i] + s[i + 1..]
  }

  /** `ArrayList.removeAll(t)`: every element of `s` that also occurs in `t` is dropped, the rest keep their order. */
  function Without<T(==)>(s: seq<T>, t: seq<T>): seq<T> {
    if s == [] then []
    else if s[0] in t then Without(s[1..], t)
    else [s[0]] + Without(s[1..], t)
  }

  /** What `removeAll` keeps: exactly the elements of `s` that are not in `t`. */
  lemma {:induction false} WithoutMembers<T>(s: seq<T>, t: seq<T>)
    ensures forall x :: x in Without(s, t) <==> x in s && x !in t
  {
    if s != [] {
      WithoutMembers(s[1..], t);
      assert s == [s[0]] + s[1..];
    }
  }

  /** Removing nothing keeps everything. */
  lemma {:induction false} WithoutNothing<T>(s: seq<T>)
    ensures Without(s, []) == s
  {
    if s != [] {
      WithoutNothing(s[1..]);
    }
  }

  /** Removing the elements of t and then x is removing the elements of t + [x]. */
  lemma {:induction false} WithoutAppend<T>(s: seq<T>, t: seq<T>, x: T)
    ensures Without(Without(s, t), [x]) == Without(s, t + [x])
  {
    if s != [] {
      WithoutAppend(s[1..], t, x);
    }
  }

  /** A sequence is duplicate-free exactly when no element has multiplicity above one. */
  lemma {:induction false} DistinctMultiplicity<T>(s: seq<T>)
    ensures Distinct(s) <==> forall x :: multiset(s)[x] <= 1
  {
    if s == [] {
    } else {
      DistinctMultiplicity(s[1..]);
      assert s == [s[0]] + s[1..];
      assert multiset(s) == multiset{s[0]} + multiset(s[1..]);
      if Distinct(s) {
        DistinctTail(s);
      } else {
        var i, j :| 0 <= i < j < |s| && !Differ(s, i, j);
        if i == 0 {
          assert s[j] == s[1..][j - 1];
          assert multiset(s)[s[0]] >= 2;
        } else {
          assert s[1..][i - 1] == s[1..][j - 1];
          assert !Differ(s[1..], i - 1, j - 1);
          var x :| multiset(s[1..])[x] > 1;
          assert multiset(s)[x] > 1;
        }
      }
    }
  }

  /** Rearranging a duplicate-free sequence leaves it duplicate-free. */
  lemma DistinctPermutation<T>(a: seq<T>, b: seq<T>)
    requires multiset(a) == multiset(b) && Distinct(b)
    ensures Distinct(a)
  {
    DistinctMultiplicity(a);
    DistinctMultiplicity(b);
  }

  /** A duplicate-free sequence has as many elements as its set of elements. */
  lemma {:induction false} DistinctCardinality<T>(s: seq<T>)
    requires Distinct(s)
    ensures |Elems(s)| == |s|
  {
    if s != [] {
      var rest := s[1..];
      DistinctTail(s);
      DistinctCardinality(rest);
      assert s[0] !in Elems(rest);
      assert Elems(s) == Elems(rest) + {s[0]} by {
        assert s == [s[0]] + rest;
      }
    }
  }

  /** `removeAll` keeps a duplicate-free list duplicate-free. */
  lemma {:induction false} WithoutDistinct<T>(s: seq<T>, t: seq<T>)
    requires Distinct(s)
    ensures Distinct(Without(s, t))
  {
    if s != [] {
      DistinctTail(s);
      WithoutDistinct(s[1..], t);
      WithoutMembers(s[1..], t);
      var r := Without(s[1..], t);
      if s[0] !in t {
        forall i, j | 0 <= i < j < |[s[0]] + r| ensures Differ([s[0]] + r, i, j) {
          if i > 0 {
            DistinctAt(r, i - 1, j - 1);
          }
        }
      }
    }
  }

  /**
   * Removing from a duplicate-free `s` everything listed in a duplicate-free `t`
   * whose elements all occur in `s` leaves exactly |s| - |t| elements.
   */
  lemma WithoutCardinality<T>(s: seq<T>, t: seq<T>)
    requires Distinct(s) && Distinct(t)
    requires forall x :: x in t ==> x in s
    ensures |Without(s, t)| == |s| - |t|
  {
    WithoutDistinct(s, t);
    WithoutMembers(s, t);
    DistinctCardinality(s);
    DistinctCardinality(t);
    DistinctCardinality(Without(s, t));
    assert Elems(Without(s, t)) == Elems(s) - Elems(t);
    assert Elems(t) <= Elems(s);
  }

  /** Two duplicate-free sequences with no element in common concatenate to a duplicate-free one. */
  lemma DistinctConcat<T>(a: seq<T>, b: seq<T>)
    requires Distinct(a) && Distinct(b)
    requires forall x :: x in a ==> x !in b
    ensures Distinct(a + b)
  {
    forall i, j | 0 <= i < j < |a + b| ensures Differ(a + b, i, j) {
      if j < |a| {
        DistinctAt(a, i, j);
      } else if i >= |a| {
        DistinctAt(b, i - |a|, j - |a|);
      } else {
        assert (a + b)[i] in a && (a + b)[j] in b;
      }
    }
  }

  /**
   * When `v` and `c` together are a rearrangement of the duplicate-free `g`,
   * removing everything in `v` from `g` leaves exactly the elements of `c`.
   */
  lemma WithoutComplement<T>(g: seq<T>, v: seq<T>, c: seq<T>)
    requires Distinct(g)
    requires multiset(v) + multiset(c) == multiset(g)
    ensures multiset(Without(g, v)) == multiset(c)
  {
    var w := Without(g, v);
    WithoutDistinct(g, v);
    WithoutMembers(g, v);
    DistinctPermutation(v + c, g);
    DistinctMultiplicity(v + c);
    DistinctMultiplicity(w);
    assert multiset(v + c) == multiset(v) + multiset(c);
    forall x ensures multiset(w)[x] == multiset(c)[x] {
      assert multiset(v + c)[x] <= 1 && multiset(w)[x] <= 1;
      if x in c {
        assert x in multiset(g);
        assert x !in v;
        assert x in w;
        assert multiset(w)[x] == 1 && multiset(c)[x] == 1;
      } else {
        assert x !in w;
      }
    }
    MultisetsAgree(multiset(w), multiset(c));
  }

  lemma MultisetsAgree<T>(a: multiset<T>, b: multiset<T>)
    requires forall x :: a[x] == b[x]
    ensures a == b
  {
  }

  /**
   * Two sequences that together rearrange a duplicate-free one are each
   * duplicate-free, share no element, and hold only its elements.
   */
  lemma DisjointParts<T>(a: seq<T>, b: seq<T>, whole: seq<T>)
    requires Distinct(whole)
    requires multiset(a) + multiset(b) == multiset(whole)
    ensures Distinct(a) && Distinct(b)
    ensures forall x :: x in a ==> x in whole && x !in b
    ensures forall x :: x in b ==> x in whole
  {
    var both := a + b;
    assert multiset(both) == multiset(whole);
    DistinctPermutation(both, whole);
    forall i, j | 0 <= i < j < |a| ensures Differ(a, i, j) {
      DistinctAt(both, i, j);
    }
    forall i, j | 0 <= i < j < |b| ensures Differ(b, i, j) {
      DistinctAt(both, |a| + i, |a| + j);
    }
    forall i, j | 0 <= i < |a| && 0 <= j < |b| ensures a[i] != b[j] {
      DistinctAt(both, i, |a| + j);
    }
    forall x | x in a ensures x in whole {
      assert x in multiset(whole);
    }
    forall x | x in b ensures x in whole {
      assert x in multiset(whole);
    }
  }
}

=== FILE: sprite_manager.dfy ===
/**
 * The registry of live sprites. Its `HashSet`s are kept as duplicate-free
 * sequences in insertion order.
 */
module SpriteManagers {
  import opened Seqs
  import opened Sprites
  import opened Blocks

  class SpriteManager {
    var activeSprites: seq<Sprite>
    /** Never written after construction. */
    var deadSprites: seq<Sprite>

    constructor ()
      ensures activeSprites == [] && deadSprites == []
    {
      activeSprites, deadSprites := [], [];
    }

    /** `collide(block, sprite)`: exactly `block.takeDamageFrom(sprite)`; no sprite changes. */
    method Collide(block: Block, sprite: Sprite)
      modifies block`damageTaken
      ensures block.damageTaken == old(block.damageTaken) + DamageTo(block.isRubber, sprite.kind, sprite.damageDealt)
    {
      block.TakeDamageFrom(sprite);
    }

    /**
     * `addLiveSprite(s)`: s becomes live; adding a sprite already live changes
     * nothing. Only the live sprites change.
     */
    method AddLiveSprite(s: Sprite)
      modifies this`activeSprites
      ensures s in activeSprites
      ensures old(s in activeSprites) ==> activeSprites == old(activeSprites)
      ensures old(s !in activeSprites) ==> activeSprites == old(activeSprites) + [s]
      ensures Distinct(old(activeSprites)) ==> Distinct(activeSprites)
    {
      if s !in activeSprites {
        if Distinct(activeSprites) {
          DistinctConcat(activeSprites, [s]);
        }
        activeSprites := activeSprites + [s];
      }
    }

    /** `getActiveSprites()`: the live collection itself. */
    function ActiveSprites(): seq<Sprite>
      reads this
    {
      activeSprites
    }

    /** `getDeadSprites()`. */
    function DeadSprites(): seq<Sprite>
      reads this
    {
      deadSprites
    }
  }
}

=== FILE: sprites.dfy ===
/**
 * Moving, collidable objects: balls, bullets and the paddle. The three kinds
 * share one class, tagged by `kind`, in place of the Java class
 * hierarchy and its `instanceof` tests; a field that only one kind uses is
 * marked with that kind. The paddle is the only Character: the only kind
 * with health points and damage taken.
 *
 * Coordinates and velocities are integers; velocities are in pixels per
 * frame.
 */
module Sprites {
  import opened Geometry
  import opened Properties

  datatype Kind = Ball | Bullet | Paddle

  /** What the collision pass reads of a sprite: its kind, its bounds and the damage it deals. */
  datatype Body = Body(kind: Kind, box: Rect, damage: int)

  /** What the argument of `collidesWith(Object)` can be: null, a sprite, a rectangle (block or power-up) or anything else. */
  datatype Target = Null | ToSprite(sprite: Sprite) | ToRectangle(rect: Rect) | ToOther

  class Sprite {
    const kind: Kind
    const width: int
    const height: int
    const damageDealt: int
    /** Right wall, for Ball and Paddle. */
    const sceneWidth: int
    /** Bottom wall, for Ball: screen height less the HUD. */
    const sceneHeight: int
    /** Position that `ResetPosition` restores, for Ball and Paddle. */
    const defaultX: int
    const defaultY: int
    /** Bullet: fired by the boss (moving down) rather than by the paddle. */
    const fromBoss: bool

    var x: int
    var y: int
    var vx: int
    var vy: int
    /** Ball: vertical speed of the next throw. */
    var throwSpeed: int
    /** Ball: also bounce off the bottom wall. */
    var inGodMode: bool
    /** Character (Paddle) health and damage taken. */
    var healthPoints: int
    var damageTaken: int
    /** Paddle: lives left. */
    var lives: int

    /** `new Ball(x, y)`: at rest, centred horizontally on x and half its height below y. */
    constructor MakeBall(cfg: Config, x0: int, y0: int)
      ensures kind == Ball && width == cfg.ballWidth && height == cfg.ballSize
      ensures damageDealt == cfg.ballDamage && throwSpeed == cfg.ballSpeed && !inGodMode
      ensures sceneWidth == cfg.screenWidth && sceneHeight == cfg.screenHeight - cfg.hudHeight
      ensures defaultX == x0 - width / 2 && defaultY == y0 + height / 2
      ensures x == defaultX && y == defaultY && vx == 0 && vy == 0
      ensures healthPoints == 0 && damageTaken == 0 && lives == 0 && !fromBoss
    {
      kind, width, height := Ball, cfg.ballWidth, cfg.ballSize;
      damageDealt := cfg.ballDamage;
      sceneWidth, sceneHeight := cfg.screenWidth, cfg.screenHeight - cfg.hudHeight;
      defaultX, defaultY := x0 - cfg.ballWidth / 2, y0 + cfg.ballSize / 2;
      fromBoss := false;
      x, y, vx, vy := x0 - cfg.ballWidth / 2, y0 + cfg.ballSize / 2, 0, 0;
      throwSpeed, inGodMode := cfg.ballSpeed, false;
      healthPoints, damageTaken, lives := 0, 0, 0;
    }

    /**
     * `new Ball(image, x, y)`: a ball built as by MakeBall whose image is then
     * replaced. The replacement image view starts at (0, 0), so the ball sits
     * there whatever x and y were, while its default position is the one
     * computed from the first image.
     */
    constructor MakeAuxiliaryBall(cfg: Config, x0: int, y0: int)
      ensures kind == Ball && width == cfg.auxiliaryBallWidth && height == cfg.ballSize
      ensures damageDealt == cfg.ballDamage && throwSpeed == cfg.ballSpeed && !inGodMode
      ensures sceneWidth == cfg.screenWidth && sceneHeight == cfg.screenHeight - cfg.hudHeight
      ensures defaultX == x0 - cfg.ballWidth / 2 && defaultY == y0 + cfg.ballSize / 2
      ensures x == 0 && y == 0 && vx == 0 && vy == 0
      ensures healthPoints == 0 && damageTaken == 0 && lives == 0 && !fromBoss
    {
      kind, width, height := Ball, cfg.auxiliaryBallWidth, cfg.ballSize;
      damageDealt := cfg.ballDamage;
      sceneWidth, sceneHeight := cfg.screenWidth, cfg.screenHeight - cfg.hudHeight;
      defaultX, defaultY := x0 - cfg.ballWidth / 2, y0 + cfg.ballSize / 2;
      fromBoss := false;
      x, y, vx, vy := 0, 0, 0, 0;
      throwSpeed, inGodMode := cfg.ballSpeed, false;
      healthPoints, damageTaken, lives := 0, 0, 0;
    }

    /** `new Bullet(x, y, fromBoss)`: at (x, y), moving down when fired by the boss and up when fired by the paddle. */
    constructor MakeBullet(cfg: Config, x0: int, y0: int, boss: bool)
      ensures kind == Bullet && fromBoss == boss
      ensures width == cfg.bulletWidth && height == cfg.bulletSize
      ensures damageDealt == cfg.bulletDamage
      ensures x == x0 && y == y0
      ensures vx == 0 && vy == if boss then cfg.bulletSpeed else -cfg.bulletSpeed
      ensures healthPoints == 0 && damageTaken == 0 && lives == 0
    {
      kind, width, height := Bullet, cfg.bulletWidth, cfg.bulletSize;
      damageDealt := cfg.bulletDamage;
      sceneWidth, sceneHeight := 0, 0;
      defaultX, defaultY := 0, 0;
      fromBoss := boss;
      x, y := x0, y0;
      vx, vy := 0, if boss then cfg.bulletSpeed else -cfg.bulletSpeed;
      throwSpeed, inGodMode := 0, false;
      healthPoints, damageTaken, lives := 0, 0, 0;
    }

    /**
     * `new Paddle(midSceneX, bottomScene, lives)`, with the Character part:
     * configured health and damage, no damage taken, the given lives, at rest
     * and centred on midSceneX with its bottom edge on bottomScene.
     */
    constructor MakePaddle(cfg: Config, midSceneX: int, bottomScene: int, paddleLives: int)
      ensures kind == Paddle && width == cfg.paddleWidth && height == cfg.paddleHeight
      ensures healthPoints == cfg.paddleHealth && damageDealt == cfg.paddleDamage && damageTaken == 0
      ensures lives == paddleLives
      ensures sceneWidth == cfg.screenWidth
      ensures defaultX == midSceneX - width / 2 && defaultY == bottomScene - height
      ensures x == defaultX && y == defaultY && vx == 0 && vy == 0
      ensures !fromBoss && !inGodMode
    {
      kind, width, height := Paddle, cfg.paddleWidth, cfg.paddleHeight;
      damageDealt := cfg.paddleDamage;
      sceneWidth, sceneHeight := cfg.screenWidth, cfg.screenHeight;
      defaultX, defaultY := midSceneX - cfg.paddleWidth / 2, bottomScene - cfg.paddleHeight;
      fromBoss := false;
      x, y, vx, vy := midSceneX - cfg.paddleWidth / 2, bottomScene - cfg.paddleHeight, 0, 0;
      throwSpeed, inGodMode := 0, false;
      healthPoints, damageTaken, lives := cfg.paddleHealth, 0, paddleLives;
    }

    /** The sprite's bounds. */
    function Box(): Rect
      reads this`x, this`y
    {
      Rect(x, y, width, height)
    }

    function Snapshot(): Body
      reads this`x, this`y
    {
      Body(kind, Box(), damageDealt)
    }

    /**
     * `collidesWith(other)`: never for null or for an object that is neither a
     * sprite nor a rectangle, never for the sprite itself; otherwise exactly
     * when the bounds intersect.
     */
    predicate CollidesWith(other: Target)
      reads this, if other.ToSprite? then {other.sprite} else {}
    {
      match other
      case Null => false
      case ToSprite(s) => s != this && Intersects(Box(), s.Box())
      case ToRectangle(rect) => Intersects(Box(), rect)
      case ToOther => false
    }

    /** `updatePosition(dt)`: one step along the velocity; the velocity is kept. */
    method UpdatePosition(dt: int)
      modifies this`x, this`y
      ensures x == old(x) + vx * dt && y == old(y) + vy * dt
    {
      x := x + vx * dt;
      y := y + vy * dt;
    }

    /** `reverseCourseX`: the horizontal velocity changes sign, the vertical one is kept. */
    method ReverseCourseX()
      modifies this`vx
      ensures vx == -old(vx)
    {
      vx := -vx;
    }

    /** `reverseCourseY`: the vertical velocity changes sign, the horizontal one is kept. */
    method ReverseCourseY()
      modifies this`vy
      ensures vy == -old(vy)
    {
      vy := -vy;
    }

    /**
     * `bounceOffBlock`: exactly one velocity component changes sign, the
     * vertical one when the sprite struck the top or bottom face of the block
     * (see Geometry.HitsTopOrBottom), the horizontal one otherwise.
     */
    method BounceOffBlock(block: Rect)
      modifies this`vx, this`vy
      ensures HitsTopOrBottom(Box(), block) ==> vy == -old(vy) && vx == old(vx)
      ensures !HitsTopOrBottom(Box(), block) ==> vx == -old(vx) && vy == old(vy)
    {
      if HitsTopOrBottom(Box(), block) {
        ReverseCourseY();
      } else {
        ReverseCourseX();
      }
    }

    /** A left edge at px is out past the left or right wall. */
    predicate PastSideWall(px: int) {
      px < 0 || px > sceneWidth - width
    }

    /** A top edge at py is out past the top wall, or, in god mode only, past the bottom wall. */
    predicate PastTopOrFloor(py: int)
      reads this`inGodMode
    {
      py < 0 || (inGodMode && py > sceneHeight - height)
    }

    /** The velocity `Bounce` leaves, from velocity (ux, uy), with the sprite at (px, py). */
    function Rebound(px: int, py: int, ux: int, uy: int): (int, int)
      reads this`inGodMode
    {
      match kind
      case Ball => (if PastSideWall(px) then -ux else ux, if PastTopOrFloor(py) then -uy else uy)
      case Paddle => (if PastSideWall(px) then -ux else ux, uy)
      case Bullet => (ux, uy)
    }

    /**
     * `bounce()`: a ball reflects off the side walls and the top wall, and off
     * the bottom wall only in god mode; the paddle reflects horizontally off
     * the side walls only; a bullet never reflects. Position never changes.
     */
    method Bounce()
      modifies this`vx, this`vy
      ensures (vx, vy) == Rebound(x, y, old(vx), old(vy))
      ensures kind != Bullet ==> (vx == -old(vx) <==> PastSideWall(x) || old(vx) == 0)
      ensures kind == Ball && !inGodMode && y >= 0 ==> vy == old(vy)
      ensures kind != Ball ==> vy == old(vy)
      ensures kind == Bullet ==> vx == old(vx)
    {
      match kind {
        case Ball =>
          if PastSideWall(x) {
            vx := -vx;
          }
          if PastTopOrFloor(y) {
            vy := -vy;
          }
        case Paddle =>
          if PastSideWall(x) {
            vx := -vx;
          }
        case Bullet =>
      }
    }

    /** `setVelocity`. */
    method SetVelocity(ux: int, uy: int)
      modifies this`vx, this`vy
      ensures vx == ux && vy == uy
    {
      vx, vy := ux, uy;
    }

    /** `setX`. */
    method SetX(px: int)
      modifies this`x
      ensures x == px
    {
      x := px;
    }

    /** Ball `beThrown(xVelocity)`: back to the default height, moving up at the throw speed with the given horizontal speed. */
    method BeThrown(xVelocity: int)
      requires kind == Ball
      modifies this`y, this`vx, this`vy
      ensures y == defaultY && vx == xVelocity && vy == -throwSpeed
    {
      y := defaultY;
      vx, vy := xVelocity, -throwSpeed;
    }

    /** Ball `slow(speedFactor)`: the throw speed is multiplied by the factor. */
    method Slow(speedFactor: int)
      requires kind == Ball
      modifies this`throwSpeed
      ensures throwSpeed == old(throwSpeed) * speedFactor
    {
      throwSpeed := throwSpeed * speedFactor;
    }

    /** Ball `setThrowSpeed`. */
    method SetThrowSpeed(speed: int)
      requires kind == Ball
      modifies this`throwSpeed
      ensures throwSpeed == speed
    {
      throwSpeed := speed;
    }

    /** Ball and Paddle `resetPosition()`: back to the default position, velocity kept. */
    method ResetPosition()
      requires kind != Bullet
      modifies this`x, this`y
      ensures x == defaultX && y == defaultY
    {
      x, y := defaultX, defaultY;
    }

    /** Ball `setInGodMode`. */
    method SetInGodMode(on: bool)
      requires kind == Ball
      modifies this`inGodMode
      ensures IsInGodMode() == on
    {
      inGodMode := on;
    }

    predicate IsInGodMode()
      reads this`inGodMode
    {
      inGodMode
    }

    /** Bullet `isFromBoss()`: the flag given at construction. */
    predicate IsFromBoss() {
      fromBoss
    }

    /** Character `takeDamage(damage)`: damage taken grows by exactly `damage`. */
    method TakeDamage(damage: int)
      requires kind == Paddle
      modifies this`damageTaken
      ensures damageTaken == old(damageTaken) + damage
    {
      damageTaken := damageTaken + damage;
    }

    /** Character `heal(points)`: health points grow by `points`, damage taken is kept. */
    method Heal(points: int)
      requires kind == Paddle
      modifies this`healthPoints
      ensures healthPoints == old(healthPoints) + points
    {
      healthPoints := healthPoints + points;
    }

    /** Character `setMyHealthPoints`. */
    method SetMyHealthPoints(points: int)
      requires kind == Paddle
      modifies this`healthPoints
      ensures healthPoints == points
    {
      healthPoints := points;
    }

    /** Character `resetHealth()`: no damage taken; a character with health is then alive. */
    method ResetHealth()
      requires kind == Paddle
      modifies this`damageTaken
      ensures damageTaken == 0
      ensures healthPoints >= 0 ==> !IsDead()
    {
      damageTaken := 0;
    }

    /** Character `isDead()`: strictly more damage taken than health points (a block dies at equality). */
    predicate IsDead()
      reads this`damageTaken, this`healthPoints
    {
      damageTaken > healthPoints
    }

    /** Paddle `takeDamageFrom(sprite)`: only bullets hurt the paddle, from the boss or not. */
    method TakeDamageFrom(sprite: Sprite)
      requires kind == Paddle
      modifies this`damageTaken
      ensures damageTaken == old(damageTaken) + (if sprite.kind == Bullet then sprite.damageDealt else 0)
    {
      if sprite.kind == Bullet {
        TakeDamage(sprite.damageDealt);
      }
    }

    /** Paddle `getLives()`. */
    function Lives(): int
      reads this`lives
    {
      lives
    }

    /** Paddle `setLives(n)`: `Lives()` then reads n. */
    method SetLives(n: int)
      requires kind == Paddle
      modifies this`lives
      ensures Lives() == n
    {
      lives := n;
    }
  }

  /**
   * Collision between two sprites is mutual: whichever of the two asks, the
   * answer is the same; and no sprite collides with itself.
   */
  lemma CollidesWithMutual(s: Sprite, t: Sprite)
    ensures s.CollidesWith(ToSprite(t)) == t.CollidesWith(ToSprite(s))
    ensures !s.CollidesWith(ToSprite(s))
  {
    IntersectsSymmetric(s.Box(), t.Box());
  }
}
